=== FILE: README.md ===
# vars — a Dafny model of a small configuration-file library

`vars` is a single-header C library. It loads a text file of `key value` lines,
lets a program read and update typed values, saves the file back in a canonical
order, and reloads it when the file changes on disk. It comes in two variants,
and both are modelled here.

- **`vars.h`** keeps a *normalised text buffer* (`parsed_buf`):
  - Loading rewrites the file into one line per entry. Comments, blank lines
    and stray characters are dropped. Inside a `:/section` block, keys get a
    `section/` prefix.
  - Lookups scan this buffer line by line.
  - Setters rewrite the buffer.
  - `vars_save` collects the entries, sorts them by section and key, and writes
    one `:/section` group per run.
- **`vars_hashmap.h`** tokenises the file into NUL-separated key/value pairs.
  - The pairs go into a fixed 128-slot open-addressing table, keyed by FNV-1a
    with linear probing.
  - Its getters read from that table.

The model works on values throughout. The vars.h buffer is a `string`. A table
is a sequence of optional pairs. Every C routine is a pure function or a short
method. The file system is replaced by parameters:
- the file's contents, or `None` when `fopen` fails;
- the `stat` mtime, or `-1`;
- whether the file can be opened for writing.

Modules, one per file:

| module | file | models |
|---|---|---|
| `CharClass` | chars.dfy | the `IS_*` character macros |
| `Scan` | scan.dfy | pointer scans (`while (p(*s)) s++`), C-string prefixes |
| `Wrappers` | wrappers.dfy | `Option` |
| `Decimal` | decimal.dfy | `snprintf("%d")` and `strtol(…, 10)` |
| `VecSyntax` | vec.dfy | `vars__parse_vec` (both variants) and the `( … )` text of the vector setters |
| `Normaliser` | normaliser.dfy | `vars__load_and_parse_file` |
| `Buffer` | buffer.dfy | `vars__find_key_value`, `vars__update_or_add_key` |
| `Accessors` | accessors.dfy | `vars_set_*`, `vars_get_*` of vars.h |
| `Writer` | writer.dfy | `vars_entry_compare`, the collecting loop, the `qsort` and the writing loop of `vars_save` |
| `SaveLoad` | saveload.dfy | save-then-load round trips |
| `VarsFile` | varsfile.dfy | `vars_load`, `vars_save`, `vars_hot_load` on a document value |
| `Fnv1a` | fnv.dfy | `vars__hash_fnv1a` |
| `ProbeTable` | table.dfy | `vars__map_init`, `vars__map_insert`, `vars__map_get` |
| `HashmapVars` | hashmap.dfy | `vars_load` and `vars_get_*` of vars_hashmap.h |

## Model

| member | source | states |
|---|---|---|
| Normaliser.NormaliseShape | vars.h:207-306 | the parsed buffer holds no '\r', starts with no '\n', ends with '\n' when non-empty, and has no empty line: every kept line is closed by exactly one line break |
| Normaliser.NormaliseTerminated | vars.h:207-308 | a file with no NUL loads into a buffer with no NUL, so the C string functions see all of it, and the buffer is empty or ends with a line break |
| Normaliser.KeyLine | vars.h:267-293 | a `key tok1 tok2 …` line is written as the section-prefixed key followed by the tokens, each with one blank before it, and the scan stops at the line end |
| Normaliser.ValueScan | vars.h:250-296 | after the first token, any runs of dropped characters between tokens collapse to one blank each and the scan stops at the line end |
| Normaliser.HeaderLine | vars.h:223-248 | a `:/name` line makes the name, cut to 254 characters, the current section and is written as `:/name` |
| Normaliser.Capped | vars.h:228-235 | the stored section name is a prefix of the header's name, at most 254 characters long, and the whole name when it fits |
| Normaliser.QuotedOpen | vars.h:250-265 | a quote left open at the line end is still written, up to the line end, and the line goes on |
| Normaliser.CommentLine | vars.h:216-221 | a `#` outside a quoted token discards the rest of the line and writes nothing |
| Normaliser.BareItem | vars.h:267-293 | a bare token is read whole; the first one on a line gets the `section/` prefix, later ones a blank |
| Normaliser.RunSkip | vars.h:207-210 | leading blanks and line breaks never reach the line scanner: the loaded buffer is the same without them |
| Buffer.FindStep | vars.h:313-334 | on a closed line, the lookup either returns the value after the key and its blanks (when the line starts with the key and a blank) or moves on to the next line |
| Buffer.RewriteFound | vars.h:348-378 | the copy loop sets key_found exactly when the lookup finds the key |
| Buffer.UpsertAppends | vars.h:378-385 | for a key the buffer lacks, the update appends the line `key value\n` and leaves everything before it unchanged |
| Buffer.UpsertThenLookup | vars.h:336-394 | after an update, the lookup finds exactly the new value followed by a line break, whether a line was replaced or appended |
| Buffer.UpsertKeepsOthers | vars.h:336-394 | after an update, every other blank-free key reads the same text on its line as before |
| Buffer.UpsertIdempotent | vars.h:336-394 | repeating the same update leaves the buffer as the first update left it |
| Buffer.UpsertTerminated | vars.h:348-387 | an update keeps every line closed by a line break |
| Buffer.UpsertNoNul | vars.h:387 | the updated buffer holds no NUL, so the next lookup sees all of it |
| Decimal.NatDigits | vars.h:430 | the decimal spelling of a natural number is non-empty, all digits, and reads back as that number |
| Decimal.StrtolFormatInt | vars.h:635-644 | strtol reads the `%d` text of any integer back as that integer when no digit follows it |
| Decimal.StrtolNoDigits | vars.h:639-641 | text without digits makes strtol consume nothing |
| Accessors.ReadString | vars.h:604-622 | the string is returned exactly when the value opens with a quote and a closing quote follows with no NUL before it; the result is the text between the two quotes |
| Accessors.QuotedUnique | vars.h:613-618 | the closing quote the copy loop stops at is unique |
| Accessors.ToLong | vars.h:640 | strtol saturates on ERANGE: the result is a 64-bit long, and no long lies nearer to the number read |
| Accessors.ToLongClamps | vars.h:640 | the nearest long is the number itself when it fits, LONG_MIN below the range and LONG_MAX above it |
| Accessors.Wrap32 | vars.h:643 | the `(int)` cast gives the value modulo 2^32 as two's complement, and the value itself when it fits an int |
| Accessors.ReadBool | vars.h:692-704 | 1 exactly when the value starts with the word "true", 0 exactly for the word "false", and -1 otherwise |
| Accessors.ReadFloat | vars.h:624-633 | a number is returned exactly when strtof consumed at least one character (otherwise 0.0f), and it is the prefix of the value strtof consumed, of exactly that length |
| Accessors.GetVec | vars.h:668-690 | the vector always has N components, and all of them are zero for a missing key |
| Accessors.GetVecShort | vars.h:646-682 | a vec3 read of a stored two-number vector: vars__parse_vec fails at the `)`, yet the two numbers it read stay in the vector and the third stays zero |
| Accessors.GetMissing | vars.h:604-694 | for a key the buffer does not hold: vars_get_string gives NULL, vars_get_int INT_MIN, vars_get_bool 0, vars_get_float 0.0f and vars_get_vecN the zero vector |
| Accessors.FoundAfterUpsert | vars.h:336-394 | right after an update, the lookup returns the stored text followed by a line break |
| Accessors.GetIntSetInt | vars.h:426-432 | vars_get_int reads back every int that vars_set_int stored |
| Accessors.GetBoolSetBool | vars.h:434-438 | vars_get_bool reads 1 after vars_set_bool with a nonzero value and 0 after zero |
| Accessors.GetStringSetString | vars.h:400-416 | vars_get_string reads back the value vars_set_string stored, for a value with no quote, NUL or line break |
| Accessors.GetFloatSetFloat | vars.h:418-424 | vars_get_float reads back the number text stored, given a scanner that reads it whole |
| Accessors.GetVecSetVec | vars.h:440-462 | vars_get_vecN reads back every component text vars_set_vecN stored, given a scanner that reads each numeral whole |
| Accessors.ReadBoolOfLine | vars.h:696-703 | reading a boolean looks no further than the first line of the value |
| Accessors.UpsertKeepsOtherBool | vars.h:336-394 | storing any value under one key leaves vars_get_bool of every other key unchanged |
| VecSyntax.ParseVec | vars.h:646-666 | at most N numbers are read, each non-empty; success means exactly N; a value that does not open with '(' reads nothing |
| VecSyntax.ParseVecText | vars.h:646-666 | the `( … )` text of N numerals parses back as those N numerals, successfully |
| VecSyntax.Components | vars.h:646-690 | the vector as the C code builds it (the zero vector, then `out[i]` written for each number read, in order) holds each number read at its index and zero in every component not read |
| VecSyntax.TwoOfThree | vars.h:676-682 | two numbers read into a vec3 give (x, y, 0) |
| VecSyntax.ParseTwoAsThree | vars_hashmap.h:143-155 | a vector text of two numbers, read as three, fails but keeps the two numbers it read |
| Writer.Split | vars.h:511-518 | a key splits at its first '/' into section and key, and the value is kept; a key without '/' has no section |
| Writer.StrCmp | vars.h:146 | strcmp's sign is 0 exactly for equal strings |
| Writer.EntryCompareFlip | vars.h:137-150 | swapping the arguments of vars_entry_compare flips its sign |
| Writer.EntryCompareTrans | vars.h:137-150 | vars_entry_compare orders entries transitively |
| Writer.Sort | vars.h:527 | the result is a permutation of the input, sorted by vars_entry_compare |
| Writer.RenderLayout | vars.h:536-556 | the written file is one `key value` line per global entry, then, per run of one section, a blank line unless it opens the file, a `:/name` header and the run's lines |
| Writer.Groups | vars.h:541-547 | entries that all have a section split into maximal runs of one section, which flatten back to the entries |
| Writer.RenderNonEmpty | vars.h:555 | every entry writes at least its own line |
| SaveLoad.RenderGlobalsFirst | vars.h:536-556 | with the globals first, the file is the globals' lines, then the section runs of what follows; the return-to-globals branch never fires |
| SaveLoad.CollectLoaded | vars.h:476-525 | the save loop reads the loaded lines back as the entries that were saved |
| SaveLoad.RenderThenCollect | vars.h:468-564 | loading the saved text and collecting it again gives back the same entries, for every well-formed list with the globals first |
| SaveLoad.SortedGlobalsFirst | vars.h:141-144 | a list sorted by vars_entry_compare has its entries without a section first |
| SaveLoad.SaveThenLoad | vars.h:468-564 | the entries read from the reloaded saved file are the original entries in sorted order |
| SaveLoad.SortSorted | vars.h:527 | sorting entries already in order changes nothing |
| SaveLoad.SaveIdempotent | vars.h:468-564 | saving, loading the result and saving again writes the same text |
| VarsFile.Load | vars.h:713-728 | the load ends the process when the file cannot be opened or is empty; otherwise it records the path and mtime |
| VarsFile.HotLoad | vars.h:570-602 | the file is reloaded exactly when the path is set, stat succeeds, the mtime is strictly newer and the file can be read and is not empty; the program exits exactly when the file is newer but cannot be read or is empty; otherwise the document is unchanged |
| VarsFile.Save | vars.h:468-564 | it returns 1 exactly when the path is set and the file opens for writing; the buffer is kept; on failure nothing changes |
| VarsFile.SaveThenHotLoad | vars.h:561 | after a save records the file's mtime, a hot load that sees that mtime reports no change |
| VarsFile.SaveThenLoad | vars.h:468-564 | loading a saved document gives a buffer holding the same entries in vars_entry_compare order |
| VarsFile.SaveEmptyThenLoad | vars.h:177-181 | a buffer with no entries is saved as an empty file, which the next load refuses |
| VarsFile.LoadTerminated | vars.h:164-311 | a non-empty file without NUL loads into a C string whose every line is closed, as the setters need |
| VarsFile.LoadSetThenGetInt | vars.h:426-432 | on a freshly loaded file, vars_get_int reads back what vars_set_int stored |
| VarsFile.LoadedFirstLine | vars.h:313-334 | after loading a file whose first line is `key` and tokens, the lookup finds the tokens joined by single blanks |
| VarsFile.LoadThenGetInt | vars.h:635-644 | a file whose first line is `key n` loads so that vars_get_int gives n |
| VarsFile.LoadThenGetString | vars.h:604-622 | a file whose first line is `key "text"` loads so that vars_get_string gives text |
| Fnv1a.HashKey | vars_hashmap.h:82-89 | the loop computes FNV-1a over the bytes before the first NUL, multiplying modulo 2^32 |
| Fnv1a.HashIsFold | vars_hashmap.h:82-89 | the recursive definition of the hash agrees with the front-to-back loop |
| Fnv1a.HashA | vars_hashmap.h:82-89 | the offset basis and prime give the published 32-bit FNV-1a value for "a", 0xe40c292c |
| ProbeTable.Probe | vars_hashmap.h:103 | a probe step always lands inside the table |
| ProbeTable.ProbeInjective | vars_hashmap.h:102-103 | one sweep of the table visits no slot twice |
| ProbeTable.InitValid | vars_hashmap.h:91-96 | a fresh table satisfies the invariant and finds no key |
| ProbeTable.InsertFull | vars_hashmap.h:98-111 | insert into a full table changes nothing |
| ProbeTable.InsertPlaces | vars_hashmap.h:98-111 | with room left, the pair goes into the first empty slot on the key's probe path, nothing else changes, and the count rises by one |
| ProbeTable.InsertValid | vars_hashmap.h:98-111 | insert keeps the count equal to the occupied slots and keeps every probe path unbroken |
| ProbeTable.GetFound | vars_hashmap.h:113-125 | the lookup returns v exactly when v is stored under the key with only other keys before it on the probe path |
| ProbeTable.GetNoneAbsent | vars_hashmap.h:113-125 | in a valid table the lookup misses exactly when no slot holds the key |
| ProbeTable.InsertThenGet | vars_hashmap.h:98-125 | a key the table did not find is found, with the inserted value, after insert |
| ProbeTable.InsertFirstWins | vars_hashmap.h:98-125 | a later insert never changes a lookup that already succeeds |
| ProbeTable.InsertOther | vars_hashmap.h:98-125 | inserting one key leaves the lookup of every other key as it was |
| HashmapVars.Step | vars_hashmap.h:236-263 | every pass of the loader's loop consumes input, so the loop ends |
| HashmapVars.InsertAllValid | vars_hashmap.h:236-263 | loading any number of pairs keeps the table invariant |
| HashmapVars.InsertAllKeeps | vars_hashmap.h:236-263 | a key already found keeps its value however many pairs follow, even into a full table |
| HashmapVars.LoadGet | vars_hashmap.h:217-267 | with at most 128 pairs, the loaded table maps every key to the value of its first occurrence in the file |
| HashmapVars.LoadFirstPair | vars_hashmap.h:217-267 | the first pair of a file is found, whatever follows it |
| HashmapVars.KeyValuePairs | vars_hashmap.h:243-262 | a `key value` line with no quote inserts (key, value), with `#` and trailing blanks kept in the value, then the lines after it are read |
| HashmapVars.KeyQuotedLine | vars_hashmap.h:252-255 | a quoted value runs to the next '"', across line breaks, and keeps both quotes |
| HashmapVars.BlankLine | vars_hashmap.h:237-262 | a pass that starts on a line holding only blanks (such as an empty first line) inserts the pair ("", "") and skips every line break after it; blank lines after an entry are skipped by the previous pass and insert nothing |
| HashmapVars.CommentLine | vars_hashmap.h:238-241 | a `#` line leaves the cursor on its line break, so the next pass inserts ("", "") |
| HashmapVars.CommentAtEnd | vars_hashmap.h:238-241 | a comment on the last line, with no line break after it, inserts nothing |
| HashmapVars.LoadKeyValue | vars_hashmap.h:217-267 | a file whose first line is `key value` maps key to value |
| HashmapVars.LoadKeyQuoted | vars_hashmap.h:217-267 | a file whose first line is `key "body"` maps key to the quoted text |
| HashmapVars.LoadKeyOpenQuote | vars_hashmap.h:252-255 | an unclosed quote takes the rest of the file as the value |
| HashmapVars.ReadString | vars_hashmap.h:157-168 | a string is returned exactly when the value opens with '"'; it is the longest run after the quote with no '"' and no NUL, closed or not |
| HashmapVars.ReadInt | vars_hashmap.h:176-180 | `(int)strtol`: 0 when no digit is read, the number itself when it fits an int |
| HashmapVars.GetBool | vars_hashmap.h:182-186 | the result is -1, 0 or 1 |
| HashmapVars.GetVec | vars_hashmap.h:188-207 | the vector always has N components |
| HashmapVars.FirstFound | vars_hashmap.h:236-263 | First finds v exactly when v is the value of the earliest pair with the key |
| HashmapVars.GetMissing | vars_hashmap.h:157-207 | for a key no line defines: NULL string, INT_MIN, -1, zero float and all-zero vector |
| HashmapVars.LoadGetString | vars_hashmap.h:157-168 | vars_get_string on a `key "body"` line returns body |
| HashmapVars.LoadGetOpenString | vars_hashmap.h:157-168 | an unclosed string still reads back: everything after the quote |
| HashmapVars.LoadGetInt | vars_hashmap.h:176-180 | vars_get_int reads back the `%d` text of any int |
| HashmapVars.LoadGetIntNoDigits | vars_hashmap.h:176-180 | a value without digits reads as 0, not as the INT_MIN of a missing key |
| HashmapVars.LoadGetBool | vars_hashmap.h:182-186 | vars_get_bool is 1 exactly when the whole value is "true", and 0 otherwise |
| HashmapVars.LoadGetBoolTrailingBlank | vars_hashmap.h:182-186 | a blank after "true" is part of the value, so the flag reads 0 |
| HashmapVars.LoadGetFloat | vars_hashmap.h:170-174 | vars_get_float reads back a number strtof reads whole |
| HashmapVars.LoadGetVec | vars_hashmap.h:188-207 | vars_get_vecN reads back every component of a `( … )` line with N numbers |
| HashmapVars.LoadGetVecShort | vars_hashmap.h:143-155 | a vec3 read of a two-number vector keeps the two numbers read and leaves the third at zero |
| HashmapVars.WrittenFits | vars_hashmap.h:243-259 | the loader never writes more than three bytes of parsed_buf per byte of input |
| HashmapVars.LoadFile | vars_hashmap.h:217-267 | with parsed_buf sized at three times the file, every byte written fits, and the table is valid |
| HashmapVars.ParsedOverflow | vars_hashmap.h:226 | for a one-line file `key value` with no final line break, the loader writes one byte more than the file size it allocated |
| HashmapVars.UnguardedReads | vars_hashmap.h:236-256 | the input left at each `*cursor` test made without `cursor < end` ('#' at line 238, '"' at 252 and 255): one to three tests per pass, each inside the file or at its end |
| HashmapVars.KeyAtEndReadsPastEnd | vars_hashmap.h:243-252 | a file that ends in a key, such as the 1-byte file `a`, reaches the quote test of line 252 with no input left, so it reads filebuf[size] |
| HashmapVars.BlanksAtEndReadPastEnd | vars_hashmap.h:236-238 | after a `key value` line, a last line of blanks only (`k v\n `) leaves the next pass's '#' test with no input left |
| HashmapVars.OpenQuoteReadsPastEnd | vars_hashmap.h:252-255 | a file ending in an unclosed quote (`k "x`) reaches the closing-quote test of line 255 with no input left |
| HashmapVars.KeyAtEnd | vars_hashmap.h:243-261 | with the reads guarded, a key at the end of the file is inserted with the empty value and the pass writes the key and two NULs, within three bytes per input byte |

## Left out

- VecSyntax.NumberScanner: stands in for `strtof`. A number is the prefix the scanner reads, not a float value. The `"%.6f"` formatting of `vars_set_float` and `vars_set_vecN` (vars.h:418-462) is not modelled: `Accessors.SetFloat` and `Accessors.SetVec` take the numeral text as given. Float rounding, `snprintf` truncation of long numerals at 32/64/96/128 bytes, and what `vars_get_float` turns a numeral into (vars.h:624-633) are not modelled.
- Buffer sizes: every buffer is an unbounded `string`. `parsed_buf` is a fixed `2 * file_size` allocation (vars.h:184); section prefixes of up to 254 characters can outgrow it. The update buffer (vars.h:339) is `parsed_len + strlen(key) + strlen(value) + 100`; several lines holding the same key can each be rewritten with a long value and outgrow it. A file with no final line break also outgrows it: the 1-byte file `a` makes the loop write `a`, the `\n` of vars.h:300 and the `\0` of vars.h:308, 3 bytes into the 2-byte `parsed_buf`. None of these overflows is modelled.
- The caller's `buffer` in `vars_get_string` (both variants) has unchecked size. The model returns the copied text.
- Allocation failure: every `malloc`/`calloc` is taken to succeed. The `NULL` checks of vars.h:185-189, 341, 406, 588-592 and 719-723 are not modelled, and neither are `NULL` arguments.
- Setters' return value: the `int` the setters return (0 for a `NULL` argument or failed allocation, 1 otherwise) is not modelled. `Accessors.Set*` and `Buffer.Upsert` return the new buffer.
- Messages: the `fprintf(stderr, …)` messages are output only and are not modelled. This includes "Unterminated string" (vars.h:261). The open quote itself is modelled (`Normaliser.QuotedOpen`).
- VarsFile.Exit: `exit(EXIT_FAILURE)` is modelled as the `Exit` outcome of `VarsFile.Load`/`VarsFile.HotLoad` for a file that cannot be opened or is empty. A short read (vars.h:194-199) is not modelled; the file contents are a parameter.
- Memory ownership is not modelled. This covers `vars_free` and `vars__map_free`, and the `file_path` that `vars_hot_load` leaks when it overwrites `*file` (vars.h:596-599).
- Accessors.Wrap32: models the `(int)` conversion of a `long` as two's complement modulo 2^32. C leaves that conversion implementation-defined; this is what GCC and Clang do.
- Accessors.ToLong: assumes a 64-bit `long` (LP64); on a platform with a 32-bit `long`, strtol would saturate at ±2^31.
- Writer.Sort: a stable insertion sort. `qsort` (vars.h:527) is not stable, and `vars_entry_compare` returns 0 for two entries with the same section and key but different values. With such duplicates, C may order them either way. The two lemmas below rely on the stable order.
- SaveLoad.SortSorted: proved for the stable `Writer.Sort`; with `qsort`, entries with equal section and key may be swapped, so "sorting sorted entries changes nothing" is not promised when two entries share a section and key.
- SaveLoad.SaveIdempotent: proved for the stable `Writer.Sort`; for a buffer that holds one key twice in a section, `qsort` may order the duplicates differently on the second save, so equal output is not promised there.
- Accessors.GetStringSetString: requires a value without line breaks, although `vars_get_string` copies across line breaks (vars.h:613). A value with a line break is stored as two lines of the buffer, and the update lemmas it rests on (`Accessors.FoundAfterUpsert`, `Buffer.UpsertThenLookup`) are stated for one-line values.
- Buffer.UpsertKeepsOthers: compares only what another key reads on its own line, and only for keys without blanks. The text after that line does change, by the update itself.
- VarsFile.SaveThenLoad: requires a non-empty, well-formed entry list. `VarsFile.SaveEmptyThenLoad` covers the empty case.
- Writer.RenderLayout: for sorted input, it does not prove that each section forms one run. It proves only that neighbouring runs differ in section.
- HashmapVars.LoadGet: requires at most 128 pairs. Beyond that the table is full and further inserts are dropped (`ProbeTable.InsertFull`). `HashmapVars.InsertAllKeeps` still holds for keys found earlier.
- NUL bytes in a file: C string functions stop at the first NUL. `VarsFile.LoadTerminated` and the read-back lemmas require NUL-free input. The buffers themselves are modelled with `Scan.CStr` and keep any NUL.
- HashmapVars.At: the tests `*cursor == '#'` (vars_hashmap.h:238), `*cursor == '"'` (line 252) and the closing-quote test (line 255) do not check `cursor < end`, so at the end of the file they read filebuf[size], one byte past `malloc(size)` (line 225). The model reads the end of the file as matching nothing. When that stray byte happens to be `"`, the C copies it and moves `cursor` past `end`; the 1-byte file `a` could then write `a\0""\0`, 5 bytes. `HashmapVars.WrittenFits`, `HashmapVars.LoadFile` and the value of `HashmapVars.LoadKeyOpenQuote` hold only for the guarded reads; see "## Findings".
- Characters are bytes: `char` stands for an 8-bit byte. There is no encoding or locale; `isspace` in vars.h:651 is taken in the "C" locale.

## Notes on behaviour as written

- Both tables keep the first value stored under a key. The hash table never overwrites a slot (`ProbeTable.InsertFirstWins`, `HashmapVars.LoadGet`). The vars.h lookup returns the first matching line.
- A vector read that fails part-way keeps the components already parsed (`VecSyntax.Components`, `HashmapVars.LoadGetVecShort`); the rest stay zero.
- The hash-table `vars_get_string` returns the text after an opening quote even when the closing quote is missing (`HashmapVars.LoadGetOpenString`). The vars.h version returns NULL (`Accessors.ReadString`).
- The hash-table `vars_get_bool` returns 1 only for the exact value "true", 0 for every other value, and -1 for a missing key. The hash-table `vars_get_int` returns 0 for a value with no digits and INT_MIN only for a missing key.
- The hash-table loader inserts the pair ("", "") once for each comment line that ends in a line break, for a line of blanks only, and for an empty first line (`HashmapVars.BlankLine`, `HashmapVars.CommentLine`). Empty lines after an entry insert nothing, because the pass that read the entry skips every following line break (vars_hashmap.h:262): `k v\n\nc d` gives the pairs (k, v) and (c, d), while `# c\n\nk v` gives ("", "") and (k, v). Such pairs take table slots.

## Findings

| source | as written | input that shows it | evidently intended | confidence | as-written member | corrected member |
|---|---|---|---|---|---|---|
| vars_hashmap.h:226 | `parsed_buf = malloc(size)`, the size of the file; the loop writes each key and value followed by a NUL | the 3-byte file `a b` with no final line break: the loop writes `a\0b\0`, 4 bytes | a parsed buffer large enough for every byte the loop writes; three bytes per input byte suffice (a lone `a` writes `a\0\0`), given the end-of-file reads of the next row guarded | not executed | HashmapVars.ParsedOverflow | HashmapVars.WrittenFits |
| vars_hashmap.h:238 | `*cursor == '#'` (line 238), `*cursor == '"'` (line 252) and the closing-quote test (line 255) are made without `cursor < end`; `filebuf` is `malloc(size)` with no terminator | the 1-byte file `a`: after the key, line 252 reads filebuf[1], past the 1-byte allocation; `k v\n ` and `k "x` reach lines 238 and 255 the same way | every test guarded by `cursor < end`, so a key at the end of the file gets an empty value | not executed | HashmapVars.KeyAtEndReadsPastEnd | HashmapVars.KeyAtEnd |

=== FILE: accessors.dfy ===
/**
 The typed accessors of vars.h. Every setter formats its value as text and
 hands it to vars__update_or_add_key (Buffer.Upsert); every getter finds the
 text after the key (Buffer.Lookup) and reads it with a C library routine.
 Floats are not modelled: a float is the text "%.6f" produced for it, and
 strtof is a NumberScanner.
 */
module Accessors {
  import opened CharClass
  import opened Scan
  import opened Wrappers
  import opened Decimal
  import opened VecSyntax
  import opened Buffer

  /** Text that stays on one line of a C string. */
  predicate Plain(s: string) {
    '\0' !in s && NoEol(s)
  }

  /** A key the buffer can hold on a line of its own: not a ":/" header. */
  predicate PlainKey(key: string) {
    Plain(key) && !IsHeaderAt(key)
  }

  // ---------------------------------------------------------------
  // Setters
  // ---------------------------------------------------------------

  /** vars_set_string: the value between double quotes. */
  function SetString(key: string, value: string, buf: string): string
    requires '\0' !in key && '\0' !in value
  {
    Upsert(key, "\"" + value + "\"", buf)
  }

  /** vars_set_int: the "%d" text of the value. */
  function SetInt(key: string, value: int32, buf: string): string
    requires '\0' !in key
  {
    FormatIntPlain(value as int);
    Upsert(key, FormatInt(value as int), buf)
  }

  /** vars_set_bool: "true" for any nonzero value, "false" for zero. */
  function SetBool(key: string, value: int32, buf: string): string
    requires '\0' !in key
  {
    Upsert(key, BoolText(value), buf)
  }

  function BoolText(value: int32): string {
    if value != 0 then "true" else "false"
  }

  /** vars_set_float, given the "%.6f" text of the value. */
  function SetFloat(key: string, num: string, buf: string): string
    requires '\0' !in key && '\0' !in num
  {
    Upsert(key, num, buf)
  }

  /** vars_set_vec2/3/4, given the "%.6f" text of each component. */
  function SetVec(key: string, nums: seq<string>, buf: string): string
    requires '\0' !in key && '\0' !in VecText(nums)
  {
    Upsert(key, VecText(nums), buf)
  }

  // ---------------------------------------------------------------
  // Getters
  // ---------------------------------------------------------------

  /** Inside the quotes vars_get_string copies: up to a '"' or the terminating NUL. */
  predicate InString(c: char) {
    c != '"' && c != '\0'
  }

  /** vars_get_string: NULL unless the value starts with '"' and a closing '"' follows. */
  function GetString(key: string, buf: string): Option<string>
    requires '\0' !in key
  {
    match Lookup(key, buf)
    case None => None
    case Some(val) => ReadString(val)
  }

  function ReadString(val: string): (r: Option<string>)
    ensures r.Some? <==> exists n :: Quoted(val, n)
    ensures r.Some? ==> Quoted(val, |r.value|) && r.value == val[1..1 + |r.value|]
  {
    if val == [] || val[0] != '"' then None
    else
      var body := val[1..];
      var n := Span(body, InString);
      if n < |body| && body[n] == '"' then
        assert Quoted(val, n);
        Some(body[..n])
      else
        assert forall m :: !Quoted(val, m) by {
          forall m: nat ensures !Quoted(val, m) {
            QuotedSpan(val, m);
          }
        }
        None
  }

  /**
   The value opens with '"', holds n characters that are neither '"' nor
   NUL, then closes with '"'.
   */
  predicate Quoted(val: string, n: nat) {
    n + 1 < |val| && val[0] == '"' && val[n + 1] == '"' &&
    forall i :: 1 <= i <= n ==> InString(val[i])
  }

  /** The closing quote is the first character the copy loop stops at. */
  lemma QuotedSpan(val: string, n: nat)
    ensures Quoted(val, n) ==> Span(val[1..], InString) == n
  {
    if Quoted(val, n) {
      var body := val[1..];
      assert forall i :: 0 <= i < n ==> body[i] == val[i + 1];
      SpanUnique(body, InString, n);
    }
  }

  /** There is at most one closing quote. */
  lemma QuotedUnique(val: string, m: nat, n: nat)
    requires Quoted(val, m) && Quoted(val, n)
    ensures m == n
  {
    QuotedSpan(val, m);
    QuotedSpan(val, n);
  }

  const LongMin: int := -0x8000_0000_0000_0000
  const LongMax: int := 0x7FFF_FFFF_FFFF_FFFF

  /** How far y lies from x. */
  function Gap(x: int, y: int): nat {
    if x < y then y - x else x - y
  }

  /**
   strtol's value in a 64-bit long: out-of-range readings saturate (ERANGE),
   so the result is the long nearest to the number read.
   */
  function ToLong(x: int): (r: int)
    ensures LongMin <= r <= LongMax
    ensures forall y :: LongMin <= y <= LongMax ==> Gap(x, r) <= Gap(x, y)
  {
    if x < LongMin then LongMin else if x > LongMax then LongMax else x
  }

  /** The nearest long is the number itself when it fits, and a bound otherwise. */
  lemma ToLongClamps(x: int)
    ensures LongMin <= x <= LongMax ==> ToLong(x) == x
    ensures x < LongMin ==> ToLong(x) == LongMin
    ensures LongMax < x ==> ToLong(x) == LongMax
  {
  }

  /** The (int) cast of a long: the value modulo 2^32, as two's complement. */
  function Wrap32(x: int): (r: int32)
    ensures (r as int - x) % 0x1_0000_0000 == 0
    ensures -0x8000_0000 <= x < 0x8000_0000 ==> r as int == x
  {
    ((x + 0x8000_0000) % 0x1_0000_0000 - 0x8000_0000) as int32
  }

  /** vars_get_int: INT_MIN when the key is missing or no digit is read. */
  function GetInt(key: string, buf: string): int32
    requires '\0' !in key
  {
    match Lookup(key, buf)
    case None => IntMin as int32
    case Some(val) => ReadInt(val)
  }

  function ReadInt(val: string): int32 {
    match Strtol(val)
    case None => IntMin as int32
    case Some(i) => Wrap32(ToLong(i))
  }

  /** val starts with the word w: w, then the end of the string or a character that is not alphanumeric. */
  predicate Word(val: string, w: string) {
    |val| >= |w| && val[..|w|] == w && (|val| == |w| || !IsAlnum(val[|w|]))
  }

  /** vars_get_bool: 0 when the key is missing. */
  function GetBool(key: string, buf: string): int32
    requires '\0' !in key
  {
    match Lookup(key, buf)
    case None => 0
    case Some(val) => ReadBool(val)
  }

  /** 1 for the word "true", 0 for the word "false", -1 for anything else. */
  function ReadBool(val: string): (r: int32)
    ensures -1 <= r <= 1
    ensures r == 1 <==> Word(val, "true")
    ensures r == 0 <==> Word(val, "false")
  {
    if Word(val, "true") then 1 else if Word(val, "false") then 0 else -1
  }

  /** vars_get_float: zero when the key is missing or strtof reads nothing. */
  function GetFloat(key: string, buf: string, scan: NumberScanner): Component
    requires '\0' !in key
  {
    match Lookup(key, buf)
    case None => Zero
    case Some(val) => ReadFloat(val, scan)
  }

  /** strtof(val, &endptr): the text it consumed, or zero when endptr == val. */
  function ReadFloat(val: string, scan: NumberScanner): (c: Component)
    ensures c.Number? ==> c.text != [] && |c.text| <= |val| && c.text == val[..|c.text|]
    ensures c.Number? <==> scan(val) > 0
    ensures c.Number? ==> |c.text| == scan(val)
  {
    var n := scan(val);
    if n == 0 then Zero else Number(val[..n])
  }

  /**
   vars_get_vec2/3/4: the components vars__parse_vec wrote before it stopped,
   zeros for the rest; its success flag is not looked at.
   */
  function GetVec(key: string, buf: string, count: nat, scan: NumberScanner): (v: seq<Component>)
    requires '\0' !in key
    ensures |v| == count
    ensures Lookup(key, buf) == None ==> forall i :: 0 <= i < count ==> v[i] == Zero
  {
    match Lookup(key, buf)
    case None => Components([], count)
    case Some(val) => Components(ParseVec(val, count, IsSpace, scan).parts, count)
  }

  // ---------------------------------------------------------------
  // Round trips
  // ---------------------------------------------------------------

  lemma FormatIntPlain(n: int)
    ensures Plain(FormatInt(n)) && Unpadded(FormatInt(n))
  {
    var s := FormatInt(n);
    assert forall i :: 0 <= i < |s| ==> s[i] != '\0' && !IsEol(s[i]);
  }

  /** The value found right after an update is the stored text, then the rest of the buffer from a line break on. */
  lemma FoundAfterUpsert(key: string, value: string, buf: string) returns (rest: string)
    requires PlainKey(key) && Plain(value) && Unpadded(value)
    requires Terminated(CStr(buf))
    ensures Lookup(key, Upsert(key, value, buf)) == Some(value + rest)
    ensures rest != [] && IsEol(rest[0])
  {
    UpsertThenLookup(key, value, buf);
    var val := Lookup(key, Upsert(key, value, buf)).value;
    rest := val[|value|..];
    assert val == value + rest;
  }

  /** vars_get_int reads back what vars_set_int stored. */
  lemma GetIntSetInt(key: string, value: int32, buf: string)
    requires PlainKey(key) && Terminated(CStr(buf))
    ensures GetInt(key, SetInt(key, value, buf)) == value
  {
    FormatIntPlain(value as int);
    var rest := FoundAfterUpsert(key, FormatInt(value as int), buf);
    StrtolFormatInt(value as int, rest);
  }

  /** vars_get_bool reads back 1 for a nonzero value stored and 0 for zero. */
  lemma GetBoolSetBool(key: string, value: int32, buf: string)
    requires PlainKey(key) && Terminated(CStr(buf))
    ensures GetBool(key, SetBool(key, value, buf)) == if value != 0 then 1 else 0
  {
    var w := BoolText(value);
    var rest := FoundAfterUpsert(key, w, buf);
    var val := w + rest;
    assert val[..|w|] == w && val[|w|] == rest[0];
    assert Word(val, w);
    if value != 0 {
      assert val[..4] == "true";
      assert !Word(val, "false") by {
        if |val| >= 5 {
          assert val[..5][..4] == "true";
        }
      }
    }
  }

  /** vars_get_string reads back a one-line string without double quotes. */
  lemma GetStringSetString(key: string, value: string, buf: string)
    requires PlainKey(key) && Plain(value) && '"' !in value
    requires Terminated(CStr(buf))
    ensures GetString(key, SetString(key, value, buf)) == Some(value)
  {
    var q := "\"" + value + "\"";
    QuoteText(value, q);
    var rest := FoundAfterUpsert(key, q, buf);
    var val := q + rest;
    QuotedValue(value, rest, val);
    QuotedUnique(val, |ReadString(val).value|, |value|);
  }

  lemma QuoteText(value: string, q: string)
    requires q == "\"" + value + "\"" && Plain(value)
    ensures Plain(q) && Unpadded(q)
  {
    PlainConcat("\"", value);
    PlainConcat("\"" + value, "\"");
  }

  lemma QuotedValue(value: string, rest: string, val: string)
    requires val == "\"" + value + "\"" + rest
    requires '"' !in value && '\0' !in value
    ensures Quoted(val, |value|) && val[1..1 + |value|] == value
  {
    assert forall i :: 1 <= i <= |value| ==> val[i] == value[i - 1];
  }

  /** A scanner that reads num whole when the line ends right after it. */
  ghost predicate ReadsToLineEnd(scan: NumberScanner, num: string) {
    forall rest {:trigger AtLineEnd(rest)} :: AtLineEnd(rest) ==> scan(num + rest) == |num|
  }

  /** vars_get_float reads back the text vars_set_float stored, when strtof reads it whole. */
  lemma GetFloatSetFloat(key: string, num: string, buf: string, scan: NumberScanner)
    requires PlainKey(key) && Plain(num) && Unpadded(num) && num != []
    requires ReadsToLineEnd(scan, num)
    requires Terminated(CStr(buf))
    ensures GetFloat(key, SetFloat(key, num, buf), scan) == Number(num)
  {
    var rest := FoundAfterUpsert(key, num, buf);
    assert AtLineEnd(rest);
    assert (num + rest)[..|num|] == num;
  }

  /** Component texts that keep "( ... )" on one line of a C string. */
  predicate PlainParts(nums: seq<string>) {
    forall i :: 0 <= i < |nums| ==> Plain(nums[i])
  }

  lemma {:induction false} JoinedPlain(nums: seq<string>)
    requires PlainParts(nums)
    ensures Plain(JoinSpaced(nums))
    decreases |nums|
  {
    if |nums| > 1 {
      assert PlainParts(nums[1..]) by {
        assert forall i :: 0 <= i < |nums| - 1 ==> nums[1..][i] == nums[i + 1];
      }
      JoinedPlain(nums[1..]);
      var j := JoinSpaced(nums[1..]);
      assert JoinSpaced(nums) == nums[0] + " " + j;
      PlainConcat(nums[0], " ");
      PlainConcat(nums[0] + " ", j);
    }
  }

  lemma PlainConcat(a: string, b: string)
    requires Plain(a) && Plain(b)
    ensures Plain(a + b)
  {
    NoEolConcat(a, b);
  }

  lemma VecTextPlain(nums: seq<string>)
    requires PlainParts(nums)
    ensures Plain(VecText(nums)) && Unpadded(VecText(nums))
  {
    JoinedPlain(nums);
    PlainConcat("(", JoinSpaced(nums));
    PlainConcat("(" + JoinSpaced(nums), ")");
  }

  /** vars_get_vecN reads back every component vars_set_vecN stored. */
  lemma GetVecSetVec(key: string, nums: seq<string>, buf: string, scan: NumberScanner)
    requires PlainKey(key) && PlainParts(nums)
    requires Readable(nums, IsSpace, scan)
    requires Terminated(CStr(buf))
    ensures '\0' !in VecText(nums)
    ensures GetVec(key, SetVec(key, nums, buf), |nums|, scan) == Components(nums, |nums|)
  {
    VecTextPlain(nums);
    var rest := FoundAfterUpsert(key, VecText(nums), buf);
    WholeVecAt(key, SetVec(key, nums, buf), nums, rest, scan);
  }

  /** vars_get_vecN on a value that starts with "( ... )" holding N numbers. */
  lemma WholeVecAt(key: string, buf: string, nums: seq<string>, rest: string, scan: NumberScanner)
    requires '\0' !in key && Lookup(key, buf) == Some(VecText(nums) + rest)
    requires Readable(nums, IsSpace, scan)
    ensures GetVec(key, buf, |nums|, scan) == Components(nums, |nums|)
  {
    WholeParse(nums, rest, scan);
    GetVecOf(key, buf, VecText(nums) + rest, |nums|, VecParse(true, nums), scan);
  }

  /** vars__parse_vec with isspace reads "( ... )" whole, whatever follows it. */
  lemma WholeParse(nums: seq<string>, rest: string, scan: NumberScanner)
    requires Readable(nums, IsSpace, scan)
    ensures ParseVec(VecText(nums) + rest, |nums|, IsSpace, scan) == VecParse(true, nums)
  {
    assert IsSpace(' ') && !IsSpace(')');
    ParseVecText(nums, rest, IsSpace, scan);
  }

  /** GetVec from the value found and what vars__parse_vec made of it. */
  lemma GetVecOf(key: string, buf: string, val: string, count: nat, p: VecParse, scan: NumberScanner)
    requires '\0' !in key && Lookup(key, buf) == Some(val)
    requires ParseVec(val, count, IsSpace, scan) == p
    ensures GetVec(key, buf, count, scan) == Components(p.parts, count)
  {
  }

  /** strtof reads nothing from text that starts with ')'. */
  ghost predicate StopsAtParen(scan: NumberScanner) {
    forall s :: s != [] && s[0] == ')' ==> scan(s) == 0
  }

  /**
   vars_get_vec3 of a value holding two numbers: vars__parse_vec fails at the
   ')' but the two numbers it read stay in the vector, the third stays zero.
   */
  lemma GetVecShort(key: string, x: string, y: string, buf: string, scan: NumberScanner)
    requires PlainKey(key) && PlainParts([x, y])
    requires Readable([x, y], IsSpace, scan) && StopsAtParen(scan)
    requires Terminated(CStr(buf))
    ensures '\0' !in VecText([x, y])
    ensures GetVec(key, SetVec(key, [x, y], buf), 3, scan) == [Number(x), Number(y), Zero]
  {
    VecTextPlain([x, y]);
    var rest := FoundAfterUpsert(key, VecText([x, y]), buf);
    assert scan(")" + rest) == 0;
    ParseTwoAsThree(x, y, rest, IsSpace, scan);
    GetVecOf(key, SetVec(key, [x, y], buf), VecText([x, y]) + rest, 3, VecParse(false, [x, y]), scan);
    TwoOfThree(x, y);
  }

  /** Every getter's answer for a key the buffer does not hold. */
  lemma GetMissing(key: string, buf: string, count: nat, scan: NumberScanner)
    requires '\0' !in key && Lookup(key, buf) == None
    ensures GetString(key, buf) == None
    ensures GetInt(key, buf) as int == IntMin
    ensures GetBool(key, buf) == 0
    ensures GetFloat(key, buf, scan) == Zero
    ensures GetVec(key, buf, count, scan) == Zeros(count)
  {
  }

  // ---------------------------------------------------------------
  // Other keys
  // ---------------------------------------------------------------

  /** Reading a boolean looks no further than the first line of the value. */
  lemma ReadBoolOfLine(val: string)
    ensures ReadBool(val) == ReadBool(TextLine(val))
  {
    WordOfLine(val, "true");
    WordOfLine(val, "false");
  }

  lemma WordOfLine(val: string, w: string)
    requires NoEol(w)
    ensures Word(val, w) <==> Word(TextLine(val), w)
  {
    var n := Span(val, NotEol);
    var t := TextLine(val);
    assert t == val[..n];
    if n < |w| && |val| >= |w| {
      assert val[..|w|][n] == val[n];
    } else if n == |w| && n < |val| {
      assert !IsAlnum(val[n]);
    } else if n > |w| {
      assert t[..|w|] == val[..|w|];
      assert t[|w|] == val[|w|];
    }
  }

  /** vars_get_bool of a key as a function of the first line of its value. */
  lemma GetBoolByLine(key: string, buf: string)
    requires '\0' !in key
    ensures GetBool(key, buf) == match ValueText(Lookup(key, buf))
      case None => 0
      case Some(t) => ReadBool(t)
  {
    if Lookup(key, buf).Some? {
      ReadBoolOfLine(Lookup(key, buf).value);
    }
  }

  /** Storing any value under one key leaves vars_get_bool of every other key unchanged. */
  lemma UpsertKeepsOtherBool(key: string, other: string, value: string, buf: string)
    requires PlainKey(key) && Plain(other) && Plain(value)
    requires NoWhiteSpace(key) && NoWhiteSpace(other) && other != key
    requires Terminated(CStr(buf))
    ensures GetBool(other, Upsert(key, value, buf)) == GetBool(other, buf)
  {
    UpsertKeepsOthers(key, other, value, buf);
    GetBoolByLine(other, Upsert(key, value, buf));
    GetBoolByLine(other, buf);
  }
}

=== FILE: buffer.dfy ===
/**
 The parsed buffer as a key store: vars__find_key_value (look a key up) and
 vars__update_or_add_key (replace its lines or append one). Both walk the
 buffer line by line from its start to the first NUL; a line starting with
 ":/" is a section header and never matches; a line matches `key` when it
 starts with the key followed by a blank.
 */
module Buffer {
  import opened CharClass
  import opened Scan
  import opened Wrappers

  /** `*p == ':' && *(p+1) == '/'`: a section header starts here. */
  predicate IsHeaderAt(p: string) {
    |p| >= 2 && p[0] == ':' && p[1] == '/'
  }

  /** `strncmp(p, key, strlen(key)) == 0 && IS_WHITE_SPACE(p[strlen(key)])`. */
  predicate KeyAt(p: string, key: string) {
    |p| > |key| && p[..|key|] == key && IsWhiteSpace(p[|key|])
  }

  /** A line the lookup and the update act on. */
  predicate Matches(p: string, key: string) {
    !IsHeaderAt(p) && KeyAt(p, key)
  }

  /** How much the "skip to the line end, then one more" step consumes. */
  function LineLen(p: string): (n: nat)
    ensures n <= |p|
    ensures p != [] ==> n > 0
  {
    var m := Span(p, NotEol);
    if m < |p| then m + 1 else m
  }

  /** The lookup loop of vars__find_key_value over the rest of the buffer. */
  function Find(key: string, p: string): Option<string>
    decreases |p|
  {
    if p == [] then None
    else if Matches(p, key) then Some(DropWhile(p[|key|..], IsWhiteSpace))
    else Find(key, p[LineLen(p)..])
  }

  /**
   vars__find_key_value: the text after the key and its blanks on the first
   matching line, running on to the end of the buffer (the C returns a
   pointer into it), or None.
   */
  function Lookup(key: string, buf: string): Option<string>
    requires '\0' !in key
  {
    Find(key, CStr(buf))
  }

  /** The copy the update loop writes, and its key_found flag. */
  datatype Rewritten = Rewritten(text: string, found: bool)

  /** The copy loop of vars__update_or_add_key over the rest of the buffer. */
  function Rewrite(key: string, value: string, p: string): (r: Rewritten)
    decreases |p|
  {
    if p == [] then Rewritten([], false)
    else
      var n := LineLen(p);
      var eol := p[Span(p, NotEol)..n];
      var rest := Rewrite(key, value, p[n..]);
      if Matches(p, key) then Rewritten(key + " " + value + eol + rest.text, true)
      else Rewritten(p[..Span(p, NotEol)] + eol + rest.text, rest.found)
  }

  /** The line vars__update_or_add_key appends for a key it did not find. */
  function NewLine(key: string, value: string): string {
    key + " " + value + "\n"
  }

  /** vars__update_or_add_key: the new contents of parsed_buf. */
  function Upsert(key: string, value: string, buf: string): string
    requires '\0' !in key && '\0' !in value
  {
    var r := Rewrite(key, value, CStr(buf));
    if r.found then r.text else r.text + NewLine(key, value)
  }

  // ---------------------------------------------------------------------
  // Lines

  /** A buffer whose every line is closed by a line break (the normaliser writes such buffers). */
  predicate Terminated(p: string) {
    p == [] || IsEol(p[|p| - 1])
  }

  /** The visible part of a line: the text before its line break. */
  function TextLine(s: string): (r: string)
    ensures NoEol(r)
  {
    s[..Span(s, NotEol)]
  }

  /** A line's match, decided on the line alone. */
  predicate LineMatches(line: string, key: string) {
    !IsHeaderAt(line) && KeyAt(line, key)
  }

  /** The value part of a matching line. */
  function LineValue(line: string, key: string): (r: string)
    requires |line| >= |key|
    ensures NoEol(line) ==> NoEol(r)
  {
    DropWhile(line[|key|..], IsWhiteSpace)
  }

  /** A terminated, non-empty buffer splits into its first line, that line's break, and the rest. */
  lemma Decompose(p: string) returns (line: string, c: char, rest: string)
    requires Terminated(p) && p != []
    ensures NoEol(line) && IsEol(c) && p == line + [c] + rest && Terminated(rest)
  {
    var m := Span(p, NotEol);
    assert m < |p|;
    line, c, rest := p[..m], p[m], p[m + 1..];
    assert p == line + [c] + rest;
    if rest != [] {
      assert rest[|rest| - 1] == p[|p| - 1];
    }
  }

  /** The positions of a line inside line + [c] + rest. */
  lemma LineParts(line: string, c: char, rest: string, p: string)
    requires NoEol(line) && IsEol(c) && p == line + [c] + rest
    ensures Span(p, NotEol) == |line| && LineLen(p) == |line| + 1
    ensures p[..|line|] == line && p[|line|..|line| + 1] == [c] && p[|line| + 1..] == rest
  {
    assert forall i :: 0 <= i < |line| ==> p[i] == line[i];
    assert p[|line|] == c;
    SpanUnique(p, NotEol, |line|);
  }

  /** With a key free of line breaks, whether a line matches depends on that line only. */
  lemma MatchesOnLine(line: string, c: char, rest: string, p: string, key: string)
    requires NoEol(line) && IsEol(c) && p == line + [c] + rest && NoEol(key)
    ensures Matches(p, key) == LineMatches(line, key)
  {
    assert forall i :: 0 <= i < |line| ==> p[i] == line[i];
    assert p[|line|] == c;
    if |line| >= 2 {
      assert IsHeaderAt(p) == IsHeaderAt(line);
    }
    if |key| < |line| {
      assert p[..|key|] == line[..|key|];
    }
  }

  /** One step of the lookup on a closed line. */
  lemma FindStep(key: string, line: string, c: char, rest: string, p: string)
    requires NoEol(line) && IsEol(c) && p == line + [c] + rest && NoEol(key)
    ensures LineMatches(line, key) ==> Find(key, p) == Some(LineValue(line, key) + [c] + rest)
    ensures !LineMatches(line, key) ==> Find(key, p) == Find(key, rest)
  {
    LineParts(line, c, rest, p);
    MatchesOnLine(line, c, rest, p, key);
    if LineMatches(line, key) {
      assert DropWhile(p[|key|..], IsWhiteSpace) == LineValue(line, key) + [c] + rest by {
        ValueOnLine(key, line, c, rest, p);
      }
    }
  }

  /** The blanks after a key stay on its line. */
  lemma ValueOnLine(key: string, line: string, c: char, rest: string, p: string)
    requires NoEol(line) && IsEol(c) && p == line + [c] + rest && |key| <= |line|
    ensures DropWhile(p[|key|..], IsWhiteSpace) == LineValue(line, key) + [c] + rest
  {
    var after := line[|key|..];
    assert p[|key|..] == after + ([c] + rest);
    SpanAppendStopBlank(after, [c] + rest);
    var k := Span(after, IsWhiteSpace);
    assert (after + ([c] + rest))[k..] == after[k..] + [c] + rest;
  }

  /** A blank run inside a line stops at the line break after it. */
  lemma SpanAppendStopBlank(a: string, b: string)
    requires NoEol(a) && b != [] && IsEol(b[0])
    ensures Span(a + b, IsWhiteSpace) == Span(a, IsWhiteSpace)
  {
    var k := Span(a, IsWhiteSpace);
    assert forall i :: 0 <= i < k ==> (a + b)[i] == a[i];
    if k < |a| {
      assert (a + b)[k] == a[k];
    } else {
      assert (a + b)[k] == b[0];
    }
    SpanUnique(a + b, IsWhiteSpace, k);
  }

  /** One step of the update loop on a closed line. */
  lemma RewriteStep(key: string, value: string, line: string, c: char, rest: string, p: string)
    requires NoEol(line) && IsEol(c) && p == line + [c] + rest && NoEol(key)
    ensures LineMatches(line, key) ==> Rewrite(key, value, p) == Rewritten(key + " " + value + [c] + Rewrite(key, value, rest).text, true)
    ensures !LineMatches(line, key) ==> Rewrite(key, value, p) == Rewritten(line + [c] + Rewrite(key, value, rest).text, Rewrite(key, value, rest).found)
  {
    LineParts(line, c, rest, p);
    MatchesOnLine(line, c, rest, p, key);
  }

  /** The line "key value" matches its key. */
  lemma NewLineMatches(key: string, value: string)
    requires !IsHeaderAt(key)
    ensures LineMatches(key + " " + value, key)
    ensures LineValue(key + " " + value, key) == DropWhile(" " + value, IsWhiteSpace)
  {
    var l := key + " " + value;
    assert l[..|key|] == key && l[|key|] == ' ';
    assert l[|key|..] == " " + value;
    if |key| >= 2 {
      assert l[0] == key[0] && l[1] == key[1];
    }
  }

  /** A line that starts with one blank-free key followed by a blank matches no other blank-free key. */
  lemma MatchesOne(line: string, key: string, other: string)
    requires KeyAt(line, key) && NoWhiteSpace(key) && NoWhiteSpace(other) && other != key
    ensures !KeyAt(line, other)
  {
  }

  /** Whether the key is found is whether the copy loop sets key_found. */
  lemma {:induction false} RewriteFound(key: string, value: string, p: string)
    ensures Rewrite(key, value, p).found <==> Find(key, p).Some?
    decreases |p|
  {
    if p != [] {
      RewriteFound(key, value, p[LineLen(p)..]);
    }
  }

  /** One round of the copy loop, named by its parts. */
  lemma RewriteUnfold(key: string, value: string, p: string, m: nat, n: nat, r: Rewritten)
    requires p != [] && m == Span(p, NotEol) && n == LineLen(p) && r == Rewrite(key, value, p[n..])
    ensures Matches(p, key) ==> Rewrite(key, value, p) == Rewritten(key + " " + value + p[m..n] + r.text, true)
    ensures !Matches(p, key) ==> Rewrite(key, value, p) == Rewritten(p[..m] + p[m..n] + r.text, r.found)
  {
  }

  lemma SplitThree(p: string, m: nat, n: nat)
    requires m <= n <= |p|
    ensures p[..m] + p[m..n] + p[n..] == p
  {
  }

  /** With the key absent the copy loop reproduces its input. */
  lemma {:induction false} RewriteAbsent(key: string, value: string, p: string)
    requires Find(key, p) == None
    ensures Rewrite(key, value, p).text == p
    decreases |p|
  {
    if p != [] {
      var m, n := Span(p, NotEol), LineLen(p);
      var r := Rewrite(key, value, p[n..]);
      RewriteUnfold(key, value, p, m, n, r);
      RewriteAbsent(key, value, p[n..]);
      SplitThree(p, m, n);
    }
  }

  /** Lines that do not match can be followed by anything: the lookup goes on past them. */
  lemma {:induction false} FindAppend(key: string, p: string, q: string)
    requires NoEol(key) && Terminated(p) && Find(key, p) == None
    ensures Find(key, p + q) == Find(key, q)
    decreases |p|
  {
    if p != [] {
      var line, c, rest := Decompose(p);
      AppendAssoc(line + [c], rest, q);
      FindStep(key, line, c, rest, p);
      FindStep(key, line, c, rest + q, p + q);
      FindAppend(key, rest, q);
    } else {
      assert p + q == q;
    }
  }

  /** The lookup finds value on its line: value, then a line break. */
  predicate FoundValue(f: Option<string>, value: string) {
    f.Some? && |f.value| > |value| && f.value[..|value|] == value && IsEol(f.value[|value|])
  }

  /** Value text that the lookup hands back whole: its blanks are skipped only in front of it. */
  predicate Unpadded(value: string) {
    value == [] || !IsWhiteSpace(value[0])
  }

  lemma SkipOneBlank(value: string)
    requires Unpadded(value)
    ensures DropWhile(" " + value, IsWhiteSpace) == value
  {
    SpanSkip(" " + value, 1, IsWhiteSpace);
    assert (" " + value)[1..] == value;
  }

  /** A line "key value" is found with its value. */
  lemma FoundOnLine(key: string, value: string, c: char, r: string)
    requires NoEol(key) && NoEol(value) && !IsHeaderAt(key) && Unpadded(value) && IsEol(c)
    ensures FoundValue(Find(key, key + " " + value + [c] + r), value)
  {
    var l := key + " " + value;
    NoEolConcat(key, " ");
    NoEolConcat(key + " ", value);
    NewLineMatches(key, value);
    SkipOneBlank(value);
    FindStep(key, l, c, r, l + [c] + r);
    assert (value + [c] + r)[..|value|] == value;
  }

  /** The replaced line is found first and carries the new value. */
  lemma {:induction false} FindRewritten(key: string, value: string, p: string)
    requires NoEol(key) && NoEol(value) && Unpadded(value)
    requires Terminated(p) && Find(key, p).Some?
    ensures FoundValue(Find(key, Rewrite(key, value, p).text), value)
    decreases |p|
  {
    var line, c, rest := Decompose(p);
    RewriteStep(key, value, line, c, rest, p);
    FindStep(key, line, c, rest, p);
    var r := Rewrite(key, value, rest).text;
    if LineMatches(line, key) {
      assert !IsHeaderAt(key) by {
        if |key| >= 2 {
          assert key[0] == line[0] && key[1] == line[1];
        }
      }
      FoundOnLine(key, value, c, r);
    } else {
      FindStep(key, line, c, r, line + [c] + r);
      FindRewritten(key, value, rest);
    }
  }

  lemma {:induction false} RewriteNoNul(key: string, value: string, p: string)
    requires '\0' !in key && '\0' !in value && '\0' !in p
    ensures '\0' !in Rewrite(key, value, p).text
    decreases |p|
  {
    if p != [] {
      var m, n := Span(p, NotEol), LineLen(p);
      assert '\0' !in p[..m] && '\0' !in p[m..n] by {
        assert forall i :: 0 <= i < m ==> p[..m][i] == p[i];
        assert forall i :: 0 <= i < n - m ==> p[m..n][i] == p[m + i];
      }
      assert '\0' !in p[n..] by {
        assert forall i :: 0 <= i < |p| - n ==> p[n..][i] == p[n + i];
      }
      RewriteNoNul(key, value, p[n..]);
    }
  }

  /** The updated buffer is a C string again, so the next lookup sees all of it. */
  lemma UpsertNoNul(key: string, value: string, buf: string)
    requires '\0' !in key && '\0' !in value
    ensures '\0' !in Upsert(key, value, buf)
    ensures CStr(Upsert(key, value, buf)) == Upsert(key, value, buf)
  {
    RewriteNoNul(key, value, CStr(buf));
    CStrOfCString(Upsert(key, value, buf));
  }

  /** A key the buffer lacks gets one new line "key value" at the end; nothing else changes. */
  lemma UpsertAppends(key: string, value: string, buf: string)
    requires '\0' !in key && '\0' !in value
    requires Lookup(key, buf) == None
    ensures Upsert(key, value, buf) == CStr(buf) + NewLine(key, value)
  {
    RewriteFound(key, value, CStr(buf));
    RewriteAbsent(key, value, CStr(buf));
  }

  /**
   After an update the lookup finds the key with exactly the new value on
   its line, whether the key was replaced or appended.
   */
  lemma UpsertThenLookup(key: string, value: string, buf: string)
    requires '\0' !in key && '\0' !in value
    requires NoEol(key) && NoEol(value) && !IsHeaderAt(key) && Unpadded(value)
    requires Terminated(CStr(buf))
    ensures FoundValue(Lookup(key, Upsert(key, value, buf)), value)
  {
    var p := CStr(buf);
    UpsertNoNul(key, value, buf);
    RewriteFound(key, value, p);
    if Find(key, p).Some? {
      FindRewritten(key, value, p);
    } else {
      RewriteAbsent(key, value, p);
      FindAppend(key, p, NewLine(key, value));
      assert NewLine(key, value) == key + " " + value + ['\n'] + [];
      FoundOnLine(key, value, '\n', []);
    }
  }

  // ---------------------------------------------------------------------
  // Other keys

  /** The value a lookup shows on its own line (what a reader of that one line sees). */
  function ValueText(f: Option<string>): Option<string> {
    match f
    case None => None
    case Some(x) => Some(TextLine(x))
  }

  lemma TextLineOf(a: string, c: char, x: string)
    requires NoEol(a) && IsEol(c)
    ensures TextLine(a + [c] + x) == a
  {
    var s := a + [c] + x;
    assert forall i :: 0 <= i < |a| ==> s[i] == a[i];
    assert s[|a|] == c;
    SpanUnique(s, NotEol, |a|);
    assert s[..|a|] == a;
  }

  /** The copy loop leaves the line of every other blank-free key as it was. */
  lemma {:induction false} FindOtherRewrite(key: string, other: string, value: string, p: string)
    requires NoEol(key) && NoEol(other) && NoEol(value)
    requires NoWhiteSpace(key) && NoWhiteSpace(other) && other != key
    requires Terminated(p)
    ensures ValueText(Find(other, Rewrite(key, value, p).text)) == ValueText(Find(other, p))
    decreases |p|
  {
    if p != [] {
      var line, c, rest := Decompose(p);
      RewriteStep(key, value, line, c, rest, p);
      FindStep(other, line, c, rest, p);
      var r := Rewrite(key, value, rest).text;
      if LineMatches(line, key) {
        var l := key + " " + value;
        NoEolConcat(key, " ");
        NoEolConcat(key + " ", value);
        assert KeyAt(l, key) by {
          assert l[..|key|] == key && l[|key|] == ' ';
        }
        MatchesOne(l, key, other);
        MatchesOne(line, key, other);
        FindStep(other, l, c, r, l + [c] + r);
      } else {
        FindStep(other, line, c, r, line + [c] + r);
        if LineMatches(line, other) {
          TextLineOf(LineValue(line, other), c, r);
          TextLineOf(LineValue(line, other), c, rest);
        }
      }
      FindOtherRewrite(key, other, value, rest);
    }
  }

  /** Text added after a terminated buffer does not change the line a lookup already finds. */
  lemma {:induction false} FindAppendValue(key: string, p: string, q: string, pq: string)
    requires NoEol(key) && Terminated(p) && Find(key, p).Some? && pq == p + q
    ensures ValueText(Find(key, pq)) == ValueText(Find(key, p))
    decreases |p|
  {
    var line, c, rest := Decompose(p);
    AppendAssoc(line + [c], rest, q);
    if LineMatches(line, key) {
      var v := LineValue(line, key);
      assert Find(key, p) == Some(v + [c] + rest) by {
        FindStep(key, line, c, rest, p);
      }
      assert Find(key, pq) == Some(v + [c] + (rest + q)) by {
        FindStep(key, line, c, rest + q, pq);
      }
      TextLineOf(v, c, rest);
      TextLineOf(v, c, rest + q);
    } else {
      assert Find(key, p) == Find(key, rest) by {
        FindStep(key, line, c, rest, p);
      }
      assert Find(key, pq) == Find(key, rest + q) by {
        FindStep(key, line, c, rest + q, pq);
      }
      FindAppendValue(key, rest, q, rest + q);
    }
  }

  /** Updating one key leaves what every other blank-free key reads on its line unchanged. */
  lemma UpsertKeepsOthers(key: string, other: string, value: string, buf: string)
    requires '\0' !in key && '\0' !in other && '\0' !in value
    requires NoEol(key) && NoEol(other) && NoEol(value)
    requires NoWhiteSpace(key) && NoWhiteSpace(other) && other != key
    requires Terminated(CStr(buf))
    ensures ValueText(Lookup(other, Upsert(key, value, buf))) == ValueText(Lookup(other, buf))
  {
    var p := CStr(buf);
    UpsertNoNul(key, value, buf);
    RewriteFound(key, value, p);
    if Find(key, p).Some? {
      FindOtherRewrite(key, other, value, p);
    } else {
      RewriteAbsent(key, value, p);
      if Find(other, p).Some? {
        FindAppendValue(other, p, NewLine(key, value), p + NewLine(key, value));
      } else {
        FindAppend(other, p, NewLine(key, value));
        var l := key + " " + value;
        NoEolConcat(key, " ");
        NoEolConcat(key + " ", value);
        assert KeyAt(l, key) by {
          assert l[..|key|] == key && l[|key|] == ' ';
        }
        MatchesOne(l, key, other);
        assert NewLine(key, value) == l + ['\n'] + [];
        FindStep(other, l, '\n', [], NewLine(key, value));
      }
    }
  }

  // ---------------------------------------------------------------------
  // Repeating an update

  /** The line "key value" and its break, from the copy loop's point of view. */
  lemma RewriteOwnLine(key: string, value: string, c: char, r: string)
    requires NoEol(key) && NoEol(value) && !IsHeaderAt(key) && IsEol(c)
    ensures Rewrite(key, value, key + " " + value + [c] + r)
         == Rewritten(key + " " + value + [c] + Rewrite(key, value, r).text, true)
  {
    var l := key + " " + value;
    NoEolConcat(key, " ");
    NoEolConcat(key + " ", value);
    NewLineMatches(key, value);
    RewriteStep(key, value, l, c, r, l + [c] + r);
  }

  /** Running the copy loop over its own output changes nothing. */
  lemma {:induction false} RewriteTwice(key: string, value: string, p: string)
    requires NoEol(key) && NoEol(value) && Terminated(p)
    ensures Rewrite(key, value, Rewrite(key, value, p).text) == Rewrite(key, value, p)
    decreases |p|
  {
    if p != [] {
      var line, c, rest := Decompose(p);
      RewriteStep(key, value, line, c, rest, p);
      var r := Rewrite(key, value, rest);
      RewriteTwice(key, value, rest);
      if LineMatches(line, key) {
        assert !IsHeaderAt(key) by {
          if |key| >= 2 {
            assert key[0] == line[0] && key[1] == line[1];
          }
        }
        RewriteOwnLine(key, value, c, r.text);
      } else {
        RewriteStep(key, value, line, c, r.text, line + [c] + r.text);
      }
    }
  }

  /** Lines before which nothing matches are copied unchanged in front of the rest. */
  lemma {:induction false} RewriteAppend(key: string, value: string, p: string, q: string, pq: string)
    requires NoEol(key) && Terminated(p) && Find(key, p) == None && pq == p + q
    ensures Rewrite(key, value, pq) == Rewritten(p + Rewrite(key, value, q).text, Rewrite(key, value, q).found)
    decreases |p|
  {
    if p == [] {
      assert pq == q;
    } else {
      var line, c, rest := Decompose(p);
      AppendAssoc(line + [c], rest, q);
      var t := Rewrite(key, value, q);
      FindStep(key, line, c, rest, p);
      var r := Rewrite(key, value, rest + q);
      assert Rewrite(key, value, pq) == Rewritten(line + [c] + r.text, r.found) by {
        RewriteStep(key, value, line, c, rest + q, pq);
      }
      assert r == Rewritten(rest + t.text, t.found) by {
        RewriteAppend(key, value, rest, q, rest + q);
      }
      AppendAssoc(line + [c], rest, t.text);
    }
  }

  /** Setting a key to the value it was just set to leaves the buffer as it is. */
  lemma UpsertIdempotent(key: string, value: string, buf: string)
    requires '\0' !in key && '\0' !in value
    requires NoEol(key) && NoEol(value) && !IsHeaderAt(key)
    requires Terminated(CStr(buf))
    ensures Upsert(key, value, Upsert(key, value, buf)) == Upsert(key, value, buf)
  {
    var p := CStr(buf);
    var u := Upsert(key, value, buf);
    UpsertNoNul(key, value, buf);
    RewriteFound(key, value, p);
    if Find(key, p).Some? {
      RewriteTwice(key, value, p);
    } else {
      RewriteAbsent(key, value, p);
      RewriteAppend(key, value, p, NewLine(key, value), u);
      assert NewLine(key, value) == key + " " + value + ['\n'] + [];
      RewriteOwnLine(key, value, '\n', []);
    }
  }

  lemma TerminatedAfter(x: string, c: char, r: string)
    requires IsEol(c) && Terminated(r)
    ensures Terminated(x + [c] + r)
  {
    var s := x + [c] + r;
    if r == [] {
      assert s[|s| - 1] == c;
    } else {
      assert s[|s| - 1] == r[|r| - 1];
    }
  }

  /** The copy loop keeps every line closed. */
  lemma {:induction false} RewriteTerminated(key: string, value: string, p: string)
    requires NoEol(key) && Terminated(p)
    ensures Terminated(Rewrite(key, value, p).text)
    decreases |p|
  {
    if p != [] {
      var line, c, rest := Decompose(p);
      RewriteStep(key, value, line, c, rest, p);
      RewriteTerminated(key, value, rest);
      var r := Rewrite(key, value, rest).text;
      if LineMatches(line, key) {
        TerminatedAfter(key + " " + value, c, r);
      } else {
        TerminatedAfter(line, c, r);
      }
    }
  }

  /** An update of a terminated buffer leaves it terminated. */
  lemma UpsertTerminated(key: string, value: string, buf: string)
    requires '\0' !in key && '\0' !in value && NoEol(key)
    requires Terminated(CStr(buf))
    ensures Terminated(Upsert(key, value, buf))
  {
    RewriteTerminated(key, value, CStr(buf));
  }
}

=== FILE: chars.dfy ===
/**
 Character classes shared by both headers. They mirror the classifier macros
 (IS_LETTER, IS_WHITE_SPACE, ...) and the two <ctype.h> predicates the code
 calls (isspace, isalnum in the C locale). Characters are bytes.
 */
module CharClass {

  predicate IsLetter(c: char) {
    ('A' <= c <= 'Z') || ('a' <= c <= 'z')
  }

  predicate IsNumber(c: char) {
    '0' <= c <= '9'
  }

  /** IS_END_OF_LINE: carriage return or line feed. */
  predicate IsEol(c: char) {
    c == '\r' || c == '\n'
  }

  /** IS_WHITE_SPACE: blank, tab, vertical tab, form feed (never a line break). */
  predicate IsWhiteSpace(c: char) {
    c == ' ' || c == '\t' || c == '\U{000B}' || c == '\U{000C}'
  }

  /** isspace in the C locale: IS_WHITE_SPACE plus the two line breaks. */
  predicate IsSpace(c: char) {
    IsWhiteSpace(c) || IsEol(c)
  }

  /** isalnum in the C locale. */
  predicate IsAlnum(c: char) {
    IsLetter(c) || IsNumber(c)
  }

  /** Characters of a bare token in vars.h: letters, digits, '_', '-', '.', '(' and ')'. */
  predicate IsTokenChar(c: char) {
    IsLetter(c) || IsNumber(c) || c == '_' || c == '-' || c == '.' || c == '(' || c == ')'
  }

  /** Characters of a key in vars_hashmap.h: letters, digits and '_'. */
  predicate IsKeyChar(c: char) {
    IsLetter(c) || IsNumber(c) || c == '_'
  }

  predicate NotEol(c: char) {
    !IsEol(c)
  }

  predicate NotNul(c: char) {
    c != '\0'
  }

  predicate NotSlash(c: char) {
    c != '/'
  }

  predicate NotQuote(c: char) {
    c != '"'
  }

  /** Inside a quoted token of vars.h: anything up to the closing quote or the line end. */
  predicate IsQuoteBody(c: char) {
    c != '"' && !IsEol(c)
  }

  /** A section name after ":/" runs to the next blank or line break. */
  predicate IsNameChar(c: char) {
    !IsEol(c) && !IsWhiteSpace(c)
  }

  predicate NoEol(s: string) {
    forall i :: 0 <= i < |s| ==> !IsEol(s[i])
  }

  predicate NoWhiteSpace(s: string) {
    forall i :: 0 <= i < |s| ==> !IsWhiteSpace(s[i])
  }
}

=== FILE: decimal.dfy ===
/**
 Integer text: the "%d" encoding used by vars_set_int and the part of
 strtol(val, &end, 10) both headers rely on (leading isspace, an optional
 sign, decimal digits; nothing consumed when no digit follows).
 */
module Decimal {
  import opened CharClass
  import opened Scan
  import opened Wrappers

  /** INT_MIN of a 32-bit int, the "not found" sentinel of vars_get_int. */
  const IntMin: int := -0x8000_0000

  newtype int32 = x: int | -0x8000_0000 <= x < 0x8000_0000

  predicate AllDigits(s: string) {
    forall i :: 0 <= i < |s| ==> IsNumber(s[i])
  }

  function DigitValue(c: char): nat
    requires IsNumber(c)
  {
    c as int - '0' as int
  }

  function DigitChar(d: nat): (c: char)
    requires d < 10
    ensures IsNumber(c) && DigitValue(c) == d
  {
    ('0' as int + d) as char
  }

  /** The value of a run of decimal digits, most significant first. */
  function DigitsValue(ds: string): nat
    requires AllDigits(ds)
    decreases |ds|
  {
    if ds == [] then 0 else DigitsValue(ds[..|ds| - 1]) * 10 + DigitValue(ds[|ds| - 1])
  }

  /** The shortest decimal spelling of n; reading it back gives n. */
  function NatDigits(n: nat): (ds: string)
    ensures ds != [] && AllDigits(ds)
    ensures DigitsValue(ds) == n
    decreases n
  {
    if n < 10 then [DigitChar(n)]
    else
      var hi := NatDigits(n / 10);
      var ds := hi + [DigitChar(n % 10)];
      assert ds[..|ds| - 1] == hi;
      ds
  }

  /** snprintf(buffer, sizeof(buffer), "%d", n). */
  function FormatInt(n: int): (s: string)
    ensures s != [] && (s[0] == '-' || IsNumber(s[0]))
    ensures forall i :: 0 <= i < |s| ==> IsNumber(s[i]) || s[i] == '-'
  {
    if n < 0 then "-" + NatDigits(-n) else NatDigits(n)
  }

  /** The integer strtol(s, &end, 10) reads, or None when end == s (no digit consumed). */
  function Strtol(s: string): Option<int>
  {
    ReadSigned(DropWhile(s, IsSpace))
  }

  /** strtol after the leading blanks: an optional sign, then the digits. */
  function ReadSigned(t: string): Option<int>
  {
    if t != [] && t[0] == '-' then
      match ReadDigits(t[1..])
      case None => None
      case Some(m) => Some(-(m as int))
    else if t != [] && t[0] == '+' then ReadDigits(t[1..])
    else ReadDigits(t)
  }

  /** The value of the longest run of digits at the front of u, None if there is none. */
  function ReadDigits(u: string): Option<nat>
  {
    var n := Span(u, IsNumber);
    if n == 0 then None else Some(DigitsValue(u[..n]))
  }

  /** A run of digits followed by a non-digit reads back as its value. */
  lemma ReadDigitsOf(ds: string, tail: string)
    requires ds != [] && AllDigits(ds)
    requires tail == [] || !IsNumber(tail[0])
    ensures ReadDigits(ds + tail) == Some(DigitsValue(ds))
  {
    SpanAppendBlocked(ds, tail, IsNumber);
    assert (ds + tail)[..|ds|] == ds;
  }

  /** "%d" followed by anything that is not a digit reads back as the same number. */
  lemma StrtolFormatInt(n: int, tail: string)
    requires tail == [] || !IsNumber(tail[0])
    ensures Strtol(FormatInt(n) + tail) == Some(n)
  {
    var s := FormatInt(n) + tail;
    assert DropWhile(s, IsSpace) == s by {
      assert !IsSpace(s[0]);
      SpanUnique(s, IsSpace, 0);
    }
    assert ReadSigned(s) == Some(n) by {
      if n < 0 {
        ReadNegative(NatDigits(-n), tail, s);
      } else {
        ReadPositive(NatDigits(n), tail, s);
      }
    }
  }

  lemma ReadNegative(ds: string, tail: string, s: string)
    requires ds != [] && AllDigits(ds)
    requires tail == [] || !IsNumber(tail[0])
    requires s == "-" + ds + tail
    ensures ReadSigned(s) == Some(-(DigitsValue(ds) as int))
  {
    assert s[1..] == ds + tail;
    ReadDigitsOf(ds, tail);
  }

  lemma ReadPositive(ds: string, tail: string, s: string)
    requires ds != [] && AllDigits(ds)
    requires tail == [] || !IsNumber(tail[0])
    requires s == ds + tail
    ensures ReadSigned(s) == Some(DigitsValue(ds))
  {
    ReadDigitsOf(ds, tail);
  }

  /** Text with no digit after the blanks and the sign makes strtol consume nothing. */
  lemma StrtolNoDigits(s: string)
    requires forall i :: 0 <= i < |s| ==> !IsNumber(s[i])
    ensures Strtol(s) == None
  {
    var t := DropWhile(s, IsSpace);
    assert forall i :: 0 <= i < |t| ==> t[i] == s[|s| - |t| + i];
  }
}

=== FILE: fnv.dfy ===
/**
 vars__hash_fnv1a (vars_hashmap.h): 32-bit FNV-1a over the bytes of a C
 string. Hash values are integers in [0, 2^32); the multiplication is taken
 modulo 2^32, as uint32_t arithmetic wraps.
 */
module Fnv1a {
  import opened Scan

  const TwoTo32: int := 0x1_0000_0000
  type Word32 = x: int | 0 <= x < TwoTo32

  const OffsetBasis: Word32 := 2166136261
  const Prime: Word32 := 16777619

  /** (uint8_t) of a character. */
  function Byte(c: char): bv8 {
    ((c as int) % 256) as bv8
  }

  /**
   hash ^ b for a byte b: only the low eight bits of hash change, so the xor
   is taken there and the high bits are kept.
   */
  function XorByte(h: Word32, b: bv8): Word32
  {
    var low: bv8 := (h % 256) as bv8;
    var mixed: int := (low ^ b) as int;
    assert mixed < 256;
    h - h % 256 + mixed
  }

  /** One round: xor in the byte, then multiply by the prime modulo 2^32. */
  function Step(h: Word32, c: char): Word32 {
    (XorByte(h, Byte(c)) * Prime) % TwoTo32
  }

  /** FNV-1a of a byte string, one round per byte from the offset basis. */
  function Hash(s: string): Word32
    decreases |s|
  {
    if s == [] then OffsetBasis else Step(Hash(s[..|s| - 1]), s[|s| - 1])
  }

  /** The rounds applied front to back, starting from h. */
  function Fold(h: Word32, s: string): Word32
    decreases |s|
  {
    if s == [] then h else Fold(Step(h, s[0]), s[1..])
  }

  /** The published 32-bit FNV-1a test vector for "a". */
  lemma HashA()
    ensures Hash("a") == 0xe40c292c
  {
  }

  /** vars__hash_fnv1a: the loop runs up to the terminating NUL. */
  method HashKey(key: string) returns (h: Word32)
    ensures h == Hash(CStr(key))
    ensures h == Fold(OffsetBasis, CStr(key))
  {
    h := OffsetBasis;
    var i := 0;
    while i < |key| && key[i] != '\0'
      invariant 0 <= i <= |key|
      invariant forall k :: 0 <= k < i ==> key[k] != '\0'
      invariant h == Hash(key[..i])
    {
      assert key[..i + 1][..i] == key[..i];
      h := Step(h, key[i]);
      i := i + 1;
    }
    SpanUnique(key, CharClass.NotNul, i);
    HashIsFold(CStr(key));
  }

  /** Folding one more byte is one more round at the end. */
  lemma {:induction false} FoldSnoc(h: Word32, s: string, c: char)
    ensures Fold(h, s + [c]) == Step(Fold(h, s), c)
    decreases |s|
  {
    if s == [] {
      assert ([] + [c])[1..] == [];
    } else {
      assert (s + [c])[1..] == s[1..] + [c];
      FoldSnoc(Step(h, s[0]), s[1..], c);
    }
  }

  /** The recursive definition agrees with the front-to-back loop of the C code. */
  lemma {:induction false} HashIsFold(s: string)
    ensures Hash(s) == Fold(OffsetBasis, s)
    decreases |s|
  {
    if s != [] {
      var init := s[..|s| - 1];
      HashIsFold(init);
      FoldSnoc(OffsetBasis, init, s[|s| - 1]);
      assert init + [s[|s| - 1]] == s;
    }
  }
}

=== FILE: hashmap.dfy ===
/**
 The loader and getters of vars_hashmap.h. vars_load tokenises the whole
 file in one loop: skip blanks; a '#' skips to the line break (and leaves
 the cursor on it); otherwise a key (letters, digits, '_'), blanks, and a
 value: a quoted string through the next '"' (line breaks included), or
 the rest of the line as it is. Each key and value is copied into
 parsed_buf with a NUL after it and the pair inserted into a table of
 capacity 128. The getters look the key up and decode the value text.
 */
module HashmapVars {
  import opened CharClass
  import opened Scan
  import opened Wrappers
  import opened Decimal
  import opened VecSyntax
  import opened ProbeTable
  import Accessors

  /** vars_load calls vars__map_init(file.map, 128). */
  const Capacity: nat := 128

  /** `*cursor == c`; a read at the end of the file is taken to match nothing. */
  predicate At(s: string, c: char) {
    s != [] && s[0] == c
  }

  /** One pass of the loop of vars_load: the pair it inserts (None for a comment), the bytes it writes into parsed_buf, the input left. */
  datatype Pass = Pass(pair: Option<Pair>, written: nat, rest: string)

  /** Length of the value text copied from the front of s. */
  function ValueLen(s: string): (n: nat)
    ensures n <= |s|
    ensures At(s, '"') ==> n >= 1
  {
    if At(s, '"') then
      var m := Span(s[1..], NotQuote);
      if 1 + m < |s| then m + 2 else m + 1
    else Span(s, NotEol)
  }

  /** One pass of the loop of vars_load on a non-empty rest of the file. */
  function Step(s: string): (r: Pass)
    requires s != []
    ensures |r.rest| < |s|
  {
    var t := DropWhile(s, IsWhiteSpace);
    if At(t, '#') then Comment(t) else Entry(s, t)
  }

  /** A comment: the cursor moves to the line break, and nothing is inserted. */
  function Comment(t: string): (r: Pass)
    requires At(t, '#')
    ensures |r.rest| < |t|
  {
    DropLen(t, NotEol);
    Pass(None, 0, DropWhile(t, NotEol))
  }

  /** A key, the blanks after it, and its value, from t = s after its leading blanks. */
  function Entry(s: string, t: string): (r: Pass)
    requires s != [] && t == DropWhile(s, IsWhiteSpace) && !At(t, '#')
    ensures |r.rest| < |s|
  {
    var k := Span(t, IsKeyChar);
    var u := DropWhile(t[k..], IsWhiteSpace);
    var n := ValueLen(u);
    var rest := DropWhile(u[n..], IsEol);
    Progress(s, t, k, u, n, rest);
    Pass(Some(Pair(t[..k], CStr(u[..n]))), k + n + 2, rest)
  }

  lemma DropLen(s: string, p: char -> bool)
    ensures |DropWhile(s, p)| == |s| - Span(s, p)
  {
  }

  /** A pass that is not a comment always reads something. */
  lemma Progress(s: string, t: string, k: nat, u: string, n: nat, rest: string)
    requires s != [] && t == DropWhile(s, IsWhiteSpace) && !At(t, '#')
    requires k == Span(t, IsKeyChar) && u == DropWhile(t[k..], IsWhiteSpace)
    requires n == ValueLen(u) && rest == DropWhile(u[n..], IsEol)
    ensures |rest| < |s|
  {
    var a := Span(s, IsWhiteSpace);
    var b := Span(t[k..], IsWhiteSpace);
    var c := Span(u[n..], IsEol);
    Lengths(s, t, k, u, n, rest);
    if a == 0 && k == 0 {
      Stuck(s, t, u);
      if n == 0 {
        BlankValue(u);
      }
    }
  }

  lemma Lengths(s: string, t: string, k: nat, u: string, n: nat, rest: string)
    requires t == DropWhile(s, IsWhiteSpace)
    requires k <= |t| && u == DropWhile(t[k..], IsWhiteSpace)
    requires n <= |u| && rest == DropWhile(u[n..], IsEol)
    ensures |rest| == |s| - Span(s, IsWhiteSpace) - k - Span(t[k..], IsWhiteSpace) - n - Span(u[n..], IsEol)
  {
  }

  /** A value of length zero starts at a line break. */
  lemma BlankValue(u: string)
    requires u != [] && ValueLen(u) == 0
    ensures Span(u[0..], IsEol) > 0
  {
    assert u[0..] == u;
    assert IsEol(u[0]);
  }

  lemma Stuck(s: string, t: string, u: string)
    requires s != [] && t == DropWhile(s, IsWhiteSpace) && Span(s, IsWhiteSpace) == 0
    requires u == DropWhile(t[0..], IsWhiteSpace)
    ensures t == s && u == s
  {
  }

  /** The pairs vars_load inserts, in order. */
  function Pairs(s: string): seq<Pair>
    decreases |s|
  {
    if s == [] then []
    else
      var r := Step(s);
      (if r.pair.Some? then [r.pair.value] else []) + Pairs(r.rest)
  }

  /** The bytes vars_load writes into parsed_buf. */
  function Written(s: string): nat
    decreases |s|
  {
    if s == [] then 0 else Step(s).written + Written(Step(s).rest)
  }

  /** The pairs inserted one after another. */
  function InsertAll(t: Table, ps: seq<Pair>): (r: Table)
    requires |t.slots| > 0
    ensures |r.slots| == |t.slots|
    decreases |ps|
  {
    if ps == [] then t else InsertAll(Insert(t, ps[0].key, ps[0].value), ps[1..])
  }

  /** The table vars_load builds (allocation assumed to succeed). */
  function Load(file: string): (t: Table)
    ensures |t.slots| == Capacity
  {
    InsertAll(Init(Capacity), Pairs(file))
  }

  /** The value of the first pair listed under key. */
  function First(ps: seq<Pair>, key: string): Option<string>
  {
    if ps == [] then None else if ps[0].key == key then Some(ps[0].value) else First(ps[1..], key)
  }

  // ---------------------------------------------------------------
  // The loaded table
  // ---------------------------------------------------------------

  /** First(ps, key) is the value of the earliest pair with the key. */
  lemma {:induction false} FirstFound(ps: seq<Pair>, key: string, value: string)
    ensures First(ps, key) == Some(value) <==>
      exists i :: 0 <= i < |ps| && ps[i] == Pair(key, value) && forall j :: 0 <= j < i ==> ps[j].key != key
    decreases |ps|
  {
    if ps != [] {
      FirstFound(ps[1..], key, value);
      if First(ps, key) == Some(value) && ps[0].key != key {
        var i :| 0 <= i < |ps| - 1 && ps[1..][i] == Pair(key, value) && forall j :: 0 <= j < i ==> ps[1..][j].key != key;
        assert ps[i + 1] == Pair(key, value);
        assert forall j :: 0 < j < i + 1 ==> ps[j].key == ps[1..][j - 1].key;
      }
      if i :| 0 <= i < |ps| && ps[i] == Pair(key, value) && forall j :: 0 <= j < i ==> ps[j].key != key {
        if i > 0 {
          assert ps[1..][i - 1] == Pair(key, value);
          assert forall j :: 0 <= j < i - 1 ==> ps[1..][j].key == ps[j + 1].key;
        }
      }
    }
  }

  /** Inserting pairs keeps the table invariant. */
  lemma {:induction false} InsertAllValid(t: Table, ps: seq<Pair>)
    requires Valid(t)
    ensures Valid(InsertAll(t, ps))
    decreases |ps|
  {
    if ps != [] {
      InsertValid(t, ps[0].key, ps[0].value);
      InsertAllValid(Insert(t, ps[0].key, ps[0].value), ps[1..]);
    }
  }

  /** A key the table already finds keeps its value, however many pairs follow (full table or not). */
  lemma {:induction false} InsertAllKeeps(t: Table, ps: seq<Pair>, key: string)
    requires |t.slots| > 0 && Get(t, key).Some?
    ensures Get(InsertAll(t, ps), key) == Get(t, key)
    decreases |ps|
  {
    if ps != [] {
      InsertFirstWins(t, ps[0].key, ps[0].value, key);
      InsertAllKeeps(Insert(t, ps[0].key, ps[0].value), ps[1..], key);
    }
  }

  /**
   While the pairs fit, a lookup after inserting them returns what the
   table found before, or else the value of the first pair with the key.
   */
  lemma {:induction false} InsertAllGet(t: Table, ps: seq<Pair>, key: string)
    requires Valid(t) && t.count + |ps| <= |t.slots|
    ensures Get(InsertAll(t, ps), key) == if Get(t, key).Some? then Get(t, key) else First(ps, key)
    decreases |ps|
  {
    if ps != [] {
      var p := ps[0];
      var t1 := Insert(t, p.key, p.value);
      InsertValid(t, p.key, p.value);
      var _ := InsertPlaces(t, p.key, p.value);
      assert t1.count + |ps[1..]| <= |t1.slots|;
      InsertAllGet(t1, ps[1..], key);
      if Get(t, key).Some? {
        InsertFirstWins(t, p.key, p.value, key);
      } else if p.key == key {
        InsertThenGet(t, key, p.value);
      } else {
        InsertOther(t, p.key, p.value, key);
      }
    }
  }

  /** The table vars_load builds satisfies the table invariant. */
  lemma LoadValid(file: string)
    ensures Valid(Load(file))
  {
    InitValid(Capacity, "");
    InsertAllValid(Init(Capacity), Pairs(file));
  }

  /**
   With at most 128 pairs, every key maps to the value of its first pair in
   the file: a later duplicate never replaces it.
   */
  lemma LoadGet(file: string, key: string)
    requires |Pairs(file)| <= Capacity
    ensures Get(Load(file), key) == First(Pairs(file), key)
  {
    InitValid(Capacity, key);
    InsertAllGet(Init(Capacity), Pairs(file), key);
  }

  /** The first pair of a file is always found, whatever follows it. */
  lemma LoadFirstPair(file: string, key: string, value: string)
    requires Pairs(file) != [] && Pairs(file)[0] == Pair(key, value)
    ensures Get(Load(file), key) == Some(value)
  {
    var t0 := Init(Capacity);
    InitValid(Capacity, key);
    InsertThenGet(t0, key, value);
    InsertAllKeeps(Insert(t0, key, value), Pairs(file)[1..], key);
  }

  // ---------------------------------------------------------------
  // Lines of the file
  // ---------------------------------------------------------------

  lemma DropNone(s: string, p: char -> bool)
    requires s != [] && !p(s[0])
    ensures DropWhile(s, p) == s
  {
    SpanUnique(s, p, 0);
  }

  lemma DropFirst(c: char, x: string, s: string, p: char -> bool)
    requires s == [c] + x && p(c)
    ensures DropWhile(s, p) == DropWhile(x, p)
  {
    SpanSkip(s, 1, p);
    assert s[1..] == x;
    assert s[1 + Span(x, p)..] == x[Span(x, p)..];
  }

  lemma DropPrefix(a: string, b: string, s: string, p: char -> bool)
    requires s == a + b && forall i :: 0 <= i < |a| ==> p(a[i])
    requires b == [] || !p(b[0])
    ensures DropWhile(s, p) == b
  {
    SpanAppendBlocked(a, b, p);
    assert s[|a|..] == b;
  }

  lemma PairsUnfold(s: string, r: Pass)
    requires s != [] && r == Step(s)
    ensures Pairs(s) == (if r.pair.Some? then [r.pair.value] else []) + Pairs(r.rest)
    ensures Written(s) == r.written + Written(r.rest)
  {
  }

  lemma EntryUnfold(s: string, t: string, k: nat, u: string, n: nat, rest: string)
    requires s != [] && t == DropWhile(s, IsWhiteSpace) && !At(t, '#')
    requires k == Span(t, IsKeyChar) && u == DropWhile(t[k..], IsWhiteSpace)
    requires n == ValueLen(u) && rest == DropWhile(u[n..], IsEol)
    ensures Step(s) == Pass(Some(Pair(t[..k], CStr(u[..n]))), k + n + 2, rest)
  {
  }

  /** EntryUnfold with the key, the value and the input left given their names. */
  lemma EntryNamed(s: string, t: string, k: nat, u: string, n: nat, key: string, value: string, rest: string)
    requires s != [] && t == DropWhile(s, IsWhiteSpace) && !At(t, '#')
    requires k == Span(t, IsKeyChar) && u == DropWhile(t[k..], IsWhiteSpace)
    requires n == ValueLen(u) && rest == DropWhile(u[n..], IsEol)
    requires key == t[..k] && value == CStr(u[..n])
    ensures Step(s) == Pass(Some(Pair(key, value)), k + n + 2, rest)
  {
    EntryUnfold(s, t, k, u, n, rest);
  }

  /** A key of key characters, one blank, and a value: key and value come apart at the blank. */
  lemma KeyThenValue(key: string, u: string, s: string)
    requires key != [] && forall i :: 0 <= i < |key| ==> IsKeyChar(key[i])
    requires u == [] || !IsWhiteSpace(u[0])
    requires s == key + (" " + u)
    ensures DropWhile(s, IsWhiteSpace) == s && !At(s, '#')
    ensures Span(s, IsKeyChar) == |key| && s[..|key|] == key
    ensures DropWhile(s[|key|..], IsWhiteSpace) == u
  {
    DropNone(s, IsWhiteSpace);
    SpanAppendBlocked(key, " " + u, IsKeyChar);
    assert s[|key|..] == " " + u;
    DropFirst(' ', u, " " + u, IsWhiteSpace);
    if u != [] {
      DropNone(u, IsWhiteSpace);
    }
  }

  /** A plain value (not opening with '"') runs to the end of the line. */
  lemma PlainValue(value: string, tail: string, u: string)
    requires u == value + tail && NoEol(value) && AtLineEnd(tail)
    requires value == [] || value[0] != '"'
    requires tail == [] || tail[0] != '"'
    ensures ValueLen(u) == |value| && u[..|value|] == value && u[|value|..] == tail
  {
    SpanAppendBlocked(value, tail, NotEol);
  }

  /**
   A line `key value` whose value does not open with '"' (nor with a blank)
   gives the pair (key, value) with the value exactly as written, and the
   loop goes on after the line breaks.
   */
  lemma KeyValueLine(key: string, value: string, tail: string, s: string)
    requires key != [] && forall i :: 0 <= i < |key| ==> IsKeyChar(key[i])
    requires NoEol(value) && '\0' !in value
    requires value == [] || (!IsWhiteSpace(value[0]) && value[0] != '"')
    requires AtLineEnd(tail)
    requires s == key + (" " + (value + tail))
    ensures Step(s) == Pass(Some(Pair(key, value)), |key| + |value| + 2, DropWhile(tail, IsEol))
  {
    var u := value + tail;
    assert ValueLen(u) == |value| && u[..|value|] == value && u[|value|..] == tail by {
      PlainValue(value, tail, u);
    }
    assert CStr(value) == value by {
      CStrOfCString(value);
    }
    KeyLine(key, u, value, tail, s);
  }

  /** A key, one space, then a value text whose scan is already known. */
  lemma KeyLine(key: string, u: string, value: string, tail: string, s: string)
    requires key != [] && forall i :: 0 <= i < |key| ==> IsKeyChar(key[i])
    requires u == [] || !IsWhiteSpace(u[0])
    requires s == key + (" " + u)
    requires ValueLen(u) == |value| && u[..|value|] == value && u[|value|..] == tail
    requires CStr(value) == value
    ensures Step(s) == Pass(Some(Pair(key, value)), |key| + |value| + 2, DropWhile(tail, IsEol))
  {
    var k := |key|;
    assert DropWhile(s, IsWhiteSpace) == s && !At(s, '#') && Span(s, IsKeyChar) == k
        && s[..k] == key && DropWhile(s[k..], IsWhiteSpace) == u by {
      KeyThenValue(key, u, s);
    }
    PlainEntry(s, key, u, value, tail);
  }

  /** The pass over a `key value` line, from the facts its scans establish. */
  lemma PlainEntry(s: string, key: string, u: string, value: string, tail: string)
    requires s != [] && DropWhile(s, IsWhiteSpace) == s && !At(s, '#')
    requires Span(s, IsKeyChar) == |key| && s[..|key|] == key && DropWhile(s[|key|..], IsWhiteSpace) == u
    requires ValueLen(u) == |value| && u[..|value|] == value && u[|value|..] == tail
    requires CStr(value) == value
    ensures Step(s) == Pass(Some(Pair(key, value)), |key| + |value| + 2, DropWhile(tail, IsEol))
  {
    var k, n, rest := |key|, |value|, DropWhile(tail, IsEol);
    assert rest == DropWhile(u[n..], IsEol);
    assert value == CStr(u[..n]);
    assert key == s[..k];
    EntryNamed(s, s, k, u, n, key, value, rest);
  }

  /** One pass that reads an entry, from the facts its scans establish. */
  lemma EntryFacts(s: string, t: string, key: string, u: string, value: string, tail: string, n: nat)
    requires s != [] && DropWhile(s, IsWhiteSpace) == t && !At(t, '#')
    requires Span(t, IsKeyChar) == |key| && t[..|key|] == key && DropWhile(t[|key|..], IsWhiteSpace) == u
    requires ValueLen(u) == n && u[..n] == value && u[n..] == tail
    requires CStr(value) == value
    ensures Step(s) == Pass(Some(Pair(key, value)), |key| + n + 2, DropWhile(tail, IsEol))
  {
    var k, rest := |key|, DropWhile(tail, IsEol);
    assert rest == DropWhile(u[n..], IsEol);
    assert value == CStr(u[..n]);
    assert key == t[..k];
    EntryNamed(s, t, k, u, n, key, value, rest);
  }

  /** A quoted value runs through the next '"', line breaks included, and keeps both quotes. */
  lemma QuotedValue(body: string, tail: string, u: string)
    requires '"' !in body
    requires u == "\"" + (body + ("\"" + tail))
    ensures ValueLen(u) == |body| + 2
    ensures u[..|body| + 2] == "\"" + body + "\"" && u[|body| + 2..] == tail
  {
    assert u[1..] == body + ("\"" + tail);
    SpanAppendBlocked(body, "\"" + tail, NotQuote);
  }

  /** A line `key "body"` gives the pair (key, "\"body\""); the body may span lines. */
  lemma KeyQuotedLine(key: string, body: string, tail: string, s: string)
    requires key != [] && forall i :: 0 <= i < |key| ==> IsKeyChar(key[i])
    requires '"' !in body && '\0' !in body
    requires s == key + (" " + ("\"" + (body + ("\"" + tail))))
    ensures Step(s) == Pass(Some(Pair(key, "\"" + body + "\"")), |key| + |body| + 4, DropWhile(tail, IsEol))
  {
    var u := "\"" + (body + ("\"" + tail));
    var value := "\"" + body + "\"";
    assert ValueLen(u) == |body| + 2 && u[..|body| + 2] == value && u[|body| + 2..] == tail by {
      QuotedValue(body, tail, u);
    }
    assert CStr(value) == value by {
      CStrOfCString(value);
    }
    assert |value| == |body| + 2;
    KeyLine(key, u, value, tail, s);
  }

  /**
   A line holding only blanks (or nothing) before its line break gives the
   pair ("", ""): the key and the value are both empty.
   */
  lemma BlankLine(blanks: string, rest: string, s: string)
    requires forall i :: 0 <= i < |blanks| ==> IsWhiteSpace(blanks[i])
    requires s == blanks + ("\n" + rest)
    ensures Pairs(s) == [Pair("", "")] + Pairs(DropWhile(rest, IsEol))
  {
    var t := "\n" + rest;
    var next := DropWhile(rest, IsEol);
    assert DropWhile(s, IsWhiteSpace) == t by {
      DropPrefix(blanks, t, s, IsWhiteSpace);
    }
    BreakEntry(s, t, rest, next);
    PairsUnfold(s, Step(s));
  }

  /** The pass that starts on a line break (after blanks) inserts ("", "") and skips the breaks. */
  lemma BreakEntry(s: string, t: string, rest: string, next: string)
    requires s != [] && DropWhile(s, IsWhiteSpace) == t
    requires t == "\n" + rest && next == DropWhile(rest, IsEol)
    ensures Step(s) == Pass(Some(Pair("", "")), 2, next)
  {
    assert Span(t, IsKeyChar) == 0 && t[0..] == t && t[..0] == [];
    assert DropWhile(t, IsWhiteSpace) == t by {
      DropNone(t, IsWhiteSpace);
    }
    assert ValueLen(t) == 0;
    assert CStr([]) == [];
    assert DropWhile(t, IsEol) == next by {
      DropFirst('\n', rest, t, IsEol);
    }
    EntryFacts(s, t, [], t, [], t, 0);
  }

  /**
   A comment line leaves the cursor on its line break; the next pass finds
   an empty key there and inserts ("", "").
   */
  lemma CommentLine(text: string, rest: string, s: string)
    requires NoEol(text)
    requires s == "#" + (text + ("\n" + rest))
    ensures Pairs(s) == [Pair("", "")] + Pairs(DropWhile(rest, IsEol))
  {
    var next := "\n" + rest;
    DropNone(s, IsWhiteSpace);
    assert s == ("#" + text) + next;
    DropPrefix("#" + text, next, s, NotEol);
    PairsUnfold(s, Step(s));
    BlankLine([], rest, next);
  }

  /** A comment on the last line, without a line break, inserts nothing. */
  lemma CommentAtEnd(text: string, s: string)
    requires NoEol(text) && s == "#" + text
    ensures Pairs(s) == []
  {
    DropNone(s, IsWhiteSpace);
    DropPrefix(s, [], s, NotEol);
    PairsUnfold(s, Step(s));
  }

  /** The pair of a `key value` line, then the pairs of the lines after it. */
  lemma KeyValuePairs(key: string, value: string, tail: string, s: string)
    requires key != [] && forall i :: 0 <= i < |key| ==> IsKeyChar(key[i])
    requires NoEol(value) && '\0' !in value
    requires value == [] || (!IsWhiteSpace(value[0]) && value[0] != '"')
    requires AtLineEnd(tail)
    requires s == key + (" " + (value + tail))
    ensures Pairs(s) == [Pair(key, value)] + Pairs(DropWhile(tail, IsEol))
  {
    KeyValueLine(key, value, tail, s);
    PairsUnfold(s, Step(s));
  }

  /** A file whose first line is `key value` maps key to value. */
  lemma LoadKeyValue(key: string, value: string, tail: string, file: string)
    requires key != [] && forall i :: 0 <= i < |key| ==> IsKeyChar(key[i])
    requires NoEol(value) && '\0' !in value
    requires value == [] || (!IsWhiteSpace(value[0]) && value[0] != '"')
    requires AtLineEnd(tail)
    requires file == key + (" " + (value + tail))
    ensures Get(Load(file), key) == Some(value)
  {
    KeyValuePairs(key, value, tail, file);
    LoadFirstPair(file, key, value);
  }

  /** A file whose first line is `key "body"` maps key to the quoted text. */
  lemma LoadKeyQuoted(key: string, body: string, tail: string, file: string)
    requires key != [] && forall i :: 0 <= i < |key| ==> IsKeyChar(key[i])
    requires '"' !in body && '\0' !in body
    requires file == key + (" " + ("\"" + (body + ("\"" + tail))))
    ensures Get(Load(file), key) == Some("\"" + body + "\"")
  {
    KeyQuotedLine(key, body, tail, file);
    PairsUnfold(file, Step(file));
    LoadFirstPair(file, key, "\"" + body + "\"");
  }

  /** A file whose only line is `key "body` (no closing quote) maps key to the open quote and the rest of the file. */
  lemma LoadKeyOpenQuote(key: string, body: string, file: string)
    requires key != [] && forall i :: 0 <= i < |key| ==> IsKeyChar(key[i])
    requires '"' !in body && '\0' !in body
    requires file == key + (" " + ("\"" + body))
    ensures Get(Load(file), key) == Some("\"" + body)
  {
    var u := "\"" + body;
    assert ValueLen(u) == |u| && u[..|u|] == u && u[|u|..] == [] by {
      assert u[1..] == body;
      SpanUnique(body, NotQuote, |body|);
    }
    assert CStr(u) == u by {
      CStrOfCString(u);
    }
    KeyLine(key, u, u, [], file);
    PairsUnfold(file, Step(file));
    LoadFirstPair(file, key, u);
  }

  // ---------------------------------------------------------------
  // Getters
  // ---------------------------------------------------------------

  /**
   vars_get_string: NULL when the key is missing or its value does not
   open with '"'; otherwise the text after the quote up to the next '"' or
   the end of the value, whether or not a closing quote follows.
   */
  function GetString(key: string, t: Table): Option<string>
    requires |t.slots| > 0
  {
    match Get(t, key)
    case None => None
    case Some(val) => ReadString(val)
  }

  /** The copy loop of vars_get_string: the longest run after the opening quote with no '"' and no NUL. */
  function ReadString(val: string): (r: Option<string>)
    ensures r.Some? <==> At(val, '"')
    ensures r.Some? ==> |r.value| < |val| && r.value == val[1..1 + |r.value|]
    ensures r.Some? ==> forall i :: 0 <= i < |r.value| ==> Accessors.InString(r.value[i])
    ensures r.Some? ==> 1 + |r.value| == |val| || !Accessors.InString(val[1 + |r.value|])
  {
    if At(val, '"') then
      var body := val[1..];
      Some(body[..Span(body, Accessors.InString)])
    else None
  }

  /** vars_get_int: INT_MIN only for a missing key; otherwise (int)strtol(val, NULL, 10). */
  function GetInt(key: string, t: Table): int32
    requires |t.slots| > 0
  {
    match Get(t, key)
    case None => IntMin as int32
    case Some(val) => ReadInt(val)
  }

  /** (int)strtol(val, NULL, 10): 0 when no digit is read, the number itself when it fits an int. */
  function ReadInt(val: string): (r: int32)
    ensures Strtol(val) == None ==> r == 0
    ensures Strtol(val).Some? && IntMin <= Strtol(val).value < 0x8000_0000 ==> r as int == Strtol(val).value
  {
    match Strtol(val)
    case None => 0
    case Some(i) => Accessors.Wrap32(Accessors.ToLong(i))
  }

  /** vars_get_bool: -1 for a missing key, 1 when the value is exactly "true", 0 otherwise. */
  function GetBool(key: string, t: Table): (r: int32)
    requires |t.slots| > 0
    ensures -1 <= r <= 1
  {
    match Get(t, key)
    case None => -1
    case Some(val) => if val == "true" then 1 else 0
  }

  /** vars_get_float: zero for a missing key, otherwise what strtof reads from the value. */
  function GetFloat(key: string, t: Table, scan: NumberScanner): Component
    requires |t.slots| > 0
  {
    match Get(t, key)
    case None => Zero
    case Some(val) => Accessors.ReadFloat(val, scan)
  }

  /**
   vars_get_vec2/3/4: the components vars__parse_vec wrote before it
   stopped (blanks are IS_WHITE_SPACE here), zeros for the rest; the
   success flag is not looked at.
   */
  function GetVec(key: string, t: Table, count: nat, scan: NumberScanner): (v: seq<Component>)
    requires |t.slots| > 0
    ensures |v| == count
  {
    match Get(t, key)
    case None => Components([], count)
    case Some(val) => Components(ParseVec(val, count, IsWhiteSpace, scan).parts, count)
  }

  // ---------------------------------------------------------------
  // Getters over a loaded file
  // ---------------------------------------------------------------

  /** No pair lists the key exactly when First finds nothing. */
  lemma {:induction false} FirstMissing(ps: seq<Pair>, key: string)
    ensures First(ps, key) == None <==> forall i :: 0 <= i < |ps| ==> ps[i].key != key
    decreases |ps|
  {
    if ps != [] {
      FirstMissing(ps[1..], key);
      assert forall i :: 0 < i < |ps| ==> ps[i] == ps[1..][i - 1];
    }
  }

  /** Every getter's answer for a key no line of the file defines. */
  lemma GetMissing(key: string, file: string, count: nat, scan: NumberScanner)
    requires |Pairs(file)| <= Capacity && forall i :: 0 <= i < |Pairs(file)| ==> Pairs(file)[i].key != key
    ensures GetString(key, Load(file)) == None
    ensures GetInt(key, Load(file)) as int == IntMin
    ensures GetBool(key, Load(file)) == -1
    ensures GetFloat(key, Load(file), scan) == Zero
    ensures forall i :: 0 <= i < count ==> GetVec(key, Load(file), count, scan)[i] == Zero
  {
    FirstMissing(Pairs(file), key);
    LoadGet(file, key);
  }

  /** The copy stops at the closing quote, or at the end when there is none. */
  lemma ReadStringOf(body: string, rest: string)
    requires '"' !in body && '\0' !in body
    requires rest == [] || rest[0] == '"'
    ensures ReadString("\"" + body + rest) == Some(body)
  {
    var val := "\"" + body + rest;
    assert val[1..] == body + rest;
    SpanAppendBlocked(body, rest, Accessors.InString);
    assert (body + rest)[..|body|] == body;
  }

  /** vars_get_string on a `key "body"` line returns body. */
  lemma LoadGetString(key: string, body: string, tail: string, file: string)
    requires key != [] && forall i :: 0 <= i < |key| ==> IsKeyChar(key[i])
    requires '"' !in body && '\0' !in body
    requires file == key + (" " + ("\"" + (body + ("\"" + tail))))
    ensures GetString(key, Load(file)) == Some(body)
  {
    LoadKeyQuoted(key, body, tail, file);
    ReadStringOf(body, "\"");
  }

  /** An unclosed string still reads back: everything after the quote. */
  lemma LoadGetOpenString(key: string, body: string, file: string)
    requires key != [] && forall i :: 0 <= i < |key| ==> IsKeyChar(key[i])
    requires '"' !in body && '\0' !in body
    requires file == key + (" " + ("\"" + body))
    ensures GetString(key, Load(file)) == Some(body)
  {
    LoadKeyOpenQuote(key, body, file);
    ReadStringOf(body, []);
    assert "\"" + body + [] == "\"" + body;
  }

  /** vars_get_int reads back the "%d" text of any int. */
  lemma LoadGetInt(key: string, n: int32, tail: string, file: string)
    requires key != [] && forall i :: 0 <= i < |key| ==> IsKeyChar(key[i])
    requires AtLineEnd(tail)
    requires file == key + (" " + (FormatInt(n as int) + tail))
    ensures GetInt(key, Load(file)) == n
  {
    var text := FormatInt(n as int);
    Accessors.FormatIntPlain(n as int);
    LoadKeyValue(key, text, tail, file);
    StrtolFormatInt(n as int, []);
    assert text + [] == text;
  }

  /** A value without digits reads as 0, not as the INT_MIN of a missing key. */
  lemma LoadGetIntNoDigits(key: string, value: string, tail: string, file: string)
    requires key != [] && forall i :: 0 <= i < |key| ==> IsKeyChar(key[i])
    requires NoEol(value) && '\0' !in value
    requires value == [] || (!IsWhiteSpace(value[0]) && value[0] != '"')
    requires forall i :: 0 <= i < |value| ==> !IsNumber(value[i])
    requires AtLineEnd(tail)
    requires file == key + (" " + (value + tail))
    ensures GetInt(key, Load(file)) == 0
  {
    LoadKeyValue(key, value, tail, file);
    StrtolNoDigits(value);
  }

  /** vars_get_bool of a `key value` line: 1 exactly for the whole value "true". */
  lemma LoadGetBool(key: string, value: string, tail: string, file: string)
    requires key != [] && forall i :: 0 <= i < |key| ==> IsKeyChar(key[i])
    requires NoEol(value) && '\0' !in value
    requires value == [] || (!IsWhiteSpace(value[0]) && value[0] != '"')
    requires AtLineEnd(tail)
    requires file == key + (" " + (value + tail))
    ensures GetBool(key, Load(file)) == 1 <==> value == "true"
    ensures GetBool(key, Load(file)) == 0 <==> value != "true"
  {
    LoadKeyValue(key, value, tail, file);
  }

  /** A blank after "true" is part of the value, so the flag reads 0. */
  lemma LoadGetBoolTrailingBlank(key: string, tail: string, file: string)
    requires key != [] && forall i :: 0 <= i < |key| ==> IsKeyChar(key[i])
    requires AtLineEnd(tail)
    requires file == key + (" " + ("true " + tail))
    ensures GetBool(key, Load(file)) == 0
  {
    var value := "true ";
    assert NoEol(value) && '\0' !in value && !IsWhiteSpace(value[0]);
    LoadGetBool(key, value, tail, file);
  }

  /** vars_get_float reads back a number strtof reads whole. */
  lemma LoadGetFloat(key: string, num: string, tail: string, file: string, scan: NumberScanner)
    requires key != [] && forall i :: 0 <= i < |key| ==> IsKeyChar(key[i])
    requires num != [] && NoEol(num) && '\0' !in num
    requires !IsWhiteSpace(num[0]) && num[0] != '"'
    requires scan(num) == |num|
    requires AtLineEnd(tail)
    requires file == key + (" " + (num + tail))
    ensures GetFloat(key, Load(file), scan) == Number(num)
  {
    LoadKeyValue(key, num, tail, file);
    assert num[..|num|] == num;
  }

  /** vars_get_vecN reads back every component of a "( ... )" line with N numbers. */
  lemma LoadGetVec(key: string, nums: seq<string>, tail: string, file: string, scan: NumberScanner)
    requires key != [] && forall i :: 0 <= i < |key| ==> IsKeyChar(key[i])
    requires Accessors.PlainParts(nums) && Readable(nums, IsWhiteSpace, scan)
    requires AtLineEnd(tail)
    requires file == key + (" " + (VecText(nums) + tail))
    ensures GetVec(key, Load(file), |nums|, scan) == Components(nums, |nums|)
  {
    LoadVecLine(key, nums, tail, file);
    WholeVecOf(Load(file), key, nums, scan);
  }

  /** vars_get_vecN on a value holding exactly N numbers. */
  lemma WholeVecOf(t: Table, key: string, nums: seq<string>, scan: NumberScanner)
    requires |t.slots| > 0 && Get(t, key) == Some(VecText(nums))
    requires Readable(nums, IsWhiteSpace, scan)
    ensures GetVec(key, t, |nums|, scan) == Components(nums, |nums|)
  {
    ParsedWhole(nums, scan);
    GetVecOf(t, key, VecText(nums), |nums|, VecParse(true, nums), scan);
  }

  /** vars__parse_vec with IS_WHITE_SPACE reads "( ... )" whole. */
  lemma ParsedWhole(nums: seq<string>, scan: NumberScanner)
    requires Readable(nums, IsWhiteSpace, scan)
    ensures ParseVec(VecText(nums), |nums|, IsWhiteSpace, scan) == VecParse(true, nums)
  {
    assert VecText(nums) + [] == VecText(nums);
    ParseVecText(nums, [], IsWhiteSpace, scan);
  }

  /**
   vars_get_vec3 of a line holding two numbers keeps both: the components
   written before the parse failed stay in the result.
   */
  lemma LoadGetVecShort(key: string, x: string, y: string, tail: string, file: string, scan: NumberScanner)
    requires key != [] && forall i :: 0 <= i < |key| ==> IsKeyChar(key[i])
    requires Accessors.PlainParts([x, y]) && Readable([x, y], IsWhiteSpace, scan)
    requires scan(")") == 0
    requires AtLineEnd(tail)
    requires file == key + (" " + (VecText([x, y]) + tail))
    ensures GetVec(key, Load(file), 3, scan) == [Number(x), Number(y), Zero]
  {
    LoadVecLine(key, [x, y], tail, file);
    ShortVecOf(Load(file), key, x, y, scan);
  }

  /** A file whose first line is `key ( ... )` maps key to the vector text. */
  lemma LoadVecLine(key: string, nums: seq<string>, tail: string, file: string)
    requires key != [] && forall i :: 0 <= i < |key| ==> IsKeyChar(key[i])
    requires Accessors.PlainParts(nums)
    requires AtLineEnd(tail)
    requires file == key + (" " + (VecText(nums) + tail))
    ensures Get(Load(file), key) == Some(VecText(nums))
  {
    var text := VecText(nums);
    Accessors.VecTextPlain(nums);
    assert text[0] == '(';
    LoadKeyValue(key, text, tail, file);
  }

  /** vars_get_vec3 on a value holding two numbers. */
  lemma ShortVecOf(t: Table, key: string, x: string, y: string, scan: NumberScanner)
    requires |t.slots| > 0 && Get(t, key) == Some(VecText([x, y]))
    requires Readable([x, y], IsWhiteSpace, scan) && scan(")") == 0
    ensures GetVec(key, t, 3, scan) == [Number(x), Number(y), Zero]
  {
    var text := VecText([x, y]);
    assert ParseVec(text, 3, IsWhiteSpace, scan) == VecParse(false, [x, y]) by {
      assert text + [] == text && ")" + [] == ")";
      ParseTwoAsThree(x, y, [], IsWhiteSpace, scan);
    }
    GetVecOf(t, key, text, 3, VecParse(false, [x, y]), scan);
    TwoOfThree(x, y);
  }

  /** GetVec from the value found and what vars__parse_vec made of it. */
  lemma GetVecOf(t: Table, key: string, val: string, count: nat, p: VecParse, scan: NumberScanner)
    requires |t.slots| > 0 && Get(t, key) == Some(val)
    requires ParseVec(val, count, IsWhiteSpace, scan) == p
    ensures GetVec(key, t, count, scan) == Components(p.parts, count)
  {
  }


  // ---------------------------------------------------------------
  // The size of parsed_buf
  // ---------------------------------------------------------------

  /** vars_load allocates parsed_buf with malloc(size), the size of the file. */
  function ParsedBufSize(size: nat): nat
  {
    size
  }

  /**
   A size that holds every byte the loop writes: each pass reads at least
   one byte and writes at most what it reads plus two NULs.
   */
  function SafeParsedBufSize(size: nat): nat
  {
    3 * size
  }

  /** The vars_file vars_load returns: the table, the bytes written into parsed_buf, the room parsed_buf has. */
  datatype HashFile = HashFile(table: Table, parsedLen: nat, parsedCap: nat)

  /** vars_load with parsed_buf allocated at SafeParsedBufSize: every write lands inside it. */
  function LoadFile(file: string): (f: HashFile)
    ensures f.parsedLen <= f.parsedCap && f.parsedCap == 3 * |file|
    ensures Valid(f.table) && |f.table.slots| == Capacity
  {
    WrittenFits(file);
    LoadValid(file);
    HashFile(Load(file), Written(file), SafeParsedBufSize(|file|))
  }

  /** The bytes one pass writes, against the bytes it reads. */
  lemma StepWritten(s: string)
    requires s != []
    ensures Step(s).written + |Step(s).rest| <= |s| + 2
  {
    var t := DropWhile(s, IsWhiteSpace);
    if !At(t, '#') {
      var k := Span(t, IsKeyChar);
      var u := DropWhile(t[k..], IsWhiteSpace);
      var n := ValueLen(u);
      var rest := DropWhile(u[n..], IsEol);
      EntryUnfold(s, t, k, u, n, rest);
      Lengths(s, t, k, u, n, rest);
    }
  }

  /** The loop never writes more than SafeParsedBufSize of the file size. */
  lemma {:induction false} WrittenFits(s: string)
    ensures Written(s) <= SafeParsedBufSize(|s|)
    decreases |s|
  {
    if s != [] {
      var r := Step(s);
      PairsUnfold(s, r);
      StepWritten(s);
      WrittenFits(r.rest);
    }
  }

  /**
   A file that is a single `key value` line without a line break makes the
   loop write one byte more than the file holds, so past the end of
   parsed_buf: "a b" has three bytes and writes four.
   */
  lemma ParsedOverflow(key: string, value: string, file: string)
    requires key != [] && forall i :: 0 <= i < |key| ==> IsKeyChar(key[i])
    requires NoEol(value) && '\0' !in value
    requires value == [] || (!IsWhiteSpace(value[0]) && value[0] != '"')
    requires file == key + (" " + (value + []))
    ensures Written(file) == |file| + 1 > ParsedBufSize(|file|)
  {
    KeyValueLine(key, value, [], file);
    PairsUnfold(file, Step(file));
  }

  // ---------------------------------------------------------------
  // Reads at the end of filebuf
  // ---------------------------------------------------------------

  /**
   The input left at each byte vars_load tests without checking
   `cursor < end`: the '#' test after the blanks (vars_hashmap.h:238), the
   opening-quote test after the key and its blanks (line 252) and, after an
   opening quote, the closing-quote test (line 255). An empty rest on the
   last pass is a read of filebuf[size], one byte past the malloc(size) of
   line 225.
   */
  function UnguardedReads(s: string): (r: seq<string>)
    requires s != []
    ensures 1 <= |r| <= 3
    ensures forall i :: 0 <= i < |r| ==> |r[i]| <= |s|
  {
    var t := DropWhile(s, IsWhiteSpace);
    if At(t, '#') then [t]
    else
      var k := Span(t, IsKeyChar);
      var u := DropWhile(t[k..], IsWhiteSpace);
      if At(u, '"') then [t, u, DropWhile(u[1..], NotQuote)] else [t, u]
  }

  /** Some unguarded test of the pass reads the byte past the end of the file. */
  predicate ReadsPastEnd(s: string)
    requires s != []
  {
    [] in UnguardedReads(s)
  }

  /**
   A file that ends in a key, such as the 1-byte file `a`: the quote test
   of line 252 reads filebuf[size].
   */
  lemma KeyAtEndReadsPastEnd(key: string)
    requires key != [] && forall i :: 0 <= i < |key| ==> IsKeyChar(key[i])
    ensures UnguardedReads(key) == [key, []]
    ensures ReadsPastEnd(key)
  {
    DropNone(key, IsWhiteSpace);
    assert key + [] == key;
    SpanAppendBlocked(key, [], IsKeyChar);
    assert key[|key|..] == [];
  }

  /**
   A file whose last line holds only blanks, such as `k v\n `: the pass
   after the entry starts on the blanks, and the '#' test of line 238
   reads filebuf[size].
   */
  lemma BlanksAtEndReadPastEnd(key: string, value: string, blanks: string, s: string)
    requires key != [] && forall i :: 0 <= i < |key| ==> IsKeyChar(key[i])
    requires NoEol(value) && '\0' !in value
    requires value == [] || (!IsWhiteSpace(value[0]) && value[0] != '"')
    requires blanks != [] && forall i :: 0 <= i < |blanks| ==> IsWhiteSpace(blanks[i])
    requires s == key + (" " + (value + ("\n" + blanks)))
    ensures Step(s).rest == blanks
    ensures UnguardedReads(blanks) == [[], []]
    ensures ReadsPastEnd(blanks)
  {
    BlanksAfterEntry(key, value, blanks, s);
    BlanksOnlyReads(blanks);
  }

  /** The pass over `key value` skips the one line break and stops on the blanks after it. */
  lemma BlanksAfterEntry(key: string, value: string, blanks: string, s: string)
    requires key != [] && forall i :: 0 <= i < |key| ==> IsKeyChar(key[i])
    requires NoEol(value) && '\0' !in value
    requires value == [] || (!IsWhiteSpace(value[0]) && value[0] != '"')
    requires blanks != [] && forall i :: 0 <= i < |blanks| ==> IsWhiteSpace(blanks[i])
    requires s == key + (" " + (value + ("\n" + blanks)))
    ensures Step(s).rest == blanks
  {
    var tail := "\n" + blanks;
    assert DropWhile(tail, IsEol) == blanks by {
      DropFirst('\n', blanks, tail, IsEol);
      DropNone(blanks, IsEol);
    }
    KeyValueLine(key, value, tail, s);
  }

  /** A pass over blanks alone finds no key and no value: both tests read at the end. */
  lemma BlanksOnlyReads(blanks: string)
    requires blanks != [] && forall i :: 0 <= i < |blanks| ==> IsWhiteSpace(blanks[i])
    ensures UnguardedReads(blanks) == [[], []]
  {
    var t: string := [];
    assert blanks + t == blanks;
    DropPrefix(blanks, t, blanks, IsWhiteSpace);
    assert t[0..] == [] && Span(t, IsKeyChar) == 0;
    EntryReads(blanks, t, 0, t);
  }

  /** UnguardedReads of a pass that is not a comment, from the facts its scans establish. */
  lemma EntryReads(s: string, t: string, k: nat, u: string)
    requires s != [] && t == DropWhile(s, IsWhiteSpace) && !At(t, '#')
    requires k == Span(t, IsKeyChar) && u == DropWhile(t[k..], IsWhiteSpace)
    ensures At(u, '"') ==> UnguardedReads(s) == [t, u, DropWhile(u[1..], NotQuote)]
    ensures !At(u, '"') ==> UnguardedReads(s) == [t, u]
  {
  }

  /**
   A file that ends inside an unclosed quote, such as `k "x`: the
   closing-quote test of line 255 reads filebuf[size].
   */
  lemma OpenQuoteReadsPastEnd(key: string, body: string, s: string)
    requires key != [] && forall i :: 0 <= i < |key| ==> IsKeyChar(key[i])
    requires '"' !in body
    requires s == key + (" " + ("\"" + body))
    ensures UnguardedReads(s) == [s, "\"" + body, []]
    ensures ReadsPastEnd(s)
  {
    var u := "\"" + body;
    KeyThenValue(key, u, s);
    assert u[1..] == body;
    assert DropWhile(body, NotQuote) == [] by {
      assert body + [] == body;
      SpanAppendBlocked(body, [], NotQuote);
    }
    EntryReads(s, s, |key|, u);
  }

  /**
   With every read guarded by `cursor < end`, as At reads it, a key at the
   end of the file gets an empty value: the pass inserts (key, "") and
   writes the key and two NULs, within SafeParsedBufSize.
   */
  lemma KeyAtEnd(key: string)
    requires key != [] && forall i :: 0 <= i < |key| ==> IsKeyChar(key[i])
    ensures Pairs(key) == [Pair(key, "")]
    ensures Written(key) == |key| + 2 <= SafeParsedBufSize(|key|)
  {
    var k := |key|;
    DropNone(key, IsWhiteSpace);
    assert key + [] == key;
    SpanAppendBlocked(key, [], IsKeyChar);
    assert key[k..] == [] && key[..k] == key;
    var u: string := [];
    assert ValueLen(u) == 0 && CStr(u[..0]) == [];
    EntryNamed(key, key, k, u, 0, key, "", []);
    PairsUnfold(key, Step(key));
  }
}

=== FILE: normaliser.dfy ===
/**
 The normaliser of vars.h (the parsing loop of vars__load_and_parse_file):
 raw file text becomes a buffer of lines, one per source line that has any
 token, each holding its tokens joined by single blanks. A ":/name" header
 sets the active section, and while it is non-empty the first bare token of
 each later line is written as "name/token".
 */
module Normaliser {
  import opened CharClass
  import opened Scan

  /** current_subfolder holds 256 bytes; a name keeps at most 256 - 2 of them. */
  const SectionCap: nat := 254

  /** The outcome of the inner loop over one line: the text emitted, the section, how much input it read. */
  datatype LineScan = LineScan(out: string, section: string, used: nat)

  /** The blank written before a token when the line already has one (parsed_any). */
  function Sep(any: bool): string {
    if any then " " else ""
  }

  /** A header name as stored: the first SectionCap characters. */
  function Capped(name: string): (r: string)
    ensures |r| <= SectionCap && |r| <= |name| && r == name[..|r|]
    ensures |name| <= SectionCap ==> r == name
  {
    if |name| <= SectionCap then name else name[..SectionCap]
  }

  /** The key prefix of the first bare token: "name/" while the section is non-empty (strlen stops at a NUL). */
  function Prefix(section: string, any: bool): string {
    if !any && CStr(section) != [] then CStr(section) + "/" else ""
  }

  /** Length of a ":/name" header at the front of s (s starts with ":/"). */
  function HeaderLen(s: string): (n: nat)
    requires |s| >= 2
    ensures 2 <= n <= |s|
  {
    2 + Span(s[2..], IsNameChar)
  }

  /** Length of a quoted token at the front of s: through the closing quote, or up to the line end. */
  function QuotedLen(s: string): (n: nat)
    requires s != []
    ensures 1 <= n <= |s|
  {
    var n := Span(s[1..], IsQuoteBody);
    if 1 + n < |s| && s[1 + n] == '"' then n + 2 else n + 1
  }

  /** What one pass of the inner loop reads from a line: how much, what it writes, the section after it. */
  datatype Piece = Piece(len: nat, text: string, section: string, any: bool)

  /**
   One pass of the inner loop on a character that is neither a line break
   nor '#': a header, a quoted token, a bare token, or a skipped character.
   */
  function Item(s: string, section: string, any: bool): (p: Piece)
    requires s != []
    ensures 1 <= p.len <= |s|
  {
    if s[0] == ':' && |s| > 1 && s[1] == '/' then
      var n := HeaderLen(s);
      var name := Capped(s[2..n]);
      Piece(n, Sep(any) + ":/" + name, name, true)
    else if s[0] == '"' then
      var n := QuotedLen(s);
      Piece(n, Sep(any) + s[..n], section, true)
    else if IsTokenChar(s[0]) then
      var n := Span(s, IsTokenChar);
      Piece(n, Sep(any) + Prefix(section, any) + s[..n], section, true)
    else Piece(1, [], section, any)
  }

  /**
   The inner loop of the normaliser from the current position to the end of
   the line. `any` is parsed_any, `section` is current_subfolder.
   */
  function ScanLine(s: string, section: string, any: bool): (r: LineScan)
    ensures r.used <= |s|
    ensures r.used == |s| || IsEol(s[r.used])
    ensures s != [] && !IsEol(s[0]) ==> r.used > 0
    decreases |s|
  {
    if s == [] || IsEol(s[0]) then LineScan([], section, 0)
    else if s[0] == '#' then LineScan([], section, Span(s, NotEol))
    else
      var p := Item(s, section, any);
      var r := ScanLine(s[p.len..], p.section, p.any);
      LineScan(p.text + r.out, r.section, p.len + r.used)
  }

  /** The lines kept from one line of input: its scan, if the scan wrote anything. */
  function Kept(out: string): seq<string> {
    if out == [] then [] else [out]
  }

  /**
   The outer loop: skip blanks and line breaks, scan a line, keep it when it
   produced anything. The result lists the lines without their '\n'.
   */
  function Run(s: string, section: string): seq<string>
    decreases |s|
  {
    var t := DropWhile(s, IsSpace);
    if t == [] then []
    else
      var l := ScanLine(t, section, false);
      Kept(l.out) + Run(DropWhile(t[l.used..], IsEol), l.section)
  }

  /** Lines each followed by '\n', as written into parsed_buf. */
  function Unlines(lines: seq<string>): string
  {
    if lines == [] then [] else lines[0] + "\n" + Unlines(lines[1..])
  }

  /** parsed_buf after loading a file, starting with no section. */
  function Normalise(file: string): string
  {
    Unlines(Run(file, []))
  }

  /** One pass of the inner loop never reads past a line break. */
  lemma ItemStops(s: string, section: string, any: bool)
    requires s != [] && !IsEol(s[0])
    ensures forall i :: 0 <= i < Item(s, section, any).len ==> !IsEol(s[i])
  {
    var n := Item(s, section, any).len;
    forall i | 0 < i < n
      ensures !IsEol(s[i])
    {
      assert s[i] == s[1..][i - 1];
      if s[0] == ':' && |s| > 1 && s[1] == '/' {
        if i >= 2 {
          assert s[i] == s[2..][i - 2];
        }
      }
    }
  }

  /** The inner loop stops at the first line break. */
  lemma {:induction false} ScanLineStops(s: string, section: string, any: bool)
    ensures forall i :: 0 <= i < ScanLine(s, section, any).used ==> !IsEol(s[i])
    decreases |s|
  {
    if s == [] || IsEol(s[0]) || s[0] == '#' {
    } else {
      var p := Item(s, section, any);
      ItemStops(s, section, any);
      ScanLineStops(s[p.len..], p.section, p.any);
      forall i | p.len <= i < ScanLine(s, section, any).used
        ensures !IsEol(s[i])
      {
        assert s[i] == s[p.len..][i - p.len];
      }
    }
  }

  /** Whatever one pass writes, and the section it keeps, are free of line breaks. */
  lemma ItemNoEol(s: string, section: string, any: bool)
    requires s != [] && NoEol(section)
    ensures NoEol(Item(s, section, any).text) && NoEol(Item(s, section, any).section)
  {
    if s[0] == ':' && |s| > 1 && s[1] == '/' {
      var n := HeaderLen(s);
      var m := n - 2;
      assert m == Span(s[2..], IsNameChar);
      assert NoEol(s[2..n]) by {
        forall i | 0 <= i < m
          ensures !IsEol(s[2..n][i])
        {
          assert s[2..n][i] == s[2..][i];
        }
      }
      var name := Capped(s[2..n]);
      assert NoEol(name) by {
        forall i | 0 <= i < |name|
          ensures !IsEol(name[i])
        {
          assert name[i] == s[2..n][i];
        }
      }
      NoEolConcat(Sep(any) + ":/", name);
    } else if s[0] == '"' {
      var n := QuotedLen(s);
      var m := Span(s[1..], IsQuoteBody);
      assert NoEol(s[..n]) by {
        forall i | 0 <= i < n
          ensures !IsEol(s[..n][i])
        {
          if 1 <= i <= m && i < |s| && i - 1 < m {
            assert s[i] == s[1..][i - 1];
          }
        }
      }
      NoEolConcat(Sep(any), s[..n]);
    } else if IsTokenChar(s[0]) {
      var n := Span(s, IsTokenChar);
      assert NoEol(s[..n]) by {
        forall i | 0 <= i < n
          ensures !IsEol(s[..n][i])
        {
          assert IsTokenChar(s[i]);
        }
      }
      var pre := Prefix(section, any);
      assert NoEol(pre) by {
        var c := CStr(section);
        forall i | 0 <= i < |pre|
          ensures !IsEol(pre[i])
        {
          if i < |c| {
            assert pre[i] == c[i] == section[i];
          }
        }
      }
      NoEolConcat(Sep(any), pre);
      NoEolConcat(Sep(any) + pre, s[..n]);
    }
  }

  /** A scanned line and the section after it hold no line break. */
  lemma {:induction false} ScanLineNoEol(s: string, section: string, any: bool)
    requires NoEol(section)
    ensures NoEol(ScanLine(s, section, any).out) && NoEol(ScanLine(s, section, any).section)
    decreases |s|
  {
    if s == [] || IsEol(s[0]) || s[0] == '#' {
    } else {
      var p := Item(s, section, any);
      ItemNoEol(s, section, any);
      ScanLineNoEol(s[p.len..], p.section, p.any);
      NoEolConcat(p.text, ScanLine(s[p.len..], p.section, p.any).out);
    }
  }

  /** Lines as the normaliser keeps them: non-empty and without a line break. */
  predicate LinesOk(lines: seq<string>) {
    forall i :: 0 <= i < |lines| ==> lines[i] != [] && NoEol(lines[i])
  }

  /** Every line the normaliser keeps is non-empty and has no line break. */
  lemma {:induction false} RunLines(s: string, section: string)
    requires NoEol(section)
    ensures LinesOk(Run(s, section))
    decreases |s|
  {
    var t := DropWhile(s, IsSpace);
    if t != [] {
      var l := ScanLine(t, section, false);
      var next := DropWhile(t[l.used..], IsEol);
      RunUnfold(s, section, t, l, next);
      ScanLineNoEol(t, section, false);
      RunLines(next, l.section);
      KeptLines(l.out, Run(next, l.section));
    }
  }

  /** A kept line in front of good lines gives good lines. */
  lemma KeptLines(out: string, rest: seq<string>)
    requires NoEol(out) && LinesOk(rest)
    ensures LinesOk(Kept(out) + rest)
  {
    if out == [] {
      assert Kept(out) + rest == rest;
    } else {
      forall i | 0 <= i < |rest| + 1
        ensures ([out] + rest)[i] != [] && NoEol(([out] + rest)[i])
      {
        if i > 0 {
          assert ([out] + rest)[i] == rest[i - 1];
        }
      }
    }
  }

  /** Lines without breaks, each closed by '\n': no '\r', a final '\n', and no empty line. */
  lemma {:induction false} UnlinesShape(lines: seq<string>)
    requires LinesOk(lines)
    ensures '\r' !in Unlines(lines)
    ensures Unlines(lines) == [] || Unlines(lines)[|Unlines(lines)| - 1] == '\n'
    ensures Unlines(lines) == [] || Unlines(lines)[0] != '\n'
    ensures forall i :: 0 < i < |Unlines(lines)| && Unlines(lines)[i] == '\n' ==> Unlines(lines)[i - 1] != '\n'
  {
    if lines != [] {
      var rest := Unlines(lines[1..]);
      assert LinesOk(lines[1..]) by {
        forall i | 0 <= i < |lines| - 1
          ensures lines[1..][i] == lines[i + 1]
        {
        }
      }
      UnlinesShape(lines[1..]);
      var u := Unlines(lines);
      var head := lines[0] + "\n";
      assert u == head + rest;
      forall i | 0 <= i < |u|
        ensures u[i] != '\r'
        ensures 0 < i && u[i] == '\n' ==> u[i - 1] != '\n'
      {
        if i < |head| {
          assert u[i] == head[i];
          if i < |lines[0]| {
            assert u[i] == lines[0][i];
          }
          if 0 < i {
            assert u[i - 1] == lines[0][i - 1];
          }
        } else {
          assert u[i] == rest[i - |head|];
          if i > |head| {
            assert u[i - 1] == rest[i - 1 - |head|];
          }
        }
      }
    }
  }

  /**
   The normalised buffer is a sequence of non-empty lines, each ending in
   '\n', with no '\r' anywhere.
   */
  lemma NormaliseShape(file: string)
    ensures '\r' !in Normalise(file)
    ensures Normalise(file) == [] || Normalise(file)[|Normalise(file)| - 1] == '\n'
    ensures Normalise(file) == [] || Normalise(file)[0] != '\n'
    ensures forall i :: 0 < i < |Normalise(file)| && Normalise(file)[i] == '\n' ==> Normalise(file)[i - 1] != '\n'
  {
    RunLines(file, []);
    UnlinesShape(Run(file, []));
  }

  /** A slice of NUL-free text is NUL-free. */
  lemma SliceNoNul(s: string, i: nat, j: nat)
    requires '\0' !in s && i <= j <= |s|
    ensures '\0' !in s[i..j]
  {
    assert forall k :: 0 <= k < j - i ==> s[i..j][k] == s[i + k];
  }

  /** One pass of the inner loop writes no NUL when the line and the section hold none. */
  lemma ItemNoNul(s: string, section: string, any: bool)
    requires s != [] && '\0' !in s && '\0' !in section
    ensures '\0' !in Item(s, section, any).text && '\0' !in Item(s, section, any).section
  {
    if s[0] == ':' && |s| > 1 && s[1] == '/' {
      var n := HeaderLen(s);
      SliceNoNul(s, 2, n);
      var name := Capped(s[2..n]);
      SliceNoNul(s[2..n], 0, |name|);
      assert '\0' !in Sep(any) + ":/" + name;
    } else if s[0] == '"' {
      SliceNoNul(s, 0, QuotedLen(s));
    } else if IsTokenChar(s[0]) {
      SliceNoNul(s, 0, Span(s, IsTokenChar));
      assert '\0' !in Prefix(section, any);
    }
  }

  /** The inner loop writes no NUL, and keeps none in the section, when its input holds none. */
  lemma {:induction false} ScanLineNoNul(s: string, section: string, any: bool)
    requires '\0' !in s && '\0' !in section
    ensures '\0' !in ScanLine(s, section, any).out && '\0' !in ScanLine(s, section, any).section
    decreases |s|
  {
    if s == [] || IsEol(s[0]) || s[0] == '#' {
    } else {
      var p := Item(s, section, any);
      ItemNoNul(s, section, any);
      SliceNoNul(s, p.len, |s|);
      ScanLineNoNul(s[p.len..], p.section, p.any);
    }
  }

  predicate LinesNoNul(lines: seq<string>) {
    forall i :: 0 <= i < |lines| ==> '\0' !in lines[i]
  }

  lemma DropNoNul(s: string, p: char -> bool)
    requires '\0' !in s
    ensures '\0' !in DropWhile(s, p)
  {
    SliceNoNul(s, Span(s, p), |s|);
  }

  lemma KeptNoNul(out: string, rest: seq<string>)
    requires '\0' !in out && LinesNoNul(rest)
    ensures LinesNoNul(Kept(out) + rest)
  {
    if out != [] {
      assert forall i :: 0 < i < |rest| + 1 ==> ([out] + rest)[i] == rest[i - 1];
    }
  }

  /** Every line the outer loop keeps is NUL-free when the input is. */
  lemma {:induction false} RunNoNul(s: string, section: string)
    requires '\0' !in s && '\0' !in section
    ensures LinesNoNul(Run(s, section))
    decreases |s|
  {
    var t := DropWhile(s, IsSpace);
    if t != [] {
      var l := ScanLine(t, section, false);
      var next := DropWhile(t[l.used..], IsEol);
      RunUnfold(s, section, t, l, next);
      assert '\0' !in t by {
        DropNoNul(s, IsSpace);
      }
      assert '\0' !in l.out && '\0' !in l.section by {
        ScanLineNoNul(t, section, false);
      }
      assert '\0' !in next by {
        SliceNoNul(t, l.used, |t|);
        DropNoNul(t[l.used..], IsEol);
      }
      RunNoNul(next, l.section);
      KeptNoNul(l.out, Run(next, l.section));
    }
  }

  lemma {:induction false} UnlinesNoNul(lines: seq<string>)
    requires LinesNoNul(lines)
    ensures '\0' !in Unlines(lines)
  {
    if lines != [] {
      assert forall i :: 0 <= i < |lines| - 1 ==> lines[1..][i] == lines[i + 1];
      UnlinesNoNul(lines[1..]);
    }
  }

  /**
   A file without NUL bytes loads into a buffer that C string functions
   see whole, and whose last line is closed by '\n': the shape the
   buffer operations of the accessors rely on.
   */
  lemma NormaliseTerminated(file: string)
    requires '\0' !in file
    ensures '\0' !in Normalise(file)
    ensures CStr(Normalise(file)) == Normalise(file)
    ensures Normalise(file) == [] || IsEol(Normalise(file)[|Normalise(file)| - 1])
  {
    RunNoNul(file, []);
    UnlinesNoNul(Run(file, []));
    CStrOfCString(Normalise(file));
    NormaliseShape(file);
  }

  // ---------------------------------------------------------------------
  // Tokens

  /** A bare token: a non-empty run of token characters. */
  predicate BareToken(t: string) {
    t != [] && forall i :: 0 <= i < |t| ==> IsTokenChar(t[i])
  }

  /** A closed quoted token: quotes around characters that are neither quotes nor line breaks. */
  predicate QuotedToken(t: string) {
    |t| >= 2 && t[0] == '"' && t[|t| - 1] == '"' && forall i :: 1 <= i < |t| - 1 ==> IsQuoteBody(t[i])
  }

  predicate Token(t: string) {
    BareToken(t) || QuotedToken(t)
  }

  predicate Tokens(toks: seq<string>) {
    forall i :: 0 <= i < |toks| ==> Token(toks[i])
  }

  /** Characters the normaliser drops: not a line break, '#', ':', a quote or a token character. */
  predicate Dropped(c: char) {
    !IsEol(c) && c != '#' && c != ':' && c != '"' && !IsTokenChar(c)
  }

  predicate AllDropped(s: string) {
    forall i :: 0 <= i < |s| ==> Dropped(s[i])
  }

  /** Tokens as the normaliser writes them after a first token: each preceded by one blank. */
  function SpaceEach(toks: seq<string>): string
  {
    if toks == [] then [] else " " + toks[0] + SpaceEach(toks[1..])
  }

  /** Tokens each preceded by its own run of dropped characters. */
  function Separated(seps: seq<string>, toks: seq<string>): string
    requires |seps| == |toks|
  {
    if toks == [] then [] else seps[0] + toks[0] + Separated(seps[1..], toks[1..])
  }

  /** The scan of a line after `text` was written for its first `k` characters. */
  function After(text: string, k: nat, r: LineScan): LineScan
  {
    LineScan(text + r.out, r.section, k + r.used)
  }

  /** A dropped character is skipped without writing anything. */
  lemma DropOne(x: string, section: string, any: bool)
    requires x != [] && Dropped(x[0])
    ensures ScanLine(x, section, any) == After([], 1, ScanLine(x[1..], section, any))
  {
  }

  /** A run of dropped characters is skipped without writing anything. */
  lemma {:induction false} DropJunk(junk: string, x: string, section: string, any: bool)
    requires AllDropped(junk)
    ensures ScanLine(junk + x, section, any) == After([], |junk|, ScanLine(x, section, any))
    decreases |junk|
  {
    var r := ScanLine(x, section, any);
    if junk == [] {
      assert junk + x == x;
      assert [] + r.out == r.out;
    } else {
      var s := junk + x;
      assert s[1..] == junk[1..] + x;
      DropOne(s, section, any);
      DropJunk(junk[1..], x, section, any);
      assert [] + ([] + r.out) == [] + r.out;
    }
  }

  /** A bare token is read whole and written, with the section prefix when it comes first. */
  lemma BareItem(tok: string, rest: string, section: string, any: bool)
    requires BareToken(tok) && (rest == [] || !IsTokenChar(rest[0]))
    ensures Item(tok + rest, section, any) == Piece(|tok|, Sep(any) + Prefix(section, any) + tok, section, true)
  {
    var s := tok + rest;
    assert s[0] == tok[0];
    SpanAppendBlocked(tok, rest, IsTokenChar);
    assert s[..|tok|] == tok;
  }

  /** A closed quoted token is read whole and written as it is. */
  lemma QuotedItem(tok: string, rest: string, section: string, any: bool)
    requires QuotedToken(tok)
    ensures Item(tok + rest, section, any) == Piece(|tok|, Sep(any) + tok, section, true)
  {
    var s := tok + rest;
    assert s[0] == '"';
    var body := tok[1..|tok| - 1];
    assert s[1..] == body + ("\"" + rest);
    SpanAppendBlocked(body, "\"" + rest, IsQuoteBody);
    assert s[|tok| - 1] == '"';
    assert s[..|tok|] == tok;
  }

  /** One separator and token, then the rest of the line. */
  lemma TokenStep(sep: string, tok: string, y: string, section: string)
    requires sep != [] && AllDropped(sep) && Token(tok)
    requires y == [] || !IsTokenChar(y[0])
    ensures ScanLine(sep + (tok + y), section, true) == After(" " + tok, |sep| + |tok|, ScanLine(y, section, true))
  {
    var x := tok + y;
    assert ScanLine(sep + x, section, true) == After([], |sep|, ScanLine(x, section, true)) by {
      DropJunk(sep, x, section, true);
    }
    assert ScanLine(x, section, true) == After(" " + tok, |tok|, ScanLine(y, section, true)) by {
      TokenFirst(tok, y, section);
    }
  }

  /** A token at the current position, after an earlier one, is written with one blank before it. */
  lemma TokenFirst(tok: string, y: string, section: string)
    requires Token(tok)
    requires y == [] || !IsTokenChar(y[0])
    ensures ScanLine(tok + y, section, true) == After(" " + tok, |tok|, ScanLine(y, section, true))
  {
    var x := tok + y;
    assert x != [] && !IsEol(x[0]) && x[0] != '#';
    assert Item(x, section, true) == Piece(|tok|, " " + tok, section, true) by {
      if BareToken(tok) {
        BareItem(tok, y, section, true);
      } else {
        QuotedItem(tok, y, section, true);
      }
    }
    assert x[|tok|..] == y;
  }

  /**
   After the first token, tokens separated by any runs of dropped characters
   come out joined by exactly one blank each.
   */
  lemma {:induction false} ValueScan(seps: seq<string>, toks: seq<string>, tail: string, section: string)
    requires |seps| == |toks| && Tokens(toks)
    requires forall i :: 0 <= i < |seps| ==> seps[i] != [] && AllDropped(seps[i])
    requires AtLineEnd(tail)
    ensures ScanLine(Separated(seps, toks) + tail, section, true)
         == LineScan(SpaceEach(toks), section, |Separated(seps, toks)|)
    decreases |toks|
  {
    if toks != [] {
      var y := Separated(seps[1..], toks[1..]) + tail;
      assert Separated(seps, toks) + tail == seps[0] + (toks[0] + y);
      assert y == [] || !IsTokenChar(y[0]) by {
        if toks[1..] != [] {
          assert y[0] == seps[1][0];
        }
      }
      TokenStep(seps[0], toks[0], y, section);
      assert Tokens(toks[1..]) by {
        forall i | 0 <= i < |toks| - 1
          ensures toks[1..][i] == toks[i + 1]
        {
        }
      }
      assert forall i :: 0 <= i < |seps| - 1 ==> seps[1..][i] == seps[i + 1];
      ValueScan(seps[1..], toks[1..], tail, section);
    }
  }

  /** n separators of one blank each. */
  function Blanks(n: nat): (r: seq<string>)
    ensures |r| == n
  {
    if n == 0 then [] else [" "] + Blanks(n - 1)
  }

  /** Single blanks between tokens are one case of runs of dropped characters. */
  lemma {:induction false} JoinAsSeparated(toks: seq<string>)
    requires toks != []
    ensures " " + JoinSpaced(toks) == Separated(Blanks(|toks|), toks)
    decreases |toks|
  {
    var seps := Blanks(|toks|);
    assert seps[0] == " " && seps[1..] == Blanks(|toks| - 1);
    if |toks| > 1 {
      JoinSplit(toks, []);
      JoinAsSeparated(toks[1..]);
      assert JoinSpaced(toks) == toks[0] + (" " + JoinSpaced(toks[1..]));
    }
  }

  lemma BlanksDropped(n: nat)
    ensures forall i :: 0 <= i < n ==> Blanks(n)[i] != [] && AllDropped(Blanks(n)[i])
  {
    if n > 0 {
      BlanksDropped(n - 1);
      assert forall i :: 1 <= i < n ==> Blanks(n)[i] == Blanks(n - 1)[i - 1];
    }
  }

  /** The value part of a written line: a blank, then the tokens joined by blanks. */
  lemma ValueLine(toks: seq<string>, tail: string, section: string)
    requires Tokens(toks) && AtLineEnd(tail)
    ensures ScanLine(" " + JoinSpaced(toks) + tail, section, true)
         == LineScan(SpaceEach(toks), section, 1 + |JoinSpaced(toks)|)
  {
    if toks == [] {
      DropJunk(" ", tail, section, true);
      assert " " + JoinSpaced(toks) + tail == " " + tail;
    } else {
      JoinAsSeparated(toks);
      BlanksDropped(|toks|);
      ValueScan(Blanks(|toks|), toks, tail, section);
    }
  }

  /**
   A line "key value" as vars_save writes it: the key comes out with the
   section prefix, the value tokens joined by single blanks.
   */
  lemma KeyLine(key: string, toks: seq<string>, tail: string, line: string, section: string)
    requires BareToken(key) && Tokens(toks) && AtLineEnd(tail)
    requires line == key + " " + JoinSpaced(toks) + tail
    ensures ScanLine(line, section, false)
         == LineScan(Prefix(section, false) + key + SpaceEach(toks), section, |key| + 1 + |JoinSpaced(toks)|)
  {
    var rest := " " + JoinSpaced(toks) + tail;
    assert line == key + rest;
    ValueLine(toks, tail, section);
    KeyFirst(key, rest, line, section);
  }

  /** The first bare token of a line is written with the section prefix. */
  lemma KeyFirst(key: string, rest: string, s: string, section: string)
    requires BareToken(key) && (rest == [] || !IsTokenChar(rest[0]))
    requires s == key + rest
    ensures ScanLine(s, section, false) == After(Prefix(section, false) + key, |key|, ScanLine(rest, section, true))
  {
    assert s[0] == key[0] && s[|key|..] == rest;
    var p := Item(s, section, false);
    assert p == Piece(|key|, Prefix(section, false) + key, section, true) by {
      BareItem(key, rest, section, false);
    }
    ScanStep(s, section, false, p);
  }

  /** One pass of the inner loop, named by its parts. */
  lemma ScanStep(s: string, section: string, any: bool, p: Piece)
    requires s != [] && !IsEol(s[0]) && s[0] != '#'
    requires p == Item(s, section, any)
    ensures ScanLine(s, section, any) == After(p.text, p.len, ScanLine(s[p.len..], p.section, p.any))
  {
  }

  /** A ":/name" line makes the (capped) name the section and is written as ":/name". */
  lemma HeaderLine(name: string, tail: string, section: string)
    requires forall i :: 0 <= i < |name| ==> IsNameChar(name[i])
    requires AtLineEnd(tail)
    ensures ScanLine(":/" + name + tail, section, false) == LineScan(":/" + Capped(name), Capped(name), 2 + |name|)
  {
    var s := ":/" + name + tail;
    assert s[2..] == name + tail;
    SpanAppendBlocked(name, tail, IsNameChar);
    assert HeaderLen(s) == 2 + |name|;
    assert s[2..2 + |name|] == name;
    assert s[2 + |name|..] == tail;
  }

  /** A quote left open runs to the line end and is still written; the line goes on. */
  lemma QuotedOpen(body: string, tail: string, section: string, any: bool)
    requires forall i :: 0 <= i < |body| ==> IsQuoteBody(body[i])
    requires AtLineEnd(tail)
    ensures ScanLine("\"" + body + tail, section, any) == LineScan(Sep(any) + "\"" + body, section, 1 + |body|)
  {
    var s := "\"" + body + tail;
    assert s[1..] == body + tail;
    SpanAppendBlocked(body, tail, IsQuoteBody);
    assert QuotedLen(s) == 1 + |body|;
    assert s[..1 + |body|] == "\"" + body;
    assert s[1 + |body|..] == tail;
  }

  /** '#' outside a quoted token discards the rest of the line. */
  lemma CommentLine(c: string, tail: string, section: string, any: bool)
    requires NoEol(c) && AtLineEnd(tail)
    ensures ScanLine("#" + c + tail, section, any) == LineScan([], section, 1 + |c|)
  {
    var s := "#" + c + tail;
    assert s == ("#" + c) + tail;
    assert forall i :: 0 <= i < |"#" + c| ==> NotEol(("#" + c)[i]);
    SpanAppendBlocked("#" + c, tail, NotEol);
  }

  // ---------------------------------------------------------------------
  // Whole lines

  /** Line breaks are blanks to the outer loop, so skipping them first changes nothing. */
  lemma SkipEolThenSpace(s: string)
    ensures DropWhile(DropWhile(s, IsEol), IsSpace) == DropWhile(s, IsSpace)
  {
    var n := Span(s, IsEol);
    SpanSkip(s, n, IsSpace);
    var m := Span(s[n..], IsSpace);
    assert s[n..][m..] == s[n + m..];
  }

  /** Leading blanks and line breaks never reach the inner loop. */
  lemma RunSkip(x: string, rest: string, section: string)
    requires forall i :: 0 <= i < |x| ==> IsSpace(x[i])
    ensures Run(x + rest, section) == Run(rest, section)
  {
    SpanAppendAll(x, rest, IsSpace);
    assert (x + rest)[|x|..] == rest;
    assert DropWhile(x + rest, IsSpace) == DropWhile(rest, IsSpace);
    var t := DropWhile(rest, IsSpace);
    if t != [] {
      assert DropWhile(t, IsSpace) == t by {
        SpanUnique(t, IsSpace, 0);
      }
    }
  }

  /** One round of the outer loop, named by its parts. */
  lemma RunUnfold(s: string, section: string, t: string, l: LineScan, next: string)
    requires t == DropWhile(s, IsSpace) && t != []
    requires l == ScanLine(t, section, false) && next == DropWhile(t[l.used..], IsEol)
    ensures Run(s, section) == Kept(l.out) + Run(next, l.section)
  {
  }

  /** One round of the outer loop on text that starts with a printable character. */
  lemma RunStep(s: string, section: string, l: LineScan, next: string)
    requires s != [] && !IsSpace(s[0])
    requires l == ScanLine(s, section, false) && next == DropWhile(s[l.used..], IsEol)
    ensures Run(s, section) == Kept(l.out) + Run(next, l.section)
  {
    NoLeadingSpace(s);
    RunUnfold(s, section, s, l, next);
  }

  lemma NoLeadingSpace(s: string)
    requires s != [] && !IsSpace(s[0])
    ensures DropWhile(s, IsSpace) == s
  {
    SpanUnique(s, IsSpace, 0);
  }

  /** One input line that starts with a printable character, then '\n', then the rest of the file. */
  lemma RunLine(line: string, rest: string, section: string)
    requires line != [] && !IsSpace(line[0]) && NoEol(line)
    ensures ScanLine(line + ("\n" + rest), section, false).used == |line|
    ensures Run(line + ("\n" + rest), section)
         == Kept(ScanLine(line + ("\n" + rest), section, false).out)
          + Run(rest, ScanLine(line + ("\n" + rest), section, false).section)
  {
    var s := line + ("\n" + rest);
    var l := ScanLine(s, section, false);
    assert l.used == |line| by {
      ScanLineStops(s, section, false);
      assert s[|line|] == '\n';
    }
    assert s[l.used..] == "\n" + rest;
    assert Run(s, section) == Kept(l.out) + Run(DropWhile("\n" + rest, IsEol), l.section) by {
      assert s[0] == line[0];
      RunStep(s, section, l, DropWhile("\n" + rest, IsEol));
    }
    assert Run(DropWhile("\n" + rest, IsEol), l.section) == Run(rest, l.section) by {
      SkipEolThenSpace("\n" + rest);
      RunSkip("\n", rest, l.section);
      RunSameStart(DropWhile("\n" + rest, IsEol), "\n" + rest, l.section);
    }
  }

  /** The outer loop only looks at what is left after the leading blanks. */
  lemma RunSameStart(a: string, b: string, section: string)
    requires DropWhile(a, IsSpace) == DropWhile(b, IsSpace)
    ensures Run(a, section) == Run(b, section)
  {
  }
}

=== FILE: saveload.dfy ===
/**
 Saving and loading again. vars_save writes one "key value" line per entry
 under ":/section" headers; the loader turns that file back into parsed_buf,
 and vars_save's own parsing loop reads the same entries out of it.
 */
module SaveLoad {
  import opened CharClass
  import opened Scan
  import opened Wrappers
  import opened Normaliser
  import opened Writer
  import Buffer

  /**
   A section name that survives a save and a load: non-empty, short enough
   for current_subfolder, made of header characters, without '/' (the saver
   splits keys at the first '/') and not starting with ':' (a key line
   "::/..." would read as a header).
   */
  predicate SectionName(s: string) {
    s != [] && |s| <= SectionCap && s[0] != ':' &&
    forall i :: 0 <= i < |s| ==> IsNameChar(s[i]) && s[i] != '/' && s[i] != '\0'
  }

  /** A value the loader writes back unchanged: tokens joined by single blanks. */
  ghost predicate TokenValue(v: string) {
    exists toks :: Tokens(toks) && v == JoinSpaced(toks)
  }

  ghost predicate WellFormed(e: Entry) {
    BareToken(e.key) && TokenValue(e.value) && '\0' !in e.value &&
    (e.section.Some? ==> SectionName(e.section.value))
  }

  ghost predicate AllWellFormed(es: seq<Entry>) {
    forall i :: 0 <= i < |es| ==> WellFormed(es[i])
  }

  /** No entry without a section comes after one with a section. */
  predicate GlobalsFirst(es: seq<Entry>) {
    forall i, j :: 0 <= i < j < |es| && es[i].section.Some? ==> es[j].section.Some?
  }

  /** The key as it appears in parsed_buf: "section/key" inside a section. */
  function FullKey(e: Entry): string {
    (if e.section.Some? then e.section.value + "/" else []) + e.key
  }

  /** The value part of a line in parsed_buf: nothing, or a blank and the tokens. */
  function Spaced(v: string): string {
    if v == [] then [] else " " + v
  }

  /** The line of parsed_buf that holds an entry, without its '\n'. */
  function LoadedLine(e: Entry): string {
    FullKey(e) + Spaced(e.value)
  }

  /** The header line the loader keeps when the section changes. */
  function HeaderLines(e: Entry, current: Option<string>): seq<string> {
    if e.section.Some? && e.section != current then [":/" + e.section.value] else []
  }

  /** The lines of parsed_buf after loading what RenderFrom(es, current, _) wrote. */
  function LoadedLines(es: seq<Entry>, current: Option<string>): seq<string> {
    if es == [] then []
    else HeaderLines(es[0], current) + ([LoadedLine(es[0])] + LoadedLines(es[1..], es[0].section))
  }

  /** The normaliser's current_subfolder for the writer's current_section. */
  function SectionOf(current: Option<string>): string {
    if current.Some? then current.value else []
  }

  // ---------------------------------------------------------------
  // Token values
  // ---------------------------------------------------------------

  lemma TokenNoEol(t: string)
    requires Token(t)
    ensures NoEol(t) && t != [] && !IsWhiteSpace(t[0])
  {
    if QuotedToken(t) {
      assert forall i :: 0 <= i < |t| ==> t[i] == '"' || IsQuoteBody(t[i]);
    }
  }

  lemma {:induction false} JoinedTokens(toks: seq<string>)
    requires Tokens(toks)
    ensures NoEol(JoinSpaced(toks))
    ensures toks != [] ==> JoinSpaced(toks) != [] && !IsWhiteSpace(JoinSpaced(toks)[0])
    ensures SpaceEach(toks) == Spaced(JoinSpaced(toks))
    decreases |toks|
  {
    if toks != [] {
      TokenNoEol(toks[0]);
      if |toks| == 1 {
        assert SpaceEach(toks) == " " + toks[0] + SpaceEach([]);
      } else {
        var more := toks[1..];
        assert Tokens(more) by {
          assert forall i :: 0 <= i < |more| ==> more[i] == toks[i + 1];
        }
        JoinedTokens(more);
        var j := JoinSpaced(more);
        assert JoinSpaced(toks) == toks[0] + " " + j;
        NoEolConcat(toks[0], " ");
        NoEolConcat(toks[0] + " ", j);
        assert (toks[0] + " " + j)[0] == toks[0][0];
        calc {
          SpaceEach(toks);
          " " + toks[0] + SpaceEach(more);
          " " + toks[0] + (" " + j);
          { AppendAssoc(" " + toks[0], " ", j); }
          " " + toks[0] + " " + j;
          { Regroup(" ", toks[0], " ", j); }
          " " + (toks[0] + (" " + j));
          { AppendAssoc(toks[0], " ", j); }
          Spaced(JoinSpaced(toks));
        }
      }
    }
  }

  lemma ValueParts(v: string) returns (toks: seq<string>)
    requires TokenValue(v)
    ensures Tokens(toks) && v == JoinSpaced(toks)
    ensures NoEol(v) && (v == [] || !IsWhiteSpace(v[0]))
    ensures SpaceEach(toks) == Spaced(v)
  {
    toks :| Tokens(toks) && v == JoinSpaced(toks);
    JoinedTokens(toks);
  }

  // ---------------------------------------------------------------
  // Loading what vars_save wrote
  // ---------------------------------------------------------------

  lemma NoLeadingBlank(s: string)
    requires s != []
    ensures DropWhile(s, IsSpace) == s || IsSpace(s[0])
  {
    if !IsSpace(s[0]) {
      SpanUnique(s, IsSpace, 0);
    }
  }

  /** A line "key value" of the saved file loads as the entry's line of parsed_buf. */
  lemma EntryRun(e: Entry, rest: string, text: string, section: string)
    requires WellFormed(e) && section == SectionOf(e.section)
    requires text == EntryText(e) + ("\n" + rest)
    ensures Run(text, section) == [LoadedLine(e)] + Run(rest, section)
  {
    var toks := ValueParts(e.value);
    var line := EntryText(e);
    assert NoEol(line) by {
      TokenNoEol(e.key);
      NoEolConcat(e.key, " ");
      NoEolConcat(e.key + " ", e.value);
    }
    assert line[0] == e.key[0];
    RunLine(line, rest, section);
    KeyLine(e.key, toks, "\n" + rest, text, section);
    if e.section.Some? {
      CStrOfCString(section);
    }
  }

  /** A header line of the saved file sets the loader's section and is kept. */
  lemma HeaderRun(name: string, rest: string, text: string, section: string)
    requires SectionName(name)
    requires text == ":/" + name + "\n" + rest
    ensures Run(text, section) == [":/" + name] + Run(rest, name)
  {
    var line := ":/" + name;
    AppendAssoc(line, "\n", rest);
    assert NoEol(line) by {
      assert forall i :: 2 <= i < |line| ==> line[i] == name[i - 2];
    }
    RunLine(line, rest, section);
    HeaderLine(name, "\n" + rest, section);
  }

  /** The blank line written before a new section is skipped. */
  lemma GapRun(first: bool, rest: string, text: string, section: string)
    requires text == Gap(first) + rest
    ensures Run(text, section) == Run(rest, section)
  {
    RunSkip(Gap(first), rest, section);
  }

  /** What one entry adds to the file loads as its header line (if any) and its own line. */
  lemma StepRun(e: Entry, current: Option<string>, first: bool, body: string, text: string)
    requires WellFormed(e)
    requires current.Some? ==> e.section.Some?
    requires e.section.Some? && e.section != current ==> SectionName(e.section.value)
    requires body == EntryText(e) + ("\n" + text)
    ensures Run(Header(e, current, first) + body, SectionOf(current))
         == HeaderLines(e, current) + ([LoadedLine(e)] + Run(text, SectionOf(e.section)))
  {
    var h := Header(e, current, first);
    if e.section.Some? && e.section != current {
      var name := e.section.value;
      var hl := ":/" + name + "\n";
      assert h == Gap(first) + hl;
      AppendAssoc(Gap(first), hl, body);
      GapRun(first, hl + body, h + body, SectionOf(current));
      HeaderRun(name, body, hl + body, SectionOf(current));
      EntryRun(e, text, body, name);
    } else {
      assert h == [];
      assert h + body == body;
      EntryRun(e, text, body, SectionOf(current));
    }
  }

  /** Loading the saved file gives the header lines and entry lines, in order. */
  lemma {:induction false} RenderRun(es: seq<Entry>, current: Option<string>, first: bool)
    requires AllWellFormed(es) && GlobalsFirst(es)
    requires current.Some? ==> forall i :: 0 <= i < |es| ==> es[i].section.Some?
    ensures Run(RenderFrom(es, current, first), SectionOf(current)) == LoadedLines(es, current)
    decreases |es|
  {
    if es != [] {
      var e := es[0];
      var more := es[1..];
      assert WellFormed(e);
      assert AllWellFormed(more) && GlobalsFirst(more) by {
        assert forall i :: 0 <= i < |more| ==> more[i] == es[i + 1];
      }
      assert e.section.Some? ==> forall i :: 0 <= i < |more| ==> more[i].section.Some? by {
        assert forall i :: 0 <= i < |more| ==> more[i] == es[i + 1];
      }
      var text := RenderFrom(more, e.section, false);
      RenderRun(more, e.section, false);
      StepRun(e, current, first, EntryText(e) + ("\n" + text), text);
    }
  }

  // ---------------------------------------------------------------
  // vars_save reading parsed_buf
  // ---------------------------------------------------------------

  lemma UnlinesCons(line: string, lines: seq<string>, all: seq<string>)
    requires all == [line] + lines
    ensures Unlines(all) == line + ("\n" + Unlines(lines))
  {
    assert all[1..] == lines;
    AppendAssoc(line, "\n", Unlines(lines));
  }

  /** vars_save skips a header line. */
  lemma CollectHeader(name: string, rest: string, p: string)
    requires SectionName(name)
    requires p == ":/" + name + ("\n" + rest)
    ensures Collect(p) == Collect(rest)
  {
    var line := ":/" + name;
    assert forall i :: 2 <= i < |line| ==> line[i] == name[i - 2];
    SpanAppendBlocked(line, "\n" + rest, NotEol);
    assert p[|line| + 1..] == rest;
    CollectSkip(p, |line|);
  }

  /** One pass of vars_save's loop over a header line, in named parts. */
  lemma CollectSkip(p: string, n: nat)
    requires Buffer.IsHeaderAt(p) && n == Span(p, NotEol)
    ensures Collect(p) == Collect(if n < |p| then p[n + 1..] else [])
  {
  }

  /** A run of key characters ended by a blank or a line break. */
  lemma KeySpan(key: string, rest: string, p: string)
    requires p == key + rest
    requires forall i :: 0 <= i < |key| ==> IsNameChar(key[i])
    requires rest != [] && !IsNameChar(rest[0])
    ensures Span(p, IsNameChar) == |key| && p[..|key|] == key && p[|key|..] == rest
  {
    SpanAppendBlocked(key, rest, IsNameChar);
  }

  /** After the key: the blank is skipped and the value runs to the line break. */
  lemma ValueSpan(v: string, rest: string, s: string) returns (q: string)
    requires NoEol(v) && (v == [] || !IsWhiteSpace(v[0]))
    requires s == Spaced(v) + ("\n" + rest)
    ensures q == DropWhile(s, IsWhiteSpace) && q == v + ("\n" + rest)
    ensures Span(q, NotEol) == |v| && q[..|v|] == v && q[|v| + 1..] == rest && |v| < |q|
  {
    q := v + ("\n" + rest);
    ValueSkip(v, rest, s, q);
    ValueEnd(v, rest, q);
  }

  lemma ValueSkip(v: string, rest: string, s: string, q: string)
    requires v == [] || !IsWhiteSpace(v[0])
    requires s == Spaced(v) + ("\n" + rest) && q == v + ("\n" + rest)
    ensures DropWhile(s, IsWhiteSpace) == q
  {
    if v == [] {
      SpanUnique(s, IsWhiteSpace, 0);
    } else {
      AppendAssoc(" ", v, "\n" + rest);
      SpanAppendBlocked(" ", q, IsWhiteSpace);
    }
  }

  lemma ValueEnd(v: string, rest: string, q: string)
    requires NoEol(v) && q == v + ("\n" + rest)
    ensures Span(q, NotEol) == |v| && q[..|v|] == v && q[|v| + 1..] == rest && |v| < |q|
  {
    SpanAppendBlocked(v, "\n" + rest, NotEol);
  }

  /** Splitting "section/key" at the first '/' gives the entry back. */
  lemma SplitFullKey(e: Entry)
    requires WellFormed(e)
    ensures Split(FullKey(e), e.value) == e
  {
    var k := FullKey(e);
    assert forall i :: 0 <= i < |e.key| ==> IsTokenChar(e.key[i]);
    if e.section.Some? {
      var s := e.section.value;
      assert k == s + ("/" + e.key);
      SpanAppendBlocked(s, "/" + e.key, NotSlash);
      assert k[..|s|] == s && k[|s| + 1..] == e.key;
    } else {
      SpanUnique(k, NotSlash, |k|);
    }
  }

  /** vars_save reads an entry line back as the entry. */
  lemma CollectLine(e: Entry, rest: string, p: string)
    requires WellFormed(e)
    requires p == LoadedLine(e) + ("\n" + rest)
    ensures Collect(p) == [e] + Collect(rest)
  {
    var k := FullKey(e);
    var after := Spaced(e.value) + ("\n" + rest);
    assert p == k + after by {
      AppendAssoc(k, Spaced(e.value), "\n" + rest);
    }
    var toks := ValueParts(e.value);
    FullKeyChars(e);
    assert !Buffer.IsHeaderAt(p) by {
      assert p[0] == k[0];
    }
    assert !IsNameChar(after[0]);
    KeySpan(k, after, p);
    var q := ValueSpan(e.value, rest, after);
    CollectKeyLine(p, |k|, q, |e.value|, k, e.value, rest);
    SplitFullKey(e);
  }

  /** The key of an entry line is made of header characters and does not start with ':'. */
  lemma FullKeyChars(e: Entry)
    requires WellFormed(e)
    ensures FullKey(e) != [] && FullKey(e)[0] != ':'
    ensures forall i :: 0 <= i < |FullKey(e)| ==> IsNameChar(FullKey(e)[i])
  {
    var k := FullKey(e);
    assert forall i :: 0 <= i < |e.key| ==> IsTokenChar(e.key[i]);
    if e.section.Some? {
      var s := e.section.value;
      forall i | 0 <= i < |k| ensures IsNameChar(k[i]) {
        if i < |s| {
          assert k[i] == s[i];
        } else if i > |s| {
          assert k[i] == e.key[i - |s| - 1];
        }
      }
      assert k[0] == s[0];
    }
  }

  /** One pass of vars_save's loop over a key line, in named parts. */
  lemma CollectUnfold(p: string, k: nat, q: string, v: nat)
    requires p != [] && !Buffer.IsHeaderAt(p)
    requires k == Span(p, IsNameChar) && k > 0
    requires q == DropWhile(p[k..], IsWhiteSpace) && v == Span(q, NotEol)
    ensures Collect(p) == [Split(p[..k], q[..v])] + Collect(if v < |q| then q[v + 1..] else [])
  {
  }

  /** The same pass, with the key, the value and the rest of the buffer named. */
  lemma CollectKeyLine(p: string, k: nat, q: string, v: nat, key: string, value: string, next: string)
    requires p != [] && !Buffer.IsHeaderAt(p)
    requires k == Span(p, IsNameChar) && k > 0
    requires q == DropWhile(p[k..], IsWhiteSpace) && v == Span(q, NotEol)
    requires key == p[..k] && value == q[..v] && v < |q| && next == q[v + 1..]
    ensures Collect(p) == [Split(key, value)] + Collect(next)
  {
    CollectUnfold(p, k, q, v);
  }

  lemma LoadedLineNoNul(e: Entry)
    requires WellFormed(e)
    ensures '\0' !in LoadedLine(e)
  {
    assert forall i :: 0 <= i < |e.key| ==> IsTokenChar(e.key[i]);
  }

  /** vars_save reads the loaded lines back as the entries that were saved. */
  lemma {:induction false} CollectLoaded(es: seq<Entry>, current: Option<string>)
    requires AllWellFormed(es)
    ensures Collect(Unlines(LoadedLines(es, current))) == es
    decreases |es|
  {
    if es != [] {
      var e := es[0];
      var more := es[1..];
      WellFormedTail(es);
      var ls := LoadedLines(more, e.section);
      var tail := [LoadedLine(e)] + ls;
      var all := LoadedLines(es, current);
      assert Collect(Unlines(ls)) == more by {
        CollectLoaded(more, e.section);
      }
      assert Collect(Unlines(tail)) == [e] + more by {
        UnlinesCons(LoadedLine(e), ls, tail);
        CollectLine(e, Unlines(ls), Unlines(tail));
      }
      assert Collect(Unlines(all)) == Collect(Unlines(tail)) by {
        LoadedUnfold(es, current, tail);
        if HeaderLines(e, current) != [] {
          UnlinesCons(":/" + e.section.value, tail, all);
          CollectHeader(e.section.value, Unlines(tail), Unlines(all));
        }
      }
      HeadTail(es);
    }
  }

  /** The loaded lines hold no NUL, so C string functions see all of them. */
  lemma {:induction false} LoadedNoNul(es: seq<Entry>, current: Option<string>)
    requires AllWellFormed(es)
    ensures '\0' !in Unlines(LoadedLines(es, current))
    decreases |es|
  {
    if es != [] {
      var e := es[0];
      WellFormedTail(es);
      var ls := LoadedLines(es[1..], e.section);
      var tail := [LoadedLine(e)] + ls;
      var all := LoadedLines(es, current);
      assert '\0' !in Unlines(tail) by {
        LoadedNoNul(es[1..], e.section);
        LoadedLineNoNul(e);
        UnlinesCons(LoadedLine(e), ls, tail);
      }
      LoadedUnfold(es, current, tail);
      if HeaderLines(e, current) != [] {
        UnlinesCons(":/" + e.section.value, tail, all);
      }
    }
  }

  lemma HeadTail(es: seq<Entry>)
    requires es != []
    ensures [es[0]] + es[1..] == es
  {
  }

  lemma WellFormedTail(es: seq<Entry>)
    requires AllWellFormed(es) && es != []
    ensures WellFormed(es[0]) && AllWellFormed(es[1..])
  {
    assert forall i :: 0 <= i < |es| - 1 ==> es[1..][i] == es[i + 1];
  }

  /** The loaded lines of a list, in named parts. */
  lemma LoadedUnfold(es: seq<Entry>, current: Option<string>, tail: seq<string>)
    requires es != [] && tail == [LoadedLine(es[0])] + LoadedLines(es[1..], es[0].section)
    ensures LoadedLines(es, current) == HeaderLines(es[0], current) + tail
    ensures HeaderLines(es[0], current) == [] ==> LoadedLines(es, current) == tail
    ensures HeaderLines(es[0], current) != [] ==>
      LoadedLines(es, current) == [":/" + es[0].section.value] + tail
  {
  }

  // ---------------------------------------------------------------
  // Round trips
  // ---------------------------------------------------------------

  /**
   Loading a file vars_save wrote and cutting parsed_buf into entries again
   gives exactly the entries that were written.
   */
  lemma RenderThenCollect(es: seq<Entry>)
    requires AllWellFormed(es) && GlobalsFirst(es)
    ensures Collect(Normalise(Render(es))) == es
    ensures '\0' !in Normalise(Render(es))
  {
    RenderRun(es, None, true);
    CollectLoaded(es, None);
    LoadedNoNul(es, None);
  }

  lemma SortedGlobalsFirst(es: seq<Entry>)
    requires Sorted(es)
    ensures GlobalsFirst(es)
  {
    forall i, j | 0 <= i < j < |es| && es[i].section.Some?
      ensures es[j].section.Some?
    {
      assert EntryCompare(es[i], es[j]) <= 0;
    }
  }

  lemma SortedWellFormed(es: seq<Entry>, r: seq<Entry>)
    requires AllWellFormed(es) && multiset(r) == multiset(es)
    ensures AllWellFormed(r)
  {
    forall i | 0 <= i < |r| ensures WellFormed(r[i]) {
      assert r[i] in multiset(es);
      var j :| 0 <= j < |es| && es[j] == r[i];
    }
  }

  /**
   vars_save followed by a load: the entries read back are the entries of
   the buffer that was saved, in vars_entry_compare order.
   */
  lemma SaveThenLoad(buf: string)
    requires AllWellFormed(Collect(CStr(buf)))
    ensures Collect(Normalise(SaveText(buf))) == Sort(Collect(CStr(buf)))
  {
    var es := Sort(Collect(CStr(buf)));
    SortedWellFormed(Collect(CStr(buf)), es);
    SortedGlobalsFirst(es);
    RenderThenCollect(es);
  }

  /**
   The file vars_save writes for entries with the globals first, as sorting
   leaves them: the lines of the leading entries without a section, then
   every run of one section under its header.
   */
  lemma RenderGlobalsFirst(es: seq<Entry>)
    requires GlobalsFirst(es)
    ensures Sectioned(es[GlobalCount(es)..])
    ensures Render(es) == Lines(es[..GlobalCount(es)]) + Sections(Groups(es[GlobalCount(es)..]), GlobalCount(es) == 0)
  {
    var g := GlobalCount(es);
    var rest := es[g..];
    var globals := es[..g];
    SectionedAfterGlobals(es);
    var groups := Groups(rest);
    assert globals + Flatten(groups) == es by {
      assert Flatten(groups) == rest;
    }
    assert forall i :: 0 <= i < |globals| ==> globals[i].section.None? by {
      assert forall i :: 0 <= i < g ==> globals[i] == es[i];
    }
    assert (globals == []) == (g == 0);
    RenderLayout(globals, groups);
  }

  /** With the globals first, every entry after the leading globals has a section. */
  lemma SectionedAfterGlobals(es: seq<Entry>)
    requires GlobalsFirst(es)
    ensures Sectioned(es[GlobalCount(es)..])
  {
    var g := GlobalCount(es);
    var rest := es[g..];
    forall i | 0 <= i < |rest|
      ensures rest[i].section.Some?
    {
      assert rest[i] == es[g + i];
    }
  }

  /** Sorting entries already in order changes nothing. */
  lemma {:induction false} SortSorted(es: seq<Entry>)
    requires Sorted(es)
    ensures Sort(es) == es
    decreases |es|
  {
    if es != [] {
      var more := es[1..];
      SortedTail(es);
      SortSorted(more);
      if more != [] {
        assert EntryCompare(es[0], more[0]) <= 0;
      }
      assert [es[0]] + more == es;
    }
  }

  /**
   Saving, loading the file and saving again writes the same file: a saved
   file is in the saver's normal form.
   */
  lemma SaveIdempotent(buf: string)
    requires AllWellFormed(Collect(CStr(buf)))
    ensures SaveText(Normalise(SaveText(buf))) == SaveText(buf)
  {
    var es := Sort(Collect(CStr(buf)));
    SaveThenLoad(buf);
    SortedWellFormed(Collect(CStr(buf)), es);
    SortedGlobalsFirst(es);
    RenderThenCollect(es);
    CStrOfCString(Normalise(SaveText(buf)));
    SortSorted(es);
  }
}

=== FILE: scan.dfy ===
/**
 Prefix scanning: the `while (cursor < end && P(*cursor)) cursor++` loops that
 both headers are built from, and the C-string view of a buffer.
 */
module Scan {
  import opened CharClass

  /** Length of the longest prefix of s whose characters all satisfy p. */
  function Span(s: string, p: char -> bool): (n: nat)
    ensures n <= |s|
    ensures forall i :: 0 <= i < n ==> p(s[i])
    ensures n < |s| ==> !p(s[n])
    decreases |s|
  {
    if s == [] || !p(s[0]) then 0 else 1 + Span(s[1..], p)
  }

  /** What is left of s after skipping the characters that satisfy p. */
  function DropWhile(s: string, p: char -> bool): (r: string)
    ensures |r| <= |s| && r == s[|s| - |r|..]
    ensures r == [] || !p(r[0])
  {
    s[Span(s, p)..]
  }

  /** The text a C string function sees: everything before the first NUL. */
  function CStr(s: string): (r: string)
    ensures '\0' !in r
    ensures |r| <= |s| && r == s[..|r|]
    ensures |r| < |s| ==> s[|r|] == '\0'
  {
    var n := Span(s, NotNul);
    assert forall i :: 0 <= i < n ==> s[..n][i] != '\0';
    s[..n]
  }

  lemma CStrOfCString(s: string)
    requires '\0' !in s
    ensures CStr(s) == s
  {
  }

  /** A NUL-free prefix is seen whole by C string functions. */
  lemma CStrAppend(a: string, b: string)
    requires '\0' !in a
    ensures CStr(a + b) == a + CStr(b)
  {
    assert forall i :: 0 <= i < |a| ==> NotNul(a[i]);
    SpanAppendAll(a, b, NotNul);
    assert (a + b)[..|a| + Span(b, NotNul)] == a + b[..Span(b, NotNul)];
  }

  /** The maximal prefix is determined by the two conditions that define it. */
  lemma SpanUnique(s: string, p: char -> bool, n: nat)
    requires n <= |s|
    requires forall i :: 0 <= i < n ==> p(s[i])
    requires n < |s| ==> !p(s[n])
    ensures Span(s, p) == n
  {
  }

  /** Scanning over a concatenation whose first part is consumed entirely. */
  lemma SpanAppendAll(a: string, b: string, p: char -> bool)
    requires forall i :: 0 <= i < |a| ==> p(a[i])
    ensures Span(a + b, p) == |a| + Span(b, p)
  {
    var n := |a| + Span(b, p);
    forall i | 0 <= i < n
      ensures p((a + b)[i])
    {
      if i >= |a| {
        assert (a + b)[i] == b[i - |a|];
      }
    }
    if n < |a + b| {
      assert (a + b)[n] == b[Span(b, p)];
    }
    SpanUnique(a + b, p, n);
  }

  /** Scanning over a concatenation that stops inside its first part. */
  lemma SpanAppendStop(a: string, b: string, p: char -> bool)
    requires Span(a, p) < |a|
    ensures Span(a + b, p) == Span(a, p)
  {
    var n := Span(a, p);
    assert forall i :: 0 <= i <= n ==> (a + b)[i] == a[i];
    SpanUnique(a + b, p, n);
  }

  /** Scanning a concatenation whose second part starts with a stopping character. */
  lemma SpanAppendBlocked(a: string, b: string, p: char -> bool)
    requires forall i :: 0 <= i < |a| ==> p(a[i])
    requires b == [] || !p(b[0])
    ensures Span(a + b, p) == |a|
  {
    SpanAppendAll(a, b, p);
  }

  /** Scanning past a prefix of k characters that all satisfy p. */
  lemma {:induction false} SpanSkip(s: string, k: nat, p: char -> bool)
    requires k <= |s|
    requires forall i :: 0 <= i < k ==> p(s[i])
    ensures Span(s, p) == k + Span(s[k..], p)
    decreases k
  {
    if k > 0 {
      assert s[1..][k - 1..] == s[k..];
      SpanSkip(s[1..], k - 1, p);
    }
  }

  /** What may follow the end of a line: nothing, or a line break. */
  predicate AtLineEnd(tail: string) {
    tail == [] || IsEol(tail[0])
  }

  /** Words joined by single blanks. */
  function JoinSpaced(words: seq<string>): string
  {
    if words == [] then [] else if |words| == 1 then words[0] else words[0] + " " + JoinSpaced(words[1..])
  }

  /** Splitting off the first of several joined words. */
  lemma JoinSplit(words: seq<string>, tail: string)
    requires |words| > 1
    ensures JoinSpaced(words) + tail == words[0] + (" " + (JoinSpaced(words[1..]) + tail))
  {
    Regroup(words[0], " ", JoinSpaced(words[1..]), tail);
  }

  lemma AppendAssoc(a: string, b: string, c: string)
    ensures a + (b + c) == a + b + c
  {
  }

  lemma Regroup(a: string, b: string, c: string, d: string)
    ensures a + b + c + d == a + (b + (c + d))
  {
  }

  lemma NoEolConcat(a: string, b: string)
    requires NoEol(a) && NoEol(b)
    ensures NoEol(a + b)
  {
    forall i | 0 <= i < |a + b|
      ensures !IsEol((a + b)[i])
    {
      if i >= |a| {
        assert (a + b)[i] == b[i - |a|];
      }
    }
  }
}

=== FILE: table.dfy ===
/**
 The open-addressing table of vars_hashmap.h: vars__map_init,
 vars__map_insert and vars__map_get. Linear probing from the FNV-1a hash
 modulo the capacity; the table never grows, never deletes and never
 overwrites a stored pair. Keys and values are the C strings the entries
 point to.
 */
module ProbeTable {
  import opened Wrappers
  import opened Fnv1a

  datatype Pair = Pair(key: string, value: string)

  /** The entries (None for a NULL key) and count; the capacity is |slots|. */
  datatype Table = Table(slots: seq<Option<Pair>>, count: nat)

  /** Where a key's probe sequence starts: hash % capacity. */
  function Home(key: string, capacity: nat): (r: nat)
    requires capacity > 0
    ensures r < capacity
  {
    Hash(key) % capacity
  }

  /** The slot visited at step i of a probe sequence: (idx + i) % capacity. */
  function Probe(home: nat, i: nat, capacity: nat): (p: nat)
    requires capacity > 0
    ensures p < capacity
  {
    (home + i) % capacity
  }

  /** The step at which a probe sequence from home reaches slot j. */
  function Dist(home: nat, j: nat, capacity: nat): (d: nat)
    requires capacity > 0
    ensures d < capacity
  {
    (j - home) % capacity
  }

  lemma ModBelow(x: int, c: int)
    requires 0 <= x < c
    ensures x % c == x
  {
  }

  lemma ModOnce(x: int, c: int)
    requires 0 < c <= x < 2 * c
    ensures x % c == x - c
  {
  }

  lemma ModNeg(x: int, c: int)
    requires 0 < c && -c <= x < 0
    ensures x % c == x + c
  {
  }

  /** Probing from home reaches any slot j, at step Dist(home, j). */
  lemma ProbeDist(home: nat, j: nat, capacity: nat)
    requires 0 < capacity && home < capacity && j < capacity
    ensures Probe(home, Dist(home, j, capacity), capacity) == j
  {
    if home <= j {
      ModBelow(j - home, capacity);
      ModBelow(j, capacity);
    } else {
      ModNeg(j - home, capacity);
      ModOnce(j + capacity, capacity);
    }
  }

  /** The slot at step i of a probe, without the modulus. */
  lemma ProbeSlot(home: nat, i: nat, capacity: nat)
    requires 0 < capacity && home < capacity && i < capacity
    ensures Probe(home, i, capacity) == if home + i < capacity then home + i else home + i - capacity
  {
    if home + i < capacity {
      ModBelow(home + i, capacity);
    } else {
      ModOnce(home + i, capacity);
    }
  }

  /** Within one sweep of the table no slot is visited twice. */
  lemma ProbeInjective(home: nat, a: nat, b: nat, capacity: nat)
    requires 0 < capacity && home < capacity && a < capacity && b < capacity
    requires Probe(home, a, capacity) == Probe(home, b, capacity)
    ensures a == b
  {
    ProbeSlot(home, a, capacity);
    ProbeSlot(home, b, capacity);
  }

  lemma DistProbe(home: nat, d: nat, capacity: nat)
    requires 0 < capacity && home < capacity && d < capacity
    ensures Dist(home, Probe(home, d, capacity), capacity) == d
  {
    var j := Probe(home, d, capacity);
    ProbeDist(home, j, capacity);
    ProbeInjective(home, Dist(home, j, capacity), d, capacity);
  }

  /** calloc'd entries: every key NULL. */
  function Empties(n: nat): (s: seq<Option<Pair>>)
    ensures |s| == n
    ensures forall j :: 0 <= j < n ==> s[j] == None
  {
    seq(n, j => None)
  }

  /** vars__map_init, with the allocation assumed to succeed. */
  function Init(capacity: nat): Table
  {
    Table(Empties(capacity), 0)
  }

  /** The first probe step from i on whose slot is empty, if any is left. */
  function FreeFrom(slots: seq<Option<Pair>>, home: nat, i: nat): (r: Option<nat>)
    requires |slots| > 0
    ensures r.Some? ==> i <= r.value < |slots| && slots[Probe(home, r.value, |slots|)].None?
    ensures forall e :: i <= e < |slots| && (r.None? || e < r.value) ==> slots[Probe(home, e, |slots|)].Some?
    decreases |slots| - i
  {
    if i >= |slots| then None
    else if slots[Probe(home, i, |slots|)].None? then Some(i)
    else FreeFrom(slots, home, i + 1)
  }

  /** vars__map_insert: the pair goes into the first empty slot of the key's probe sequence; a full table is left as it is. */
  function Insert(t: Table, key: string, value: string): (r: Table)
    requires |t.slots| > 0
    ensures |r.slots| == |t.slots|
  {
    var home := Home(key, |t.slots|);
    match FreeFrom(t.slots, home, 0)
    case None => t
    case Some(d) => Table(t.slots[Probe(home, d, |t.slots|) := Some(Pair(key, value))], t.count + 1)
  }

  /** The probe loop of vars__map_get from step i: stop at an empty slot, return the first pair with the key. */
  function GetFrom(slots: seq<Option<Pair>>, key: string, home: nat, i: nat): Option<string>
    requires |slots| > 0
    decreases |slots| - i
  {
    if i >= |slots| then None
    else match slots[Probe(home, i, |slots|)]
      case None => None
      case Some(p) => if p.key == key then Some(p.value) else GetFrom(slots, key, home, i + 1)
  }

  /** vars__map_get. */
  function Get(t: Table, key: string): Option<string>
    requires |t.slots| > 0
  {
    GetFrom(t.slots, key, Home(key, |t.slots|), 0)
  }

  /** The number of non-NULL entries. */
  function Occupied(slots: seq<Option<Pair>>): (n: nat)
    ensures n <= |slots|
  {
    if slots == [] then 0 else (if slots[0].Some? then 1 else 0) + Occupied(slots[1..])
  }

  predicate Absent(slots: seq<Option<Pair>>, key: string) {
    forall j :: 0 <= j < |slots| && slots[j].Some? ==> slots[j].value.key != key
  }

  /** No empty slot lies on the probe path from a key's home to the slot holding it. */
  predicate Reachable(slots: seq<Option<Pair>>, key: string, j: nat)
    requires 0 < |slots|
  {
    var home := Home(key, |slots|);
    forall e :: 0 <= e < Dist(home, j, |slots|) ==> slots[Probe(home, e, |slots|)].Some?
  }

  predicate Clustered(slots: seq<Option<Pair>>)
    requires 0 < |slots|
  {
    forall j :: 0 <= j < |slots| && slots[j].Some? ==> Reachable(slots, slots[j].value.key, j)
  }

  /** The table invariant: a positive capacity, a true count, and unbroken probe paths. */
  predicate Valid(t: Table) {
    |t.slots| > 0 && t.count == Occupied(t.slots) && Clustered(t.slots)
  }

  // ----- the counter -----

  lemma {:induction false} OccupiedFill(slots: seq<Option<Pair>>, j: nat, x: Pair)
    requires j < |slots| && slots[j].None?
    ensures Occupied(slots[j := Some(x)]) == Occupied(slots) + 1
    decreases |slots|
  {
    if j > 0 {
      assert slots[j := Some(x)][1..] == slots[1..][j - 1 := Some(x)];
      OccupiedFill(slots[1..], j - 1, x);
    } else {
      assert slots[j := Some(x)][1..] == slots[1..];
    }
  }

  /** A table with an empty slot counts fewer pairs than its capacity. */
  lemma {:induction false} OccupiedHole(slots: seq<Option<Pair>>, j: nat)
    requires j < |slots| && slots[j].None?
    ensures Occupied(slots) < |slots|
    decreases |slots|
  {
    if j > 0 {
      OccupiedHole(slots[1..], j - 1);
    }
  }

  lemma OccupiedEmpties(n: nat)
    ensures Occupied(Empties(n)) == 0
  {
    OccupiedNone(Empties(n));
  }

  lemma {:induction false} OccupiedNone(s: seq<Option<Pair>>)
    requires forall j :: 0 <= j < |s| ==> s[j].None?
    ensures Occupied(s) == 0
    decreases |s|
  {
    if s != [] {
      assert forall j :: 0 <= j < |s| - 1 ==> s[1..][j] == s[j + 1];
      OccupiedNone(s[1..]);
    }
  }

  // ----- lookups -----

  /** The key sits at step d of its probe sequence, every slot before it holding another key. */
  predicate FoundAt(slots: seq<Option<Pair>>, key: string, home: nat, d: nat, value: string)
    requires |slots| > 0
  {
    d < |slots|
    && slots[Probe(home, d, |slots|)] == Some(Pair(key, value))
    && forall e :: 0 <= e < d ==> slots[Probe(home, e, |slots|)].Some? && slots[Probe(home, e, |slots|)].value.key != key
  }

  /** Every slot from step i to step d (excluded) holds a key other than key. */
  predicate Passed(slots: seq<Option<Pair>>, key: string, home: nat, i: nat, d: nat)
    requires |slots| > 0
  {
    forall e :: i <= e < d ==> slots[Probe(home, e, |slots|)].Some? && slots[Probe(home, e, |slots|)].value.key != key
  }

  /** A lookup that passes other keys and then meets the key returns its value. */
  lemma {:induction false} GetFromFound(slots: seq<Option<Pair>>, key: string, home: nat, i: nat, d: nat, value: string)
    requires |slots| > 0 && i <= d < |slots|
    requires Passed(slots, key, home, i, d)
    requires slots[Probe(home, d, |slots|)] == Some(Pair(key, value))
    ensures GetFrom(slots, key, home, i) == Some(value)
    decreases d - i
  {
    if i < d {
      GetFromFound(slots, key, home, i + 1, d, value);
    }
  }

  /** What a successful lookup returns was stored under the key, behind other keys only. */
  lemma {:induction false} GetFromSome(slots: seq<Option<Pair>>, key: string, home: nat, i: nat) returns (d: nat)
    requires |slots| > 0
    requires GetFrom(slots, key, home, i).Some?
    ensures i <= d < |slots| && Passed(slots, key, home, i, d)
    ensures slots[Probe(home, d, |slots|)] == Some(Pair(key, GetFrom(slots, key, home, i).value))
    decreases |slots| - i
  {
    var p := slots[Probe(home, i, |slots|)];
    if p.value.key == key {
      d := i;
    } else {
      d := GetFromSome(slots, key, home, i + 1);
    }
  }

  /** vars__map_get returns v exactly when v is stored under the key with only other keys before it on the probe path. */
  lemma GetFound(t: Table, key: string, value: string)
    requires |t.slots| > 0
    ensures Get(t, key) == Some(value) <==> exists d :: FoundAt(t.slots, key, Home(key, |t.slots|), d, value)
  {
    var home := Home(key, |t.slots|);
    if Get(t, key) == Some(value) {
      var d := GetFromSome(t.slots, key, home, 0);
      assert FoundAt(t.slots, key, home, d, value);
    }
    if d :| FoundAt(t.slots, key, home, d, value) {
      GetFromFound(t.slots, key, home, 0, d, value);
    }
  }

  /** A key stored nowhere is not found. */
  lemma {:induction false} AbsentGetFrom(slots: seq<Option<Pair>>, key: string, home: nat, i: nat)
    requires |slots| > 0 && Absent(slots, key)
    ensures GetFrom(slots, key, home, i) == None
    decreases |slots| - i
  {
    if i < |slots| && slots[Probe(home, i, |slots|)].Some? {
      AbsentGetFrom(slots, key, home, i + 1);
    }
  }

  /** Along the probe path, a slot reached behind occupied slots is looked at. */
  lemma {:induction false} ReachGetFrom(slots: seq<Option<Pair>>, key: string, home: nat, i: nat, d: nat)
    requires |slots| > 0 && i <= d < |slots|
    requires forall e :: i <= e < d ==> slots[Probe(home, e, |slots|)].Some?
    requires slots[Probe(home, d, |slots|)].Some? && slots[Probe(home, d, |slots|)].value.key == key
    ensures GetFrom(slots, key, home, i).Some?
    decreases d - i
  {
    if i < d && slots[Probe(home, i, |slots|)].value.key != key {
      ReachGetFrom(slots, key, home, i + 1, d);
    }
  }

  /** In a valid table a lookup misses exactly when no slot holds the key. */
  lemma GetNoneAbsent(t: Table, key: string)
    requires Valid(t)
    ensures Get(t, key) == None <==> Absent(t.slots, key)
  {
    var cap := |t.slots|;
    var home := Home(key, cap);
    if Absent(t.slots, key) {
      AbsentGetFrom(t.slots, key, home, 0);
    } else {
      var j :| 0 <= j < cap && t.slots[j].Some? && t.slots[j].value.key == key;
      assert Reachable(t.slots, key, j);
      var d := Dist(home, j, cap);
      ProbeDist(home, j, cap);
      ReachGetFrom(t.slots, key, home, 0, d);
    }
  }

  // ----- insertion -----

  /** A fresh table is valid and finds nothing. */
  lemma InitValid(capacity: nat, key: string)
    requires capacity > 0
    ensures Valid(Init(capacity))
    ensures Get(Init(capacity), key) == None
  {
    var t := Init(capacity);
    OccupiedEmpties(capacity);
    AbsentGetFrom(t.slots, key, Home(key, capacity), 0);
  }

  /** A full table (count == capacity) is left unchanged. */
  lemma InsertFull(t: Table, key: string, value: string)
    requires Valid(t) && t.count == |t.slots|
    ensures Insert(t, key, value) == t
  {
    var home := Home(key, |t.slots|);
    var r := FreeFrom(t.slots, home, 0);
    if r.Some? {
      OccupiedHole(t.slots, Probe(home, r.value, |t.slots|));
    }
  }

  /** With room left, the pair goes into the first empty slot of its probe sequence, nothing else changes, and the count rises by one. */
  lemma InsertPlaces(t: Table, key: string, value: string) returns (d: nat)
    requires Valid(t) && t.count < |t.slots|
    ensures d < |t.slots|
    ensures t.slots[Probe(Home(key, |t.slots|), d, |t.slots|)].None?
    ensures forall e :: 0 <= e < d ==> t.slots[Probe(Home(key, |t.slots|), e, |t.slots|)].Some?
    ensures Insert(t, key, value) == Table(t.slots[Probe(Home(key, |t.slots|), d, |t.slots|) := Some(Pair(key, value))], t.count + 1)
  {
    var cap := |t.slots|;
    var home := Home(key, cap);
    var r := FreeFrom(t.slots, home, 0);
    if r.None? {
      assert forall j :: 0 <= j < cap ==> t.slots[j].Some? by {
        forall j | 0 <= j < cap
          ensures t.slots[j].Some?
        {
          ProbeDist(home, j, cap);
        }
      }
      AllOccupied(t.slots);
      assert false;
    }
    d := r.value;
  }

  lemma {:induction false} AllOccupied(s: seq<Option<Pair>>)
    requires forall j :: 0 <= j < |s| ==> s[j].Some?
    ensures Occupied(s) == |s|
    decreases |s|
  {
    if s != [] {
      assert forall j :: 0 <= j < |s| - 1 ==> s[1..][j] == s[j + 1];
      AllOccupied(s[1..]);
    }
  }

  /** Filling an empty slot keeps every probe path unbroken. */
  lemma FillClustered(slots: seq<Option<Pair>>, key: string, value: string, d: nat)
    requires |slots| > 0 && Clustered(slots) && d < |slots|
    requires slots[Probe(Home(key, |slots|), d, |slots|)].None?
    requires forall e :: 0 <= e < d ==> slots[Probe(Home(key, |slots|), e, |slots|)].Some?
    ensures Clustered(slots[Probe(Home(key, |slots|), d, |slots|) := Some(Pair(key, value))])
  {
    var cap := |slots|;
    var home := Home(key, cap);
    var pj := Probe(home, d, cap);
    var s2 := slots[pj := Some(Pair(key, value))];
    forall j | 0 <= j < cap && s2[j].Some?
      ensures Reachable(s2, s2[j].value.key, j)
    {
      if j == pj {
        DistProbe(home, d, cap);
      } else {
        assert Reachable(slots, slots[j].value.key, j);
      }
    }
  }

  /** vars__map_insert keeps the table invariant. */
  lemma InsertValid(t: Table, key: string, value: string)
    requires Valid(t)
    ensures Valid(Insert(t, key, value))
  {
    if t.count == |t.slots| {
      InsertFull(t, key, value);
    } else {
      var d := InsertPlaces(t, key, value);
      var home := Home(key, |t.slots|);
      OccupiedFill(t.slots, Probe(home, d, |t.slots|), Pair(key, value));
      FillClustered(t.slots, key, value, d);
    }
  }

  /** Filling an empty slot does not change a lookup that already succeeded. */
  lemma {:induction false} FillKeepsFound(slots: seq<Option<Pair>>, key: string, home: nat, i: nat, j: nat, x: Pair)
    requires |slots| > 0 && j < |slots| && slots[j].None?
    requires GetFrom(slots, key, home, i).Some?
    ensures GetFrom(slots[j := Some(x)], key, home, i) == GetFrom(slots, key, home, i)
    decreases |slots| - i
  {
    var p := slots[Probe(home, i, |slots|)];
    if p.value.key != key {
      FillKeepsFound(slots, key, home, i + 1, j, x);
    }
  }

  /** The first pair stored under a key wins: a later insert never changes what vars__map_get returns for it. */
  lemma InsertFirstWins(t: Table, k2: string, v2: string, key: string)
    requires |t.slots| > 0 && Get(t, key).Some?
    ensures Get(Insert(t, k2, v2), key) == Get(t, key)
  {
    var home := Home(k2, |t.slots|);
    var r := FreeFrom(t.slots, home, 0);
    if r.Some? {
      FillKeepsFound(t.slots, key, Home(key, |t.slots|), 0, Probe(home, r.value, |t.slots|), Pair(k2, v2));
    }
  }

  /** A lookup that misses passed only other keys before its empty slot. */
  lemma {:induction false} MissPassed(slots: seq<Option<Pair>>, key: string, home: nat, i: nat, d: nat)
    requires |slots| > 0 && i <= d <= |slots|
    requires GetFrom(slots, key, home, i) == None
    requires forall e :: i <= e < d ==> slots[Probe(home, e, |slots|)].Some?
    ensures Passed(slots, key, home, i, d)
    decreases d - i
  {
    if i < d {
      MissPassed(slots, key, home, i + 1, d);
    }
  }

  /** Inserting a key the table does not find makes it found, with the inserted value. */
  lemma InsertThenGet(t: Table, key: string, value: string)
    requires Valid(t) && t.count < |t.slots|
    requires Get(t, key) == None
    ensures Get(Insert(t, key, value), key) == Some(value)
  {
    var cap := |t.slots|;
    var home := Home(key, cap);
    var d := InsertPlaces(t, key, value);
    var s2 := t.slots[Probe(home, d, cap) := Some(Pair(key, value))];
    MissPassed(t.slots, key, home, 0, d);
    assert Passed(s2, key, home, 0, d) by {
      assert forall e :: 0 <= e < d ==> s2[Probe(home, e, cap)] == t.slots[Probe(home, e, cap)];
    }
    GetFromFound(s2, key, home, 0, d, value);
  }

  /** Inserting one key leaves every other key's lookup as it was. */
  lemma InsertOther(t: Table, k2: string, v2: string, key: string)
    requires Valid(t) && k2 != key
    ensures Get(Insert(t, k2, v2), key) == Get(t, key)
  {
    if Get(t, key).Some? {
      InsertFirstWins(t, k2, v2, key);
    } else {
      GetNoneAbsent(t, key);
      var t2 := Insert(t, k2, v2);
      assert Absent(t2.slots, key);
      AbsentGetFrom(t2.slots, key, Home(key, |t2.slots|), 0);
    }
  }
}

=== FILE: varsfile.dfy ===
/**
 The vars_file of vars.h as a value: the parsed buffer, the file path and
 the modification time seen at the last load or save. The file system is
 not modelled: what a call would read from disk (the file's contents, or
 None when fopen fails; its mtime, or -1 when stat fails) is a parameter.
 */
module VarsFile {
  import opened CharClass
  import opened Scan
  import opened Wrappers
  import opened Decimal
  import Buffer
  import opened Normaliser
  import Accessors
  import Writer
  import SaveLoad

  /** vars_file: file_path is NULL only in a zero-initialised struct. */
  datatype Doc = Doc(parsed: string, path: Option<string>, lastModified: int)

  /** A call that either returns or ends the process with exit(EXIT_FAILURE). */
  datatype Outcome<T> = Exit | Done(value: T)

  /**
   vars_load: the process exits when the file cannot be opened or is empty;
   otherwise the buffer is the normalised text.
   */
  function Load(path: string, contents: Option<string>, mtime: int): (r: Outcome<Doc>)
    ensures r.Done? <==> contents.Some? && contents.value != []
    ensures r.Done? ==> r.value.path == Some(path) && r.value.lastModified == mtime
  {
    match contents
    case None => Exit
    case Some(text) => if text == [] then Exit else Done(Doc(Normalise(text), Some(path), mtime))
  }

  /** The result of vars_hot_load: 1 when the file was reloaded, and the document after the call. */
  datatype Reload = Reload(status: int, doc: Doc)

  /**
   vars_hot_load: reload only when stat succeeds and the file is strictly
   newer than the last load or save.
   */
  function HotLoad(doc: Doc, mtime: int, contents: Option<string>): (r: Outcome<Reload>)
    ensures r.Done? ==> r.value.status in {0, 1}
    ensures r.Done? && r.value.status == 0 ==> r.value.doc == doc
    ensures r.Done? && r.value.status == 1 <==>
      doc.path.Some? && mtime != -1 && mtime > doc.lastModified && contents.Some? && contents.value != []
    ensures r.Done? && r.value.status == 1 ==>
      r.value.doc.path == doc.path && r.value.doc.lastModified == mtime && r.value.doc.parsed == Normalise(contents.value)
    ensures r.Exit? <==>
      doc.path.Some? && mtime != -1 && mtime > doc.lastModified && (contents.None? || contents.value == [])
  {
    if doc.path.None? || mtime == -1 || mtime <= doc.lastModified then Done(Reload(0, doc))
    else
      match Load(doc.path.value, contents, mtime)
      case Exit => Exit
      case Done(loaded) => Done(Reload(1, loaded))
  }

  /** The result of vars_save: its return value, the document after it, and the text written (None if nothing was). */
  datatype Saved = Saved(status: int, doc: Doc, written: Option<string>)

  /**
   vars_save: canWrite says whether fopen succeeded; mtime is what stat
   reports after the file was written. The parsed buffer itself is kept.
   */
  function Save(doc: Doc, canWrite: bool, mtime: int): (r: Saved)
    ensures r.status == 1 <==> doc.path.Some? && canWrite
    ensures r.written.Some? <==> r.status == 1
    ensures r.doc.parsed == doc.parsed && r.doc.path == doc.path
    ensures r.status == 0 ==> r.doc == doc
  {
    if doc.path.None? || !canWrite then Saved(0, doc, None)
    else Saved(1, doc.(lastModified := mtime), Some(Writer.SaveText(doc.parsed)))
  }

  /** After a save, a hot load that sees the mtime the save recorded reports no change. */
  lemma SaveThenHotLoad(doc: Doc, mtime: int, contents: Option<string>)
    requires doc.path.Some?
    ensures HotLoad(Save(doc, true, mtime).doc, mtime, contents) == Done(Reload(0, Save(doc, true, mtime).doc))
  {
  }

  /**
   Saving and then loading the written file gives a buffer holding the same
   entries, in vars_entry_compare order.
   */
  lemma SaveThenLoad(doc: Doc, mtime: int, later: int)
    requires doc.path.Some?
    requires SaveLoad.AllWellFormed(Writer.Collect(CStr(doc.parsed)))
    requires Writer.Collect(CStr(doc.parsed)) != []
    ensures Load(doc.path.value, Save(doc, true, mtime).written, later).Done?
    ensures Writer.Collect(CStr(Load(doc.path.value, Save(doc, true, mtime).written, later).value.parsed))
         == Writer.Sort(Writer.Collect(CStr(doc.parsed)))
  {
    var es := Writer.Sort(Writer.Collect(CStr(doc.parsed)));
    SaveLoad.SaveThenLoad(doc.parsed);
    SaveLoad.SortedWellFormed(Writer.Collect(CStr(doc.parsed)), es);
    SaveLoad.SortedGlobalsFirst(es);
    SaveLoad.RenderThenCollect(es);
    assert Writer.SaveText(doc.parsed) != [] by {
      assert es != [] by {
        assert |es| == |Writer.Collect(CStr(doc.parsed))|;
      }
      Writer.RenderNonEmpty(es);
    }
    CStrOfCString(Normalise(Writer.SaveText(doc.parsed)));
  }

  /** A buffer with no entries is saved as an empty file, which vars_load then refuses. */
  lemma SaveEmptyThenLoad(doc: Doc, mtime: int, later: int)
    requires doc.path.Some? && Writer.Collect(CStr(doc.parsed)) == []
    ensures Save(doc, true, mtime).written == Some([])
    ensures Load(doc.path.value, Save(doc, true, mtime).written, later) == Exit
  {
  }

  // ---------------------------------------------------------------
  // Loading and reading back
  // ---------------------------------------------------------------

  /**
   A non-empty file without NUL bytes loads into a buffer that C string
   functions see whole and that is empty or ends with a line break: the
   shape the setters rely on when they append a new line.
   */
  lemma LoadTerminated(path: string, text: string, mtime: int)
    requires '\0' !in text && text != []
    ensures Load(path, Some(text), mtime).Done?
    ensures CStr(Load(path, Some(text), mtime).value.parsed) == Load(path, Some(text), mtime).value.parsed
    ensures Buffer.Terminated(CStr(Load(path, Some(text), mtime).value.parsed))
  {
    NormaliseTerminated(text);
  }

  /** On a freshly loaded file, vars_get_int reads back what vars_set_int stored. */
  lemma LoadSetThenGetInt(path: string, text: string, mtime: int, key: string, value: int32)
    requires '\0' !in text && text != []
    requires Accessors.PlainKey(key)
    ensures Load(path, Some(text), mtime).Done?
    ensures Accessors.GetInt(key, Accessors.SetInt(key, value, Load(path, Some(text), mtime).value.parsed)) == value
  {
    LoadTerminated(path, text, mtime);
    Accessors.GetIntSetInt(key, value, Load(path, Some(text), mtime).value.parsed);
  }

  /**
   A key line at the top of a file: after loading, vars__find_key_value
   finds the tokens joined by single blanks, then the next line break.
   */
  lemma LoadedFirstLine(key: string, toks: seq<string>, rest: string) returns (more: string)
    requires BareToken(key) && Tokens(toks) && toks != []
    requires '\0' !in JoinSpaced(toks)
    ensures Buffer.Lookup(key, Normalise(key + " " + JoinSpaced(toks) + ("\n" + rest)))
         == Some(JoinSpaced(toks) + ("\n" + more))
  {
    var v := JoinSpaced(toks);
    var text := key + " " + v + ("\n" + rest);
    SaveLoad.JoinedTokens(toks);
    var u := NormaliseKeyLine(key, v, rest, text);
    var line := key + (" " + v);
    assert '\0' !in line by {
      SaveLoad.LoadedLineNoNul(Writer.Entry(None, key, v));
    }
    more := CStr(u);
    assert CStr(Normalise(text)) == line + "\n" + more by {
      AppendAssoc(line, "\n", u);
      CStrAppend(line + "\n", u);
    }
    FindKeyLine(key, v, more, CStr(Normalise(text)));
  }

  /** Loading a file whose first line is "key value" gives that line first. */
  lemma NormaliseKeyLine(key: string, v: string, rest: string, text: string) returns (u: string)
    requires SaveLoad.WellFormed(Writer.Entry(None, key, v)) && v != []
    requires text == key + " " + v + ("\n" + rest)
    ensures Normalise(text) == key + (" " + v) + ("\n" + u)
  {
    var e := Writer.Entry(None, key, v);
    var line := SaveLoad.LoadedLine(e);
    assert line == key + (" " + v) by {
      assert SaveLoad.FullKey(e) == key;
    }
    var lines := Run(text, []);
    assert lines == [line] + Run(rest, []) by {
      SaveLoad.EntryRun(e, rest, text, []);
    }
    u := Unlines(Run(rest, []));
    NormaliseLines(text, lines);
    SaveLoad.UnlinesCons(line, Run(rest, []), lines);
  }

  lemma NormaliseLines(text: string, lines: seq<string>)
    requires lines == Run(text, [])
    ensures Normalise(text) == Unlines(lines)
  {
  }

  /** vars__find_key_value on a buffer whose first line holds the key. */
  lemma FindKeyLine(key: string, v: string, more: string, p: string)
    requires BareToken(key) && v != [] && !IsWhiteSpace(v[0])
    requires p == key + (" " + v) + "\n" + more
    ensures Buffer.Find(key, p) == Some(v + ("\n" + more))
  {
    assert p[0] == key[0];
    assert p[..|key|] == key && p[|key|] == ' ';
    var after := p[|key|..];
    assert after == " " + (v + ("\n" + more));
    SpanSkip(after, 1, IsWhiteSpace);
    assert after[1..] == v + ("\n" + more);
    SpanUnique(after[1..], IsWhiteSpace, 0);
  }

  /** A file whose first line is "key n" loads so that vars_get_int gives n. */
  lemma LoadThenGetInt(key: string, n: int32, rest: string)
    requires BareToken(key)
    ensures Accessors.GetInt(key, Normalise(key + " " + FormatInt(n as int) + ("\n" + rest))) == n
  {
    var s := FormatInt(n as int);
    assert Token(s) by {
      assert forall i :: 0 <= i < |s| ==> IsTokenChar(s[i]);
    }
    assert JoinSpaced([s]) == s;
    Accessors.FormatIntPlain(n as int);
    var more := LoadedFirstLine(key, [s], rest);
    StrtolFormatInt(n as int, "\n" + more);
  }

  /** A file whose first line is `key "text"` loads so that vars_get_string gives text. */
  lemma LoadThenGetString(key: string, text: string, rest: string)
    requires BareToken(key)
    requires forall i :: 0 <= i < |text| ==> IsQuoteBody(text[i]) && text[i] != '\0'
    ensures Accessors.GetString(key, Normalise(key + " " + ("\"" + text + "\"") + ("\n" + rest))) == Some(text)
  {
    var q := "\"" + text + "\"";
    assert Token(q) by {
      assert forall i :: 1 <= i < |q| - 1 ==> q[i] == text[i - 1];
    }
    assert JoinSpaced([q]) == q;
    assert '\0' !in q by {
      assert forall i :: 0 <= i < |q| ==> q[i] == '"' || q[i] == text[i - 1];
    }
    var more := LoadedFirstLine(key, [q], rest);
    var val := q + ("\n" + more);
    Accessors.QuotedValue(text, "\n" + more, val);
    Accessors.QuotedUnique(val, |Accessors.ReadString(val).value|, |text|);
  }
}

=== FILE: vec.dfy ===
/**
 The vector grammar of vars__parse_vec: '(' then `count` numbers, each after
 optional blanks, then optional blanks and ')'. Both headers share it; they
 differ only in which blanks they skip (isspace in vars.h, IS_WHITE_SPACE in
 vars_hashmap.h), so the skip class is a parameter.

 Floating point is not modelled: a number is whatever prefix a NumberScanner
 (standing for strtof) consumes, and a parsed component is that text.
 */
module VecSyntax {
  import opened Scan

  /** strtof seen as "how many characters of s form a number" (0: none). */
  type NumberScanner = f: string -> nat | forall s :: f(s) <= |s| witness (s: string) => 0

  /** The outcome of vars__parse_vec: its return value and the components written so far. */
  datatype VecParse = VecParse(ok: bool, parts: seq<string>)

  /** A component of a returned vars_vecN: still zero, or a number read from the text. */
  datatype Component = Zero | Number(text: string)

  function ParseVec(val: string, count: nat, skip: char -> bool, scan: NumberScanner): (r: VecParse)
    ensures |r.parts| <= count
    ensures r.ok ==> |r.parts| == count
    ensures val == [] || val[0] != '(' ==> r == VecParse(false, [])
    ensures forall i :: 0 <= i < |r.parts| ==> r.parts[i] != []
  {
    if val == [] || val[0] != '(' then VecParse(false, [])
    else ParseParts(val[1..], count, skip, scan)
  }

  /** The loop of vars__parse_vec after the '(' with `left` numbers still to read. */
  function ParseParts(s: string, left: nat, skip: char -> bool, scan: NumberScanner): (r: VecParse)
    ensures |r.parts| <= left
    ensures r.ok ==> |r.parts| == left
    ensures forall i :: 0 <= i < |r.parts| ==> r.parts[i] != []
    decreases left
  {
    var t := DropWhile(s, skip);
    if left == 0 then VecParse(t != [] && t[0] == ')', [])
    else if t == [] then VecParse(false, [])
    else
      var n := scan(t);
      if n == 0 then VecParse(false, [])
      else
        Cons(t[..n], ParseParts(t[n..], left - 1, skip, scan))
  }

  /** A number read in front of the rest of the parse. */
  function Cons(num: string, r: VecParse): VecParse
  {
    VecParse(r.ok, [num] + r.parts)
  }

  /** `vars_vecN v = {0}`: every component zero. */
  function Zeros(count: nat): (v: seq<Component>)
    ensures |v| == count
  {
    seq(count, i => Zero)
  }

  /**
   The returned vector as the C code builds it: the zero vector, then
   out[i] = strtof(...) written for each number read, in order.
   */
  function Components(parts: seq<string>, count: nat): (v: seq<Component>)
    requires |parts| <= count
    ensures |v| == count
    ensures forall i :: 0 <= i < |parts| ==> v[i] == Number(parts[i])
    ensures forall i :: |parts| <= i < count ==> v[i] == Zero
    decreases |parts|
  {
    if parts == [] then Zeros(count)
    else
      var k := |parts| - 1;
      Components(parts[..k], count)[k := Number(parts[k])]
  }

  /** Two components of three, the last left at zero. */
  lemma TwoOfThree(x: string, y: string)
    ensures Components([x, y], 3) == [Number(x), Number(y), Zero]
  {
    var v := Components([x, y], 3);
    assert v[0] == Number(x) && v[1] == Number(y) && v[2] == Zero;
  }

  /** The text vars_set_vec2/3/4 store, given the components already formatted. */
  function VecText(nums: seq<string>): string
  {
    "(" + JoinSpaced(nums) + ")"
  }

  /** Text that can follow a component inside "( ... )". */
  predicate Delimited(rest: string) {
    rest != [] && (rest[0] == ' ' || rest[0] == ')')
  }

  /** A scanner that reads num whole when it is followed by ' ' or ')'. */
  ghost predicate ReadsWhole(scan: NumberScanner, num: string)
  {
    forall rest {:trigger Delimited(rest)} :: Delimited(rest) ==> scan(num + rest) == |num|
  }

  /**
   Components the parser reads back one by one: nonempty, not starting with
   a character it skips, and read whole by the scanner.
   */
  ghost predicate Readable(nums: seq<string>, skip: char -> bool, scan: NumberScanner)
  {
    forall i :: 0 <= i < |nums| ==> nums[i] != [] && !skip(nums[i][0]) && ReadsWhole(scan, nums[i])
  }

  lemma ReadableTail(nums: seq<string>, skip: char -> bool, scan: NumberScanner)
    requires nums != [] && Readable(nums, skip, scan)
    ensures Readable(nums[1..], skip, scan)
  {
    forall i | 0 <= i < |nums| - 1
      ensures nums[1..][i] == nums[i + 1]
    {
    }
  }

  /**
   Encoding then parsing gives every component back and reports success,
   whatever follows the ')'.
   */
  lemma ParseVecText(nums: seq<string>, tail: string, skip: char -> bool, scan: NumberScanner)
    requires skip(' ') && !skip(')')
    requires Readable(nums, skip, scan)
    ensures ParseVec(VecText(nums) + tail, |nums|, skip, scan) == VecParse(true, nums)
  {
    var inner := JoinSpaced(nums) + (")" + tail);
    assert VecText(nums) + tail == "(" + inner;
    assert ("(" + inner)[1..] == inner;
    PartsOfJoined(nums, ")" + tail, inner, skip, scan);
  }

  lemma {:induction false} PartsOfJoined(nums: seq<string>, tail: string, s: string, skip: char -> bool, scan: NumberScanner)
    requires s == JoinSpaced(nums) + tail
    requires skip(' ') && !skip(')')
    requires tail != [] && tail[0] == ')'
    requires Readable(nums, skip, scan)
    ensures ParseParts(s, |nums|, skip, scan) == VecParse(true, nums)
    decreases |nums|
  {
    if nums == [] {
      ClosingParen(s, skip, scan);
    } else {
      var more := nums[1..];
      var inner := JoinSpaced(more) + tail;
      var r := ParseParts(inner, |more|, skip, scan);
      assert |more| == |nums| - 1;
      assert ParseParts(s, |nums|, skip, scan) == Cons(nums[0], r) by {
        JoinedStep(nums, tail, s, inner, skip, scan);
      }
      assert r == VecParse(true, more) by {
        ReadableTail(nums, skip, scan);
        PartsOfJoined(more, tail, inner, skip, scan);
      }
      assert [nums[0]] + more == nums;
    }
  }

  /**
   A vector of two numbers read as a vector of three: the parse fails at
   the ')' (when strtof reads nothing there), yet both numbers have been
   written.
   */
  lemma ParseTwoAsThree(x: string, y: string, tail: string, skip: char -> bool, scan: NumberScanner)
    requires skip(' ') && !skip(')')
    requires Readable([x, y], skip, scan)
    requires scan(")" + tail) == 0
    ensures ParseVec(VecText([x, y]) + tail, 3, skip, scan) == VecParse(false, [x, y])
  {
    var close := ")" + tail;
    var inner := x + (" " + (y + close));
    var val := VecText([x, y]) + tail;
    assert val == "(" + inner by {
      assert JoinSpaced([x, y]) == x + " " + y;
    }
    assert val[0] == '(' && val[1..] == inner;
    assert [x, y][0] == x && [x, y][1] == y;
    ThreeFromTwo(x, y, close, inner, skip, scan);
  }

  /** The numbers x and y, then the ')' where a third is expected. */
  lemma ThreeFromTwo(x: string, y: string, close: string, inner: string, skip: char -> bool, scan: NumberScanner)
    requires skip(' ') && !skip(')')
    requires x != [] && !skip(x[0]) && ReadsWhole(scan, x)
    requires y != [] && !skip(y[0]) && ReadsWhole(scan, y)
    requires close != [] && close[0] == ')' && scan(close) == 0
    requires inner == x + (" " + (y + close))
    ensures ParseParts(inner, 3, skip, scan) == VecParse(false, [x, y])
  {
    var second := y + close;
    var r := ParseParts(second, 2, skip, scan);
    assert ParseParts(inner, 3, skip, scan) == Cons(x, r) by {
      BlankStep(x, second, inner, 3, skip, scan);
    }
    assert r == VecParse(false, [y]) by {
      OneThenClose(y, close, second, skip, scan);
    }
    assert [x] + [y] == [x, y];
  }

  /** The number y, then the ')' where one more is expected. */
  lemma OneThenClose(y: string, close: string, second: string, skip: char -> bool, scan: NumberScanner)
    requires !skip(')')
    requires y != [] && !skip(y[0]) && ReadsWhole(scan, y)
    requires close != [] && close[0] == ')' && scan(close) == 0
    requires second == y + close
    ensures ParseParts(second, 2, skip, scan) == VecParse(false, [y])
  {
    var last := ParseParts(close, 1, skip, scan);
    assert ParseParts(second, 2, skip, scan) == Cons(y, last) by {
      PartsStep(second, y, close, close, 2, skip, scan);
    }
    assert last == VecParse(false, []) by {
      ShortEnd(close, 1, skip, scan);
    }
    assert [y] + [] == [y];
  }

  /** Nothing but the ')' where a number is expected: the parse fails with no number. */
  lemma ShortEnd(s: string, left: nat, skip: char -> bool, scan: NumberScanner)
    requires !skip(')') && s != [] && s[0] == ')' && scan(s) == 0 && left > 0
    ensures ParseParts(s, left, skip, scan) == VecParse(false, [])
  {
    SpanUnique(s, skip, 0);
    assert DropWhile(s, skip) == s;
  }

  /** The first number of a joined list is read whole, then the blank after it is skipped. */
  lemma JoinedStep(nums: seq<string>, tail: string, s: string, inner: string, skip: char -> bool, scan: NumberScanner)
    requires nums != [] && s == JoinSpaced(nums) + tail && inner == JoinSpaced(nums[1..]) + tail
    requires skip(' ')
    requires tail != [] && tail[0] == ')'
    requires nums[0] != [] && !skip(nums[0][0]) && ReadsWhole(scan, nums[0])
    ensures ParseParts(s, |nums|, skip, scan) == Cons(nums[0], ParseParts(inner, |nums| - 1, skip, scan))
  {
    if |nums| == 1 {
      assert s == nums[0] + tail;
      PartsStep(s, nums[0], tail, tail, 1, skip, scan);
    } else {
      var num := nums[0];
      var left := |nums|;
      assert s == num + (" " + inner) by {
        JoinSplit(nums, tail);
      }
      assert ParseParts(s, left, skip, scan) == Cons(num, ParseParts(inner, left - 1, skip, scan)) by {
        BlankStep(num, inner, s, left, skip, scan);
      }
    }
  }

  /** With nothing left to read, a ')' (after no blanks) closes the vector. */
  lemma ClosingParen(s: string, skip: char -> bool, scan: NumberScanner)
    requires !skip(')') && s != [] && s[0] == ')'
    ensures ParseParts(s, 0, skip, scan) == VecParse(true, [])
  {
    SpanUnique(s, skip, 0);
    assert DropWhile(s, skip) == s;
  }

  /** A number read whole, a blank, then whatever the rest parses to. */
  lemma BlankStep(num: string, inner: string, s: string, left: nat, skip: char -> bool, scan: NumberScanner)
    requires s == num + (" " + inner)
    requires skip(' ') && left > 0
    requires num != [] && !skip(num[0]) && ReadsWhole(scan, num)
    ensures ParseParts(s, left, skip, scan) == Cons(num, ParseParts(inner, left - 1, skip, scan))
  {
    var rest := " " + inner;
    assert Delimited(rest);
    assert DropWhile(rest, skip) == DropWhile(inner, skip) by {
      SkipBlank(inner, skip);
    }
    PartsStep(s, num, rest, inner, left, skip, scan);
  }

  /** Reading one number that the scanner takes whole. */
  lemma PartsStep(t: string, num: string, rest: string, next: string, left: nat, skip: char -> bool, scan: NumberScanner)
    requires t == num + rest
    requires num != [] && !skip(num[0])
    requires ReadsWhole(scan, num) && Delimited(rest)
    requires DropWhile(rest, skip) == DropWhile(next, skip)
    requires left > 0
    ensures ParseParts(t, left, skip, scan) == Cons(num, ParseParts(next, left - 1, skip, scan))
  {
    assert Delimited(rest);
    SpanUnique(t, skip, 0);
    assert DropWhile(t, skip) == t;
    assert t[..|num|] == num;
    assert t[|num|..] == rest;
  }

  /** A blank before the next number is skipped. */
  lemma SkipBlank(x: string, skip: char -> bool)
    requires skip(' ')
    ensures DropWhile(" " + x, skip) == DropWhile(x, skip)
  {
    SpanSkip(" " + x, 1, skip);
    assert (" " + x)[1..] == x;
    assert (" " + x)[1 + Span(x, skip)..] == x[Span(x, skip)..];
  }
}

=== FILE: wrappers.dfy ===
/** The optional value used wherever the C code returns a pointer that may be NULL. */
module Wrappers {

  datatype Option<+T> = None | Some(value: T)
}

=== FILE: writer.dfy ===
/**
 vars_save (vars.h): the parsed buffer is cut back into entries (section,
 key, value), the entries are sorted with vars_entry_compare, and the file
 is written section by section.
 */
module Writer {
  import opened CharClass
  import opened Scan
  import opened Wrappers
  import opened Buffer

  /** vars_entry: section is NULL for keys outside any section. */
  datatype Entry = Entry(section: Option<string>, key: string, value: string)

  // ---------------------------------------------------------------
  // Reading the parsed buffer back into entries
  // ---------------------------------------------------------------

  /** A key "name/rest" belongs to section "name": the split is at the first '/'. */
  function Split(key: string, value: string): (e: Entry)
    ensures e.value == value
    ensures e.section.None? ==> '/' !in key && e.key == key
    ensures e.section.Some? ==> '/' !in e.section.value && key == e.section.value + "/" + e.key
  {
    var i := Span(key, NotSlash);
    if i < |key| then
      assert key == key[..i] + "/" + key[i + 1..];
      Entry(Some(key[..i]), key[i + 1..], value)
    else
      Entry(None, key, value)
  }

  /**
   The parsing loop of vars_save over the text of parsed_buf: header lines
   are skipped, an empty key skips one character, otherwise the key runs to
   the first blank or line break and the value from the next non-blank to
   the line end.
   */
  function Collect(p: string): seq<Entry>
    decreases |p|
  {
    if p == [] then []
    else if IsHeaderAt(p) then
      var n := Span(p, NotEol);
      Collect(if n < |p| then p[n + 1..] else [])
    else
      var k := Span(p, IsNameChar);
      if k == 0 then Collect(p[1..])
      else
        var q := DropWhile(p[k..], IsWhiteSpace);
        var v := Span(q, NotEol);
        [Split(p[..k], q[..v])] + Collect(if v < |q| then q[v + 1..] else [])
  }

  // ---------------------------------------------------------------
  // Ordering
  // ---------------------------------------------------------------

  /** The sign of strcmp(a, b) on NUL-free strings, bytes compared as unsigned. */
  function StrCmp(a: string, b: string): (r: int)
    ensures -1 <= r <= 1
    ensures r == 0 <==> a == b
  {
    if a == [] && b == [] then 0
    else if a == [] then -1
    else if b == [] then 1
    else if a[0] < b[0] then -1
    else if a[0] > b[0] then 1
    else
      var r := StrCmp(a[1..], b[1..]);
      assert r == 0 ==> a == [a[0]] + a[1..] && b == [b[0]] + b[1..];
      r
  }

  /** vars_entry_compare: entries without a section first, then by section, then by key. */
  function EntryCompare(a: Entry, b: Entry): int
  {
    if a.section.None? && b.section.None? then StrCmp(a.key, b.key)
    else if a.section.None? then -1
    else if b.section.None? then 1
    else
      var c := StrCmp(a.section.value, b.section.value);
      if c != 0 then c else StrCmp(a.key, b.key)
  }

  lemma {:induction false} StrCmpFlip(a: string, b: string)
    ensures StrCmp(b, a) == -StrCmp(a, b)
    decreases |a|
  {
    if a != [] && b != [] && a[0] == b[0] {
      StrCmpFlip(a[1..], b[1..]);
    }
  }

  lemma {:induction false} StrCmpTrans(a: string, b: string, c: string)
    requires StrCmp(a, b) <= 0 && StrCmp(b, c) <= 0
    ensures StrCmp(a, c) <= 0
    decreases |a|
  {
    if a != [] && b != [] && c != [] && a[0] == b[0] && b[0] == c[0] {
      StrCmpTrans(a[1..], b[1..], c[1..]);
    }
  }

  /** Swapping the arguments of vars_entry_compare flips its sign. */
  lemma EntryCompareFlip(a: Entry, b: Entry)
    ensures EntryCompare(b, a) == -EntryCompare(a, b)
  {
    StrCmpFlip(a.key, b.key);
    if a.section.Some? && b.section.Some? {
      StrCmpFlip(a.section.value, b.section.value);
    }
  }

  /** vars_entry_compare orders entries transitively. */
  lemma EntryCompareTrans(a: Entry, b: Entry, c: Entry)
    requires EntryCompare(a, b) <= 0 && EntryCompare(b, c) <= 0
    ensures EntryCompare(a, c) <= 0
  {
    if a.section.Some? && b.section.Some? && c.section.Some? {
      var x, y, z := a.section.value, b.section.value, c.section.value;
      StrCmpTrans(x, y, z);
      if StrCmp(x, z) == 0 {
        StrCmpFlip(x, y);
        StrCmpTrans(a.key, b.key, c.key);
      }
    } else if a.section.None? && b.section.None? && c.section.None? {
      StrCmpTrans(a.key, b.key, c.key);
    }
  }

  predicate Sorted(es: seq<Entry>) {
    forall i, j :: 0 <= i < j < |es| ==> EntryCompare(es[i], es[j]) <= 0
  }

  /** Placing one entry into a sorted list. */
  function Insert(e: Entry, s: seq<Entry>): (r: seq<Entry>)
    requires Sorted(s)
    ensures Sorted(r)
    ensures multiset(r) == multiset(s) + multiset{e}
    decreases |s|
  {
    if s == [] then [e]
    else if EntryCompare(e, s[0]) <= 0 then
      InsertFront(e, s);
      [e] + s
    else
      SortedTail(s);
      var t := Insert(e, s[1..]);
      InsertLater(e, s, t);
      [s[0]] + t
  }

  lemma SortedTail(s: seq<Entry>)
    requires Sorted(s) && s != []
    ensures Sorted(s[1..])
  {
    assert forall i :: 0 <= i < |s| - 1 ==> s[1..][i] == s[i + 1];
  }

  lemma InsertFront(e: Entry, s: seq<Entry>)
    requires Sorted(s) && s != [] && EntryCompare(e, s[0]) <= 0
    ensures Sorted([e] + s)
    ensures multiset([e] + s) == multiset(s) + multiset{e}
  {
    forall y | y in s ensures EntryCompare(e, y) <= 0 {
      if y != s[0] {
        EntryCompareTrans(e, s[0], y);
      }
    }
    ConsSorted(e, s);
  }

  lemma InsertLater(e: Entry, s: seq<Entry>, t: seq<Entry>)
    requires Sorted(s) && s != [] && EntryCompare(e, s[0]) > 0
    requires Sorted(t) && multiset(t) == multiset(s[1..]) + multiset{e}
    ensures Sorted([s[0]] + t)
    ensures multiset([s[0]] + t) == multiset(s) + multiset{e}
  {
    assert s == [s[0]] + s[1..];
    EntryCompareFlip(e, s[0]);
    forall y | y in t ensures EntryCompare(s[0], y) <= 0 {
      assert y in multiset(t);
    }
    ConsSorted(s[0], t);
  }

  lemma ConsSorted(x: Entry, t: seq<Entry>)
    requires Sorted(t)
    requires forall y :: y in t ==> EntryCompare(x, y) <= 0
    ensures Sorted([x] + t)
  {
    forall i, j | 0 <= i < j < |t| + 1
      ensures EntryCompare(([x] + t)[i], ([x] + t)[j]) <= 0
    {
      if i == 0 {
        assert ([x] + t)[j] == t[j - 1];
      } else {
        assert ([x] + t)[i] == t[i - 1] && ([x] + t)[j] == t[j - 1];
      }
    }
  }

  /**
   The entries in vars_entry_compare order: qsort's contract, a sorted
   permutation. Entries that compare equal keep their input order.
   */
  function Sort(es: seq<Entry>): (r: seq<Entry>)
    ensures Sorted(r)
    ensures multiset(r) == multiset(es)
  {
    if es == [] then []
    else
      assert es == [es[0]] + es[1..];
      Insert(es[0], Sort(es[1..]))
  }

  // ---------------------------------------------------------------
  // Writing
  // ---------------------------------------------------------------

  /** The blank line written before a section change, except at the top of the file. */
  function Gap(first: bool): string {
    if first then [] else "\n"
  }

  /** What is written before an entry, given current_section. */
  function Header(e: Entry, current: Option<string>, first: bool): string {
    match e.section
    case Some(s) => if current != Some(s) then Gap(first) + (":/" + s + "\n") else []
    case None => if current.Some? then Gap(first) else []
  }

  /** fprintf(fp, "%s %s\n", key, value) without the line break. */
  function EntryText(e: Entry): string {
    e.key + " " + e.value
  }

  /** The writing loop of vars_save from one entry on. */
  function RenderFrom(es: seq<Entry>, current: Option<string>, first: bool): string
  {
    if es == [] then []
    else Header(es[0], current, first) + (EntryText(es[0]) + ("\n" + RenderFrom(es[1..], es[0].section, false)))
  }

  /** The file vars_save writes for entries already sorted. */
  function Render(es: seq<Entry>): string {
    RenderFrom(es, None, true)
  }

  /** Every entry writes at least its own line. */
  lemma RenderNonEmpty(es: seq<Entry>)
    requires es != []
    ensures Render(es) != []
  {
  }

  // ---------------------------------------------------------------
  // Layout of the written file
  // ---------------------------------------------------------------

  /** One "key value" line per entry. */
  function Lines(es: seq<Entry>): string
  {
    if es == [] then [] else EntryText(es[0]) + "\n" + Lines(es[1..])
  }

  /** Consecutive entries of one section. */
  datatype Group = Group(name: string, entries: seq<Entry>)

  function Flatten(runs: seq<Group>): seq<Entry>
  {
    if runs == [] then [] else runs[0].entries + Flatten(runs[1..])
  }

  /** Every run is non-empty and holds only entries of its section; neighbouring runs differ in section. */
  predicate Grouped(runs: seq<Group>) {
    (forall i :: 0 <= i < |runs| ==> runs[i].entries != []) &&
    (forall i, j :: 0 <= i < |runs| && 0 <= j < |runs[i].entries| ==> runs[i].entries[j].section == Some(runs[i].name)) &&
    (forall i :: 0 < i < |runs| ==> runs[i - 1].name != runs[i].name)
  }

  /** A ":/name" header per run, a blank line before each header that does not open the file, then the run's lines. */
  function Sections(runs: seq<Group>, first: bool): string
  {
    if runs == [] then []
    else Gap(first) + (":/" + runs[0].name + "\n") + Lines(runs[0].entries) + Sections(runs[1..], false)
  }

  /**
   The file vars_save writes: the entries without a section first, one line
   each and under no header, then every run of one section under its
   header. The branch that returns to the globals never writes anything.
   */
  lemma RenderLayout(globals: seq<Entry>, runs: seq<Group>)
    requires forall i :: 0 <= i < |globals| ==> globals[i].section.None?
    requires Grouped(runs)
    ensures Render(globals + Flatten(runs)) == Lines(globals) + Sections(runs, globals == [])
  {
    GlobalsText(globals, Flatten(runs), true);
    SectionsText(runs, None, globals == []);
  }

  /** Entries without a section, while no section is current, write their lines and nothing else. */
  lemma {:induction false} GlobalsText(gs: seq<Entry>, rest: seq<Entry>, first: bool)
    requires forall i :: 0 <= i < |gs| ==> gs[i].section.None?
    ensures RenderFrom(gs + rest, None, first) == Lines(gs) + RenderFrom(rest, None, first && gs == [])
    decreases |gs|
  {
    if gs != [] {
      var all := gs + rest;
      assert all[0] == gs[0] && all[1..] == gs[1..] + rest;
      var tail := RenderFrom(gs[1..] + rest, None, false);
      assert RenderFrom(all, None, first) == EntryText(gs[0]) + ("\n" + tail);
      GlobalsText(gs[1..], rest, false);
      var l, r := Lines(gs[1..]), RenderFrom(rest, None, false);
      assert tail == l + r;
      assert EntryText(gs[0]) + ("\n" + (l + r)) == EntryText(gs[0]) + "\n" + l + r;
    } else {
      assert gs + rest == rest;
    }
  }

  /** Entries of the current section write their lines and nothing else. */
  lemma {:induction false} SameSectionText(es: seq<Entry>, rest: seq<Entry>, name: string)
    requires forall i :: 0 <= i < |es| ==> es[i].section == Some(name)
    ensures RenderFrom(es + rest, Some(name), false) == Lines(es) + RenderFrom(rest, Some(name), false)
    decreases |es|
  {
    if es != [] {
      var all := es + rest;
      assert all[0] == es[0] && all[1..] == es[1..] + rest;
      var tail := RenderFrom(es[1..] + rest, Some(name), false);
      assert RenderFrom(all, Some(name), false) == EntryText(es[0]) + ("\n" + tail);
      SameSectionText(es[1..], rest, name);
      var l, r := Lines(es[1..]), RenderFrom(rest, Some(name), false);
      assert tail == l + r;
      assert EntryText(es[0]) + ("\n" + (l + r)) == EntryText(es[0]) + "\n" + l + r;
    } else {
      assert es + rest == rest;
    }
  }

  /** A run entered from another section: its header, then its lines. */
  lemma RunText(run: Group, rest: seq<Entry>, current: Option<string>, first: bool)
    requires run.entries != [] && current != Some(run.name)
    requires forall j :: 0 <= j < |run.entries| ==> run.entries[j].section == Some(run.name)
    ensures RenderFrom(run.entries + rest, current, first)
         == Gap(first) + (":/" + run.name + "\n") + Lines(run.entries) + RenderFrom(rest, Some(run.name), false)
  {
    var es := run.entries;
    var h := Gap(first) + (":/" + run.name + "\n");
    var tail := RenderFrom(es[1..] + rest, Some(run.name), false);
    assert RenderFrom(es + rest, current, first) == h + (EntryText(es[0]) + ("\n" + tail)) by {
      HeaderStep(es, rest, current, first, run.name);
    }
    var l, r := Lines(es[1..]), RenderFrom(rest, Some(run.name), false);
    assert tail == l + r by {
      SameSectionText(es[1..], rest, run.name);
    }
    assert Lines(es) == EntryText(es[0]) + "\n" + l;
    Regroup5(h, EntryText(es[0]), l, r);
  }

  /** The first entry of a run entered from another section. */
  lemma HeaderStep(es: seq<Entry>, rest: seq<Entry>, current: Option<string>, first: bool, name: string)
    requires es != [] && es[0].section == Some(name) && current != Some(name)
    ensures RenderFrom(es + rest, current, first)
         == Gap(first) + (":/" + name + "\n") + (EntryText(es[0]) + ("\n" + RenderFrom(es[1..] + rest, Some(name), false)))
  {
    var all := es + rest;
    assert all[0] == es[0] && all[1..] == es[1..] + rest;
  }

  lemma Regroup5(h: string, x: string, l: string, r: string)
    ensures h + (x + ("\n" + (l + r))) == h + (x + "\n" + l) + r
  {
  }

  lemma GroupedTail(runs: seq<Group>)
    requires runs != [] && Grouped(runs)
    ensures Grouped(runs[1..])
  {
    var more := runs[1..];
    assert forall i :: 0 <= i < |more| ==> more[i] == runs[i + 1];
  }

  /** The runs after a section other than the first run's: Sections. */
  lemma {:induction false} SectionsText(runs: seq<Group>, current: Option<string>, first: bool)
    requires Grouped(runs)
    requires runs != [] ==> current != Some(runs[0].name)
    ensures RenderFrom(Flatten(runs), current, first) == Sections(runs, first)
    decreases |runs|
  {
    if runs != [] {
      var run := runs[0];
      var more := runs[1..];
      assert run.entries != [];
      assert forall j :: 0 <= j < |run.entries| ==> run.entries[j].section == Some(run.name);
      RunText(run, Flatten(more), current, first);
      GroupedTail(runs);
      if more != [] {
        assert more[0] == runs[1];
      }
      SectionsText(more, Some(run.name), false);
    }
  }

  /** Every entry belongs to a section. */
  predicate Sectioned(es: seq<Entry>) {
    forall i :: 0 <= i < |es| ==> es[i].section.Some?
  }

  /** The number of entries at the front of es without a section. */
  function GlobalCount(es: seq<Entry>): (g: nat)
    ensures g <= |es|
    ensures forall j :: 0 <= j < g ==> es[j].section.None?
    ensures g < |es| ==> es[g].section.Some?
  {
    if es == [] || es[0].section.Some? then 0 else 1 + GlobalCount(es[1..])
  }

  /** The number of entries at the front of es in section name. */
  function RunLength(es: seq<Entry>, name: string): (k: nat)
    ensures k <= |es|
    ensures forall j :: 0 <= j < k ==> es[j].section == Some(name)
    ensures k < |es| ==> es[k].section != Some(name)
  {
    if es == [] || es[0].section != Some(name) then 0 else 1 + RunLength(es[1..], name)
  }

  /** The runs of consecutive entries of one section. */
  function Groups(es: seq<Entry>): (runs: seq<Group>)
    requires Sectioned(es)
    ensures Flatten(runs) == es && Grouped(runs)
    ensures runs != [] ==> runs[0].name == es[0].section.value
    decreases |es|
  {
    if es == [] then []
    else
      var name := es[0].section.value;
      var k := RunLength(es, name);
      assert Sectioned(es[k..]) by {
        assert forall i :: 0 <= i < |es| - k ==> es[k..][i] == es[k + i];
      }
      var more := Groups(es[k..]);
      GroupCons(Group(name, es[..k]), more, es, k);
      [Group(name, es[..k])] + more
  }

  lemma GroupCons(run: Group, more: seq<Group>, es: seq<Entry>, k: nat)
    requires Sectioned(es) && 0 < k <= |es| && run.entries == es[..k]
    requires forall j :: 0 <= j < k ==> es[j].section == Some(run.name)
    requires k < |es| ==> es[k].section != Some(run.name)
    requires Flatten(more) == es[k..] && Grouped(more)
    requires more != [] ==> es[k..] != [] && more[0].name == es[k..][0].section.value
    ensures Flatten([run] + more) == es && Grouped([run] + more)
  {
    var all := [run] + more;
    assert all[0] == run && all[1..] == more;
    assert es[..k] + es[k..] == es;
  }

  /** The text vars_save writes for a parsed buffer. */
  function SaveText(buf: string): string {
    Render(Sort(Collect(CStr(buf))))
  }
}
